=== FILE: README.md ===
# fmu-settings-gui: a verified model of the front end's core

This project models the core of the FMU Settings web front end in Dafny. The
front end is a React application. A user edits the settings of an FMU project
directory through it, and every change goes through a local API. The model
covers:

- **Utilities.** The version comparison, the mutation retry rule, the API
  token pick-up from the URL fragment or session storage, the empty
  masterdata values, and the list operations that add or remove
  identifier/uuid items by uuid.
- **The application shell.** The error toasts of the query and mutation
  caches, and the effects that install and eject the response interceptor
  and refresh the router.
- **The project service.** The project query's result and the lock-status
  query's read-only/editable notices. The lock-expiry countdown dialog.
- **The project status panel.** Its checks, its overall variant and its
  ordered table of rows.
- **The cache history viewer.** The snapshot list, the labels,
  pre-restore backup marking, the selection fallback, the dialogs, and the
  restore with its query invalidations. Also the helpers that format diff
  values, field paths, list item keys and cache file dates.
- **The RMS stratigraphy editor.** The name-based add and remove handlers
  that keep the RMS order, the cascade from a removed horizon to the zones
  using it, orphans, the bulk actions, and the grid layout of the
  stratigraphic framework. The layout places every zone in the first
  column whose rows it does not overlap.
- **The masterdata editor.** Building the option lists and the grouped item
  lists from the SMDA results of the selected fields; the affected-items
  search that links fields, countries and discoveries before an add or a
  remove; the confirmation step; the pickers; adding fields; and the
  submit that drops orphan discoveries.

Pure helpers are functions with lemmas. React state is a `class` whose fields
are the component's `useState` values, and each handler or effect is a
method. A method's `ensures` gives the whole new state, and where the source
makes a promise, that promise is proved about the functions the methods are
specified by. A JavaScript record (`Record<string, …>`) is a sequence of
entries with distinct keys, kept in insertion order. `localeCompare` is an
abstract `leq` that the sorting lemmas require to be a total preorder.
`Array.prototype.sort` is a stable insertion sort (module `Sorting`).

## Model

| member | source | states |
|---|---|---|
| VersionCompare.ComponentValues | frontend/src/utils/string.ts:6-7 | one component per dot-separated part |
| VersionCompare.ComponentValuesAt | frontend/src/utils/string.ts:6-11 | component i is `Number(parts[i]) \|\| 0`: the integer `Number` reads from part i (including a whole "<m>e-<e>"), and 0 when it reads NaN or a value not evaluated here |
| VersionCompare.ComponentValuesSnoc | frontend/src/utils/string.ts:6 | appending a part appends its value and leaves the earlier components alone |
| VersionCompare.LessFromIsFirstDifference | frontend/src/utils/string.ts:9-16 | the loop returns true exactly when, at the first position where the zero-padded component lists differ, the version's component is the smaller one |
| VersionCompare.IsVersionLessThanIff | frontend/src/utils/string.ts:5-17 | `isVersionLessThan(version, minimum)` holds iff the first differing component of the padded lists is smaller in `version` |
| VersionCompare.Irreflexive | frontend/src/utils/string.ts:5-17 | no version is less than itself |
| VersionCompare.Asymmetric | frontend/src/utils/string.ts:5-17 | two versions are never each less than the other |
| VersionCompare.Transitive | frontend/src/utils/string.ts:5-17 | less-than is transitive, so it is a strict order on versions |
| VersionCompare.PaddingIrrelevant | frontend/src/utils/string.ts:10-11 | reading a missing component as 0 makes lists that agree after zero-padding compare the same |
| VersionCompare.ComponentsOfDotted | frontend/src/utils/string.ts:6-7 | appending "." and a dot-free part appends that part's value to the component list |
| VersionCompare.TrailingZeroIrrelevant | frontend/src/utils/string.ts:9-16 | `v` and `v.0` are equal under the comparison: neither is less than the other |
| VersionCompare.NonNumericReadsAsZero | frontend/src/utils/string.ts:6-11 | a last part that `Number` reads as NaN compares exactly as a 0 would, against any other version and in both argument orders |
| VersionCompare.ZeroReadsAsZero | frontend/src/utils/string.ts:6-11 | the part "0" has the value 0 |
| VersionCompare.TrimStartDropsWhiteSpace | frontend/src/utils/string.ts:6 | `Number` skips exactly the white space at the start: what is left is a suffix, and everything dropped is white space |
| VersionCompare.TrimEndDropsWhiteSpace | frontend/src/utils/string.ts:6 | the same for the white space at the end |
| VersionCompare.ReadAround | frontend/src/utils/string.ts:6 | white space around a numeral does not change what `Number` reads |
| VersionCompare.SignedDigits | frontend/src/utils/string.ts:6 | a digit string reads as its value, with "+" as the same value and with "-" as its negation |
| VersionCompare.DecimalRoundTrip | frontend/src/utils/string.ts:6 | the decimal text of n, unsigned, with "+" or with "-", and with any white space around it, reads back as n, n and -n |
| VersionCompare.ExponentRoundTrip | frontend/src/utils/string.ts:6 | "<m>e<e>" reads as m·10^e; "<m>e-<e>" reads as the integer m/10^e when 10^e divides m, and otherwise as a fraction |
| VersionCompare.RadixRoundTrip | frontend/src/utils/string.ts:6 | "0x", "0o" and "0b" numerals read as their value in base 16, 8 and 2; with a "-" before them they read as NaN |
| VersionCompare.LastPartCompares | frontend/src/utils/string.ts:5-17 | versions that differ only in their last part compare as the values `Number` gives those parts |
| VersionCompare.NaturalComponent | frontend/src/utils/string.ts:6-11 | the decimal text of n is the component n |
| VersionCompare.NegativeComponent | frontend/src/utils/string.ts:6-11 | "-" followed by the decimal text of n is the component -n |
| VersionCompare.ExponentComponent | frontend/src/utils/string.ts:6-11 | "<m>e<e>" is the component m·10^e |
| VersionCompare.NegativeExponentComponent | frontend/src/utils/string.ts:6-11 | "<m>e-<e>" is the component m/10^e when 10^e divides m, and 0 for a fraction |
| VersionCompare.WholeNegativeExponents | frontend/src/utils/string.ts:6-11 | the parts "5e-0" and "10e-1" are the components 5 and 1 |
| VersionCompare.NegativePartIsLess | frontend/src/utils/string.ts:5-17 | a version ending in a negative part ("1.-1") is less than the same version ending in any natural ("1.0") |
| VersionCompare.ExponentPartCompares | frontend/src/utils/string.ts:5-17 | a last part "<m>e<e>" compares by its value m·10^e against a plain last part, in both argument orders |
| VersionCompare.NegativeExponentPartCompares | frontend/src/utils/string.ts:5-17 | a last part "<m>e-<e>" with a whole value m/10^e compares by that value against a plain last part k, in both argument orders: "1.5e-0" is not less than "1.4" |
| QueryRetry.MutationRetry | frontend/src/utils/query.ts:5-19 | retries at most once (`failureCount < 1`) and only a 401. A 401 from session creation or from an external API is never retried. Any other 401 is retried on its first failure |
| Authentication.GetTokenFromFragment | frontend/src/utils/authentication.ts:1-11 | with the `#token=` prefix, the fragment is that prefix followed by the returned token; without it, the token is "" |
| Authentication.FragmentTokenRoundTrip | frontend/src/utils/authentication.ts:4-11 | reading the token of `#token=` + t gives back t |
| Authentication.IsApiToken | frontend/src/utils/authentication.ts:31-33 | a token counts exactly when it is non-empty |
| Authentication.Browser.constructor | frontend/src/utils/authentication.ts:13-15 | the location and session storage the browser starts with, and an empty history |
| Authentication.Browser.GetApiToken | frontend/src/utils/authentication.ts:13-29 | a fragment token is stored under `apiToken`, the URL is replaced by path + search (its fragment dropped) and the token returned. Otherwise the stored token, or "", is returned and nothing changes. Afterwards storage holds the returned token and the URL has no token, so a second call returns the same token |
| Model.EmptyIdentifierUuid | frontend/src/utils/model.ts:16-21 | the placeholder item: identifier "(none)", uuid "0" |
| Model.EmptyMasterdata | frontend/src/utils/model.ts:23-31 | empty field, country and discovery lists; the placeholder as coordinate system and as stratigraphic column |
| FormUtils.IdentifierUuidArrayToOptionsArray | frontend/src/utils/form.ts:11-18 | one option per item, in order: value = uuid, label = identifier |
| FormUtils.FindOptionValueInIdentifierUuidArray | frontend/src/utils/form.ts:20-27 | returns an item exactly when exactly one item has the uuid, and then that item |
| FormUtils.FindIndex | frontend/src/utils/form.ts:47 | `findIndex` by uuid: the first matching position, or -1 when no item matches |
| FormUtils.ListField.constructor | frontend/src/utils/form.ts:38 | a form list field holding the given value |
| FormUtils.ListField.PushValue | frontend/src/utils/form.ts:49 | `pushValue` appends one item |
| FormUtils.ListField.RemoveValue | frontend/src/utils/form.ts:65 | `removeValue(i)` drops the item at position i; an index out of range leaves the list as it is |
| FormUtils.RemoveAt | frontend/src/utils/form.ts:65 | removing an index in range shortens the list by one; an index out of range leaves it unchanged |
| FormUtils.ValueList | frontend/src/utils/form.ts:42 | a single value becomes a one-item list, an array is used as is |
| FormUtils.AdditionAsWritten | frontend/src/utils/form.ts:45-51 | the old list is kept as a prefix; everything after it is a requested value whose uuid was not in the old list |
| FormUtils.CollectIndexes | frontend/src/utils/form.ts:53-59 | every collected index is a valid position, and the indexes are exactly the first positions of the requested uuids found in the list |
| FormUtils.MatchedIndexes | frontend/src/utils/form.ts:53-59 | each index is a position whose uuid was requested; each requested uuid that is in the list has its first position in the set |
| FormUtils.DescendingOrder | frontend/src/utils/form.ts:62-63 | the sort by `b - a` keeps the indexes as a multiset |
| FormUtils.DescendingOrderStrict | frontend/src/utils/form.ts:62-63 | distinct indexes come out strictly descending |
| FormUtils.KeepExcept | frontend/src/utils/form.ts:60-67 | dropping a set of positions keeps a sub-list of the original |
| FormUtils.HandleIdentifierUuidListOperation | frontend/src/utils/form.ts:37-69 | an addition leaves the field equal to `AdditionAsWritten` of the old value; a removal leaves it equal to `RemovalAsWritten` |
| FormUtils.PushAbsentValues | frontend/src/utils/form.ts:45-51 | the loop that pushes each value whose uuid the ORIGINAL list lacks ends with `AdditionAsWritten` |
| FormUtils.RemoveMatchingValues | frontend/src/utils/form.ts:52-67 | collecting indexes, sorting them descending and removing one at a time ends with `RemovalAsWritten` |
| FormUtils.RemoveEachDescending | frontend/src/utils/form.ts:61-66 | removing strictly descending valid indexes one at a time equals dropping that set of positions at once (no index shifting) |
| FormUtils.RemoveDistinctIndexes | frontend/src/utils/form.ts:60-67 | removal with distinct collected indexes drops exactly the matched positions |
| FormUtils.CollectIndexesDistinct | frontend/src/utils/form.ts:53-59 | requested values with distinct uuids collect distinct indexes |
| FormUtils.RemovalAsWrittenDistinctRequests | frontend/src/utils/form.ts:52-67 | when the requested uuids are distinct, the removal as written drops exactly the matched positions |
| FormUtils.RemovalAsWrittenRemovesUnrequested | frontend/src/utils/form.ts:52-67 | [A, B] minus [A, A] gives [] as written, where [B] is meant |
| FormUtils.RemovalCorrected | frontend/src/utils/form.ts:52-67 | the list with exactly the matched positions dropped: for each requested uuid found in the list, its first position, each position once |
| FormUtils.RemovalCorrectedExact | frontend/src/utils/form.ts:52-67 | on a list with unique uuids, an item survives the corrected removal iff it was in the list and its uuid was not requested |
| FormUtils.MatchedWhenRequested | frontend/src/utils/form.ts:55 | on a list with unique uuids, a position whose uuid is requested is matched |
| FormUtils.AdditionCorrected | frontend/src/utils/form.ts:45-51 | the old list is kept as a prefix |
| FormUtils.AdditionCorrectedOnlyNew | frontend/src/utils/form.ts:45-51 | everything appended is a requested value whose uuid the old list lacked |
| FormUtils.AdditionCorrectedUnique | frontend/src/utils/form.ts:29-32 | the documented promise that a value is added only when its uuid is absent: a list with unique uuids keeps them unique |
| FormUtils.AdditionCorrectedCovers | frontend/src/utils/form.ts:45-51 | afterwards every requested uuid is in the list |
| FormUtils.AdditionAsWrittenPushesDuplicates | frontend/src/utils/form.ts:45-51 | adding [A, A] to [] gives [A, A] as written: a duplicate uuid, where [A] is meant |
| Sorting.SortBy | frontend/src/components/ProjectStatus.tsx:103 | the stable sort keeps the elements as a multiset |
| Sorting.SortBySorted | frontend/src/components/project/rms/utils.ts:22-32 | under a total preorder, the result is sorted |
| Sorting.SortByStable | frontend/src/components/ProjectStatus.tsx:103 | elements that compare equal keep their relative order |
| Sorting.SortByKeySorted | frontend/src/components/project/rms/utils.ts:26-31 | sorting by an integer key (a comparator `key(a) - key(b)`) orders the keys |
| Sorting.SortByKeyStable | frontend/src/components/project/rms/utils.ts:26-31 | elements with equal keys keep their relative order |
| HistoryUtils.KeyIndex | frontend/src/components/project/history/utils.ts:26-34 | `key in record`: the entry's position, or -1 exactly when the key is absent |
| HistoryUtils.FirstPresentKey | frontend/src/components/project/history/utils.ts:82 | `ITEM_NAME_KEYS.find(key => key in value)`: the first listed key present in the record, or none when no listed key is present |
| HistoryUtils.FormatInlineValue | frontend/src/components/project/history/utils.ts:63-98 | one clause per kind of value: "null", "(missing)", the string or "(empty string)", the number, "true"/"false", "(empty list)" or "<n> values", "<key>: " and the inline text of that key's value for the first preferred key present, else "(<n> fields)", the bigint, "symbol(<description>)" or "symbol", else "(unavailable)"; never empty |
| HistoryUtils.Pairs | frontend/src/components/project/history/utils.ts:106-108 | one `key:value` text per entry, in order |
| HistoryUtils.GetListItemKey | frontend/src/components/project/history/utils.ts:100-111 | "<preferred>-" and the inline text of that key's value when a preferred key is present, else the pairs joined with "\|", and "empty-item" for an empty record; never empty |
| HistoryUtils.GetScalarDiffKind | frontend/src/components/project/history/utils.ts:113-125 | added iff only `before` is missing; removed iff only `after` is missing; updated iff both or neither are |
| HistoryUtils.IsListFieldDiff | frontend/src/components/project/history/utils.ts:30-34 | holds iff all three keys "added", "removed" and "updated" are present |
| HistoryUtils.FormatFieldPath | frontend/src/components/project/history/utils.ts:59-61 | every "." becomes " > ", no "." is left, and a path without dots is unchanged |
| HistoryUtils.GetSnapshotLabel | frontend/src/components/project/history/utils.ts:127-129 | "Snapshot " followed by the decimal digits of index + 1 |
| HistoryUtils.DigitRun | frontend/src/components/project/history/utils.ts:39 | `\d+`: the longest run of digits at the start |
| HistoryUtils.ParseStamp | frontend/src/components/project/history/utils.ts:39-47 | a parsed stamp is well formed and the file name starts with its text |
| HistoryUtils.ParseCacheStamp | frontend/src/components/project/history/utils.ts:37-48 | the stamp is read from the part after the last "/"; a parsed stamp is well formed and that name starts with it |
| HistoryUtils.FileNameAfterSlash | frontend/src/components/project/history/utils.ts:38 | `split("/").pop()` of dir/name is name, and of a name without "/" the name itself |
| HistoryUtils.ParseStampRoundTrip | frontend/src/components/project/history/utils.ts:36-48 | a well formed stamp written out, with any suffix, parses back to itself |
| HistoryUtils.ParseCacheStampRoundTrip | frontend/src/components/project/history/utils.ts:36-48 | the same behind any directory prefix |
| HistoryUtils.Milliseconds | frontend/src/components/project/history/utils.ts:45 | `slice(0, 3).padEnd(3, "0")`: three characters, the first three of the fraction, padded with zeros |
| HistoryUtils.DaysInMonth | frontend/src/components/project/history/utils.ts:47 | 28 to 31 days, and 29 exactly for February of a leap year |
| HistoryUtils.IsoText | frontend/src/components/project/history/utils.ts:45-47 | the 24-character ISO text of the stamp: its year, month, day, hour, minute and second in place, with the three millisecond digits and the separators "-", "T", ":", "." and "Z" |
| HistoryUtils.FormatCacheDateTime | frontend/src/components/project/history/utils.ts:50-57 | "Unknown date" when the id carries no stamp; nothing (the call throws) when the stamp is not a valid date; else the display text of the stamp's ISO time |
| HistoryUtils.FormatCacheDateTimeOfStamp | frontend/src/components/project/history/utils.ts:36-57 | a cache id whose stamp is a valid date shows that date's ISO time; one whose month is past 12 cannot be shown |
| HistoryViewer.AllCaches | frontend/src/components/project/history/Viewer.tsx:216-219 | the revisions reversed: newest first |
| HistoryViewer.CacheEntries | frontend/src/components/project/history/Viewer.tsx:221-236 | one entry per cache, in order, with its id and date label. An entry is the auto-backup iff a restore happened and it is the first; its label is "Snapshot <i+1>", with " (pre-restore)" on the auto-backup |
| HistoryViewer.AutoBackupCount | frontend/src/components/project/history/Viewer.tsx:221-236 | at most one entry is marked pre-restore, and exactly one when a restore happened and the list is non-empty |
| HistoryViewer.InvalidatedByRestoreIff | frontend/src/components/project/history/Viewer.tsx:268-291 | a restore invalidates exactly the project query, and the cache-list and diff queries of the restored resource |
| HistoryViewer.DiffInvalidation | frontend/src/components/project/history/Viewer.tsx:277-291 | a diff query is invalidated iff it is for the restored resource |
| HistoryViewer.SettledSelection | frontend/src/components/project/history/Viewer.tsx:242-252 | no selection exactly when the list is empty; a selection in the list is kept; otherwise the newest snapshot is selected |
| HistoryViewer.SettledSelectionStable | frontend/src/components/project/history/Viewer.tsx:242-252 | running the effect again on its own result changes nothing, so it settles after one step |
| HistoryViewer.Viewer.constructor | frontend/src/components/project/history/Viewer.tsx:201-207 | "config.json", no selection, no restore, both dialogs closed |
| HistoryViewer.Viewer.ApplySelectionFallback | frontend/src/components/project/history/Viewer.tsx:242-252 | the selection becomes the settled selection; nothing else changes |
| HistoryViewer.Viewer.OpenDiffDialog | frontend/src/components/project/history/Viewer.tsx:301-304 | selects the cache and opens the diff dialog, after which the diff query is enabled (also lines 254-263) |
| HistoryViewer.Viewer.OpenRestoreDialog | frontend/src/components/project/history/Viewer.tsx:306-309 | selects the cache and opens the restore dialog |
| HistoryViewer.Viewer.OpenRestoreDialogFromDiff | frontend/src/components/project/history/Viewer.tsx:311-316 | closes the diff dialog; the restore dialog opens only for a non-empty selection |
| HistoryViewer.Viewer.RestoreSelectedCache | frontend/src/components/project/history/Viewer.tsx:318-328 | no request without a non-empty selection; otherwise a request for the selected revision and the current resource |
| HistoryViewer.Viewer.OnRestoreSuccess | frontend/src/components/project/history/Viewer.tsx:265-299 | invalidates exactly the cached keys a restore affects, adds the success toast, remembers the restored revision, closes the restore dialog and clears the selection |
| HistoryViewer.Viewer.ChangeResource | frontend/src/components/project/history/Viewer.tsx:330-332 | picking another resource drops the restored-revision marker; picking the same one keeps it |
| HistoryViewer.Viewer.DiffRestoreEnabled | frontend/src/components/project/history/Viewer.tsx:464-470 | when the diff dialog's Restore is enabled, the confirmation's Restore is enabled too, and there is a selection and a non-empty diff (also lines 521-525) |
| AppMain.PrefixOf | frontend/src/main.tsx:78-82 | the meta's `errorPrefix` when it has one, else the default prefix |
| AppMain.TextOf | frontend/src/main.tsx:83-88 | the response body's `detail` when the body is an object that has one, else the error's message |
| AppMain.ErrorMessage | frontend/src/main.tsx:76-109 | no toast exactly when the response body is a non-empty primitive (the `in` test throws). Otherwise the message starts with the prefix and ": ", ends with ": " and the text, and is exactly as long as both with the separator |
| AppMain.MessagePinned | frontend/src/main.tsx:77-88 | a message with that start, that end and that length is exactly prefix + ": " + text |
| AppMain.QueryErrorMessage | frontend/src/main.tsx:76-91 | the same, with "Error getting data" as the default prefix |
| AppMain.MutationErrorMessage | frontend/src/main.tsx:94-109 | the same, with "Error updating data" as the default prefix |
| AppMain.App.constructor | frontend/src/main.tsx:138-141 | an empty token of unknown validity, no interceptor flag, no interceptor installed, no router refresh |
| AppMain.App.RunInterceptorEffect | frontend/src/main.tsx:147-164 | with a non-empty token, one new interceptor built from the current token and validity is installed, its id is remembered and the flag is set; otherwise nothing is installed |
| AppMain.App.CleanupInterceptorEffect | frontend/src/main.tsx:165-169 | ejects exactly the interceptor this effect installed, if any |
| AppMain.App.RunRouterEffect | frontend/src/main.tsx:172-176 | the router is invalidated once when the interceptor flag is set, and not otherwise |
| AppMain.App.RerunEffects | frontend/src/main.tsx:147-176 | a change of the token or its validity cleans up the previous interceptor and runs the effect again, so exactly one interceptor, seeing the new values, is installed for a non-empty token and none for an empty one. The router is refreshed once exactly when the flag went from false to true |
| AppMain.App.SetApiToken | frontend/src/main.tsx:138-176 | setting the token it already has changes nothing; a new token re-runs the effects as above. The flag is never reset |
| AppMain.App.SetApiTokenValid | frontend/src/main.tsx:139-176 | a change of `apiTokenStatus.valid` re-runs the interceptor effect, whose new interceptor sees the new validity; the same value changes nothing |
| ProjectService.ProjectQueryResult | frontend/src/services/project.ts:35-60 | success gives status true and the data. An HTTP 401 is rethrown, and so is an HTTP error whose body is a non-empty primitive (the `in` test throws). Any other failure gives status false, no data, and the response detail or "" |
| ProjectService.LockTransitionNotices | frontend/src/services/project.ts:80-93 | no notice on the first fetch; "now read-only" iff the lock was held and no longer is; "now open for editing" iff it was not held and now is; at most one notice |
| ProjectService.LockPollingEnabled | frontend/src/services/project.ts:100 | the lock status is polled iff the project query succeeded with data |
| ProjectService.LockStatusQuery.constructor | frontend/src/services/project.ts:67-69 | no cached lock status, no toasts |
| ProjectService.LockStatusQuery.Fetch | frontend/src/services/project.ts:69-96 | returns and caches the fetched status and shows the transition notices against the previous cached status |
| ProjectService.NoticeTexts | frontend/src/services/project.ts:85-91 | one toast text per notice, in order |
| ProjectStatus.CheckFor | frontend/src/components/ProjectStatus.tsx:43-56 | a check succeeds iff the section is present and is an error iff it is missing |
| ProjectStatus.DoProjectStatusChecks | frontend/src/components/ProjectStatus.tsx:37-60 | three checks (masterdata, access, model) in that order, "… is present/missing", success iff present, never a warning |
| ProjectStatus.HasStatus | frontend/src/components/ProjectStatus.tsx:129-130 | `some(check => check.status === s)` |
| ProjectStatus.Variant | frontend/src/components/ProjectStatus.tsx:129-132 | error iff some check is an error; warning iff none is an error and some is a warning; success iff all succeed |
| ProjectStatus.HeaderMatchesVariant | frontend/src/components/ProjectStatus.tsx:151-156 | the header text agrees with the variant: "Some checks need attention", "Some checks may require review" or "All checks passed" |
| ProjectStatus.ProjectVariant | frontend/src/components/ProjectStatus.tsx:129-132 | a project's variant is never a warning, and is success iff masterdata, access and model are all present (also lines 37-60) |
| ProjectStatus.StatusInfoRows | frontend/src/components/ProjectStatus.tsx:95-103 | the rows are the checks that are shown (all when detailed, else the unsuccessful ones), ordered error, warning, success |
| ProjectStatus.StatusInfoRowsStable | frontend/src/components/ProjectStatus.tsx:101-103 | checks of the same status keep their order |
| LockExpire.TimeLeft | frontend/src/components/LockExpireDialog.tsx:61 | `max(0, expireAt - now)` as a property: never negative, at least the difference, and either 0 or the difference |
| LockExpire.TimeLeftNonIncreasing | frontend/src/components/LockExpireDialog.tsx:60-65 | as the clock advances, the time left never grows |
| LockExpire.DisplaySeconds | frontend/src/components/LockExpireDialog.tsx:96 | `Math.ceil(t / 1000)`: the least whole number of seconds covering t |
| LockExpire.LockExpireCountdown.constructor | frontend/src/components/LockExpireDialog.tsx:30-31 | dialog closed, no time left, no interval |
| LockExpire.LockExpireCountdown.UpdateTimeUntilExpire | frontend/src/components/LockExpireDialog.tsx:60-65 | stores the time left and opens the dialog iff it is within the warning threshold |
| LockExpire.LockExpireCountdown.RunEffect | frontend/src/components/LockExpireDialog.tsx:58-75 | without an expiry time (or with 0), nothing happens; otherwise the time is updated at once and one interval is started (also lines 35-38) |
| LockExpire.LockExpireCountdown.Tick | frontend/src/components/LockExpireDialog.tsx:69 | each tick updates the time left, which never grows; once open, the dialog stays open |
| LockExpire.LockExpireCountdown.Cleanup | frontend/src/components/LockExpireDialog.tsx:71-73 | clears exactly the running interval |
| RmsUtils.Names | frontend/src/components/project/rms/utils.ts:59 | the item names, one per item, in order |
| RmsUtils.NamesIn | frontend/src/components/project/rms/utils.ts:59 | a name is among the names iff some item carries it |
| RmsUtils.FindIndexByName | frontend/src/components/project/rms/utils.ts:18-20 | the first position holding the name, or -1 exactly when no item has it |
| RmsUtils.SortByOrderInReferenceList | frontend/src/components/project/rms/utils.ts:22-32 | a permutation of the items |
| RmsUtils.SortByOrderInReferenceListSorted | frontend/src/components/project/rms/utils.ts:22-32 | the result is ordered by position in the reference list; items absent from it (index -1) come first |
| RmsUtils.NamesNotInReference | frontend/src/components/project/rms/utils.ts:34-41 | a name is listed iff an item carries it and no reference item does |
| RmsUtils.LastByName | frontend/src/components/project/rms/utils.ts:61-67 | the lookup in the name-to-item map finds an available item of that name, and finds none exactly when no available item has it |
| RmsUtils.ItemsToAdd | frontend/src/components/project/rms/utils.ts:59-67 | everything to add is an available item whose name was requested and is not in the project; every such name that is available is added |
| RmsUtils.WithoutNames | frontend/src/components/project/rms/utils.ts:83-89 | an item is kept iff it was in the project and its name was not requested, in the original order |
| RmsUtils.NamesOfMultiset | frontend/src/components/project/rms/utils.ts:71-74 | a permutation has the same names |
| RmsUtils.StratigraphyForm.constructor | frontend/src/components/project/rms/Stratigraphy.tsx:316-319 | the form starts from the project's horizons and zones |
| RmsUtils.StratigraphyForm.AddItems | frontend/src/components/project/rms/utils.ts:51-77 | the field becomes `AddedField`: unchanged when nothing is new, else the old and the new items in the available order; the other field is unchanged |
| RmsUtils.StratigraphyForm.RemoveItems | frontend/src/components/project/rms/utils.ts:79-91 | the field keeps the items whose names were not requested; the other field is unchanged |
| RmsUtils.StratigraphyForm.RemoveAll | frontend/src/components/project/rms/utils.ts:93-96 | both fields become empty |
| RmsUtils.StratigraphyForm.AddAll | frontend/src/components/project/rms/utils.ts:98-101 | both fields become the available lists |
| RmsUtils.AddItemsCovers | frontend/src/components/project/rms/utils.ts:51-77 | after adding, every name that was there still is, and every requested available name is there |
| RmsUtils.AddItemsOnlyRequested | frontend/src/components/project/rms/utils.ts:51-77 | after adding, each item was there before or is an available item of a requested name |
| RmsUtils.AddItemsOrdered | frontend/src/components/project/rms/utils.ts:69-76 | when anything is added, the field follows the available (stratigraphic) order |
| Stratigraphy.AddHorizon | frontend/src/components/project/rms/Stratigraphy.tsx:145-147 | adds the horizon by name; an available horizon is then in the project; zones are unchanged |
| Stratigraphy.AddZone | frontend/src/components/project/rms/Stratigraphy.tsx:149-152 | adds the zone and its top and base horizons; each of them that is available is then in the project |
| Stratigraphy.ZonesUsingHorizon | frontend/src/components/project/rms/Stratigraphy.tsx:156-163 | the names of exactly the project zones whose top or base is the horizon |
| Stratigraphy.RemoveHorizon | frontend/src/components/project/rms/Stratigraphy.tsx:154-165 | removes the horizon by name and every project zone that uses it |
| Stratigraphy.RemoveHorizonCascade | frontend/src/components/project/rms/Stratigraphy.tsx:154-165 | afterwards the horizon is gone, no remaining zone uses it, and every zone whose name was not removed is kept |
| Stratigraphy.RemoveZone | frontend/src/components/project/rms/Stratigraphy.tsx:166-168 | removes the zone by name; horizons are unchanged |
| Stratigraphy.ClickAvailableZone | frontend/src/components/project/rms/Stratigraphy.tsx:231-233 | clicking an unselected available zone adds it with its horizons; clicking a selected one removes it |
| Stratigraphy.ClickAvailableHorizon | frontend/src/components/project/rms/Stratigraphy.tsx:234-236 | clicking an unselected available horizon adds it; clicking a selected one removes it and the zones using it |
| Stratigraphy.ClickSelectsZone | frontend/src/components/project/rms/Stratigraphy.tsx:139-143 | after a click adds an unselected zone, it is no longer unselected (also lines 231-233) |
| Stratigraphy.HasOrphans | frontend/src/components/project/rms/Stratigraphy.tsx:170-176 | holds iff some project horizon or zone has a name that RMS does not list |
| Stratigraphy.FormError | frontend/src/components/project/rms/Stratigraphy.tsx:178-182 | the form has the orphan error iff there are orphans |
| Stratigraphy.BulkActionsSettle | frontend/src/components/project/rms/Stratigraphy.tsx:212-247 | after "Remove all", that button is disabled and nothing is orphaned; after "Add all", that button is disabled and nothing is orphaned |
| Stratigraphy.Confirm | frontend/src/components/project/rms/Stratigraphy.tsx:51-90 | confirming "add" sets both lists to the available ones; confirming "remove" empties both (also lines 259-262) |
| Stratigraphy.SubmitRequest | frontend/src/components/project/rms/Stratigraphy.tsx:320-329 | a save request with the form value is made iff the project is not read-only |
| Stratigraphy.SaveEnabledSubmits | frontend/src/components/project/rms/Stratigraphy.tsx:320-329 | when Save is enabled, submitting sends the form value (also line 386) |
| StratFramework.HorizonIndices | frontend/src/components/project/rms/StratigraphicFramework.tsx:33-36 | the rows top, top+1, …, base-1, and none when base <= top |
| StratFramework.InitialPlacement | frontend/src/components/project/rms/StratigraphicFramework.tsx:26-44 | one entry per zone name, all in column 1; the entry of a name describes the last zone of that name (its top and base positions and the rows between) |
| StratFramework.PlaceInColumn | frontend/src/components/project/rms/StratigraphicFramework.tsx:52-70 | the while loop stops at the first column whose occupied rows miss the zone's rows (every lower column overlaps) and marks those rows occupied there |
| StratFramework.PlaceStep | frontend/src/components/project/rms/StratigraphicFramework.tsx:51-71 | each placed zone keeps the invariant: zones in one column share no row, and each zone's lower columns were all blocked by an earlier zone |
| StratFramework.GetZoneGridPlacement | frontend/src/components/project/rms/StratigraphicFramework.tsx:22-74 | one entry per zone name with its rows; every column is between 1 and the number of zones; two zones in one column share no row; zones are placed in order of span, and every column left of a zone's overlaps an earlier-placed zone |
| StratFramework.PlaceInOrder | frontend/src/components/project/rms/StratigraphicFramework.tsx:49-71 | placing the zones in the sorted order keeps their rows, and gives a greedy first-fit assignment in which zones of one column share no row |
| StratFramework.FinalPlacement | frontend/src/components/project/rms/StratigraphicFramework.tsx:49-73 | the final map has columns in 1..zone count, no shared rows within a column, and the first-fit property |
| StratFramework.NumGridRows | frontend/src/components/project/rms/StratigraphicFramework.tsx:132 | at least 1 and at least twice the horizons; exactly twice when there are horizons |
| StratFramework.NumStratColumns | frontend/src/components/project/rms/StratigraphicFramework.tsx:133-136 | the largest column, or 1 when there is none: at least 1, no column above it, and it is 1 or one of the columns |
| StratFramework.NumStratColumnsBound | frontend/src/components/project/rms/StratigraphicFramework.tsx:131-136 | the framework never needs more columns than there are zones (or 1) |
| StratFramework.HorizonsUsedByZones | frontend/src/components/project/rms/StratigraphicFramework.tsx:142-146 | exactly the top and base horizon names of the zones that are not unselected |
| MasterdataUtils.IndexOf | frontend/src/components/project/masterdata/functions.ts:225 | `key in record`: the key's position, or -1 exactly when it is absent |
| MasterdataUtils.SetGroup | frontend/src/components/project/masterdata/functions.ts:228-235 | `groups[name] = items`: that group reads back as the items, other groups are untouched, an existing name keeps its place, a new one goes last, and names stay distinct (also lines 187, 193) |
| MasterdataUtils.TotalItemsZero | frontend/src/components/project/masterdata/utils.ts:71-84 | the count is 0 iff the field list, the country list and every discovery group are empty |
| MasterdataUtils.GroupItemsBound | frontend/src/components/project/masterdata/utils.ts:77-81 | one group never holds more items than the count of all groups |
| MasterdataUtils.ItemsCount | frontend/src/components/project/masterdata/utils.ts:71-84 | the loop over the groups returns the number of fields, countries and discoveries in all groups |
| MasterdataUtils.EmptyOptionsData | frontend/src/components/project/masterdata/utils.ts:12-19 | all four option lists empty |
| MasterdataUtils.EmptyItemLists | frontend/src/components/project/masterdata/utils.ts:21-37 | no items; no discovery group, or only the empty "none" group when asked for |
| MasterdataUtils.EmptyFormMasterdataBase | frontend/src/components/project/masterdata/utils.ts:39-45 | no items and no discovery groups |
| MasterdataUtils.EmptyFormMasterdataSub | frontend/src/components/project/masterdata/utils.ts:47-62 | no countries; no discovery group, or only the empty "none" group when asked for |
| MasterdataUtils.EmptyFormMasterdataProject | frontend/src/components/project/masterdata/utils.ts:64-69 | empty lists and empty options |
| MasterdataUtils.UuidInAppend | frontend/src/components/project/masterdata/functions.ts:304 | a uuid is in a concatenation iff it is in one of the parts |
| MasterdataUtils.PushUnique | frontend/src/components/project/masterdata/functions.ts:207-211 | pushing an item whose uuid is new keeps uuids unique |
| MasterdataFunctions.AllOfIn | frontend/src/components/project/masterdata/functions.ts:204-205 | an item is among the items of a kind over all results iff some result lists it |
| MasterdataFunctions.PartitionedExactlyOne | frontend/src/components/project/masterdata/functions.ts:204-223 | after the split, each seen item's uuid is in exactly one of the project and available lists, and in the project list iff the project holds it |
| MasterdataFunctions.PartitionByUuid | frontend/src/components/project/masterdata/functions.ts:205-223 | the loop sorts each field (country) into the project list iff the project holds its uuid, else into the available list, each uuid once; lists only grow |
| MasterdataFunctions.PlaceGroupDiscoveries | frontend/src/components/project/masterdata/functions.ts:226-233 | the group's discoveries held by the project are appended to the project group and recorded as seen; the others go to the available group, in order |
| MasterdataFunctions.UuidsOfPlaced | frontend/src/components/project/masterdata/functions.ts:227-229 | a uuid is recorded as seen iff the group lists it and the project holds it |
| MasterdataFunctions.ProjectGroups | frontend/src/components/project/masterdata/functions.ts:186-190 | one empty discovery group per project field identifier |
| MasterdataFunctions.AvailableGroups | frontend/src/components/project/masterdata/functions.ts:191-198 | one empty discovery group per SMDA result key, in key order |
| MasterdataFunctions.SortEntryDiscoveries | frontend/src/components/project/masterdata/functions.ts:225-236 | one result's discoveries are split between the groups (or all made available when its field is not in the project), keeping the loop invariant |
| MasterdataFunctions.CreateItemLists | frontend/src/components/project/masterdata/functions.ts:180-246 | fields and countries are split by project membership. Project groups are the project fields, and available groups the result keys. A project field's group holds the discoveries the project has, and its available group the rest. Any other result's discoveries are all available. Orphans are the project discoveries that no project field's result lists, in the "none" group |
| MasterdataFunctions.DummyGroupPush | frontend/src/components/project/masterdata/functions.ts:239-243 | pushing onto the fresh "none" group gives the one group holding exactly the pushed items (also line 199) |
| MasterdataFunctions.OrphansUnplaced | frontend/src/components/project/masterdata/functions.ts:239-243 | filtering by the seen uuids equals filtering by "not listed by any project field's result" |
| MasterdataFunctions.CollectAffected | frontend/src/components/project/masterdata/functions.ts:294-307 | one `forEach` over the checked items: everything pushed is linked to a checked item through a result and has the wanted project membership, and every such linked item's uuid is pushed |
| MasterdataFunctions.CollectLinksOf | frontend/src/components/project/masterdata/functions.ts:296-305 | the inner `forEach` for one checked item: it keeps what was already affected, adds only linked items with the wanted project membership, and afterwards every such item of every result listing the checked item is affected |
| MasterdataFunctions.CheckForAffectedItems | frontend/src/components/project/masterdata/functions.ts:283-357 | for an addition: the countries of added fields and the fields of added discoveries that are not in the project. For a removal: the discoveries of removed fields and the fields of removed countries that are in the project. In each case exactly those, up to uuid |
| MasterdataFunctions.MergeAffected | frontend/src/components/project/masterdata/functions.ts:389-420 | new uuids are appended to the affected items (unique, only found items, every found uuid present); the next round checks exactly the found items not yet checked |
| MasterdataFunctions.CheckRound | frontend/src/components/project/masterdata/functions.ts:371-421 | one round keeps the affected items unique, of the wanted project membership, covering everything linked to the selection, and queues only unchecked items |
| MasterdataFunctions.CoversFromFound | frontend/src/components/project/masterdata/functions.ts:389-420 | the items linked to the selection stay covered as the affected lists grow |
| MasterdataFunctions.HandleAffectedItems | frontend/src/components/project/masterdata/functions.ts:359-432 | stops within `AFFECTEDCHECK_LIMIT + 1` rounds. The affected lists are unique by uuid. An addition affects only items outside the project and no discoveries, and covers the countries of the selected fields and the fields of the selected discoveries. A removal affects only project items and no countries, and covers the discoveries of the selected fields and the fields of the selected countries |
| MasterdataOptions.ByIdentifierPreorder | frontend/src/components/project/masterdata/functions.ts:111 | comparing items by `stringCompare` of their identifiers is a total preorder when the string comparison is (also lines 148, 176) |
| MasterdataOptions.CsUpdated | frontend/src/components/project/masterdata/functions.ts:101-111 | the record entry of a project field's default system: the system first recorded for that uuid, and the old fields plus the result's fields, sorted by identifier |
| MasterdataOptions.CsFoldMeaning | frontend/src/components/project/masterdata/functions.ts:97-115 | the reduce yields one entry per distinct default system of a project field's result. Each entry holds that system and exactly the SMDA fields of the project fields using it, sorted |
| MasterdataOptions.DefaultCoordinateSystems | frontend/src/components/project/masterdata/functions.ts:97-115 | the loop computes that reduce |
| MasterdataOptions.DefaultOption | frontend/src/components/project/masterdata/functions.ts:122-132 | the labelled option keeps the system's uuid |
| MasterdataOptions.SortedDefaults | frontend/src/components/project/masterdata/functions.ts:118-121 | the sort by the first field's identifier is a permutation |
| MasterdataOptions.DefaultOptions | frontend/src/components/project/masterdata/functions.ts:118-133 | one labelled option per default system, in sorted order, each the option of some default system |
| MasterdataOptions.DefaultOptionsUuids | frontend/src/components/project/masterdata/functions.ts:118-133 | the default options carry exactly the uuids of the default systems |
| MasterdataOptions.DefaultOptionsText | frontend/src/components/project/masterdata/functions.ts:123-131 | with one default system the label is "<id> [default]"; with several it is "<id> [default for <fields joined by ", ">]" |
| MasterdataOptions.CoordinateSystemsOptionsMeaning | frontend/src/components/project/masterdata/functions.ts:141-150 | the default options come first. The rest are the first project field's systems whose uuid is not a default, sorted by identifier. Every system of that field is offered |
| MasterdataOptions.Labelled | frontend/src/components/project/masterdata/functions.ts:166-170 | each column gets " [<field>]" appended when there is more than one project field |
| MasterdataOptions.ColumnsFoldIn | frontend/src/components/project/masterdata/functions.ts:151-175 | an item is in the reduce iff it is (the label of) a column of some project field's result |
| MasterdataOptions.ColumnsUnlabelled | frontend/src/components/project/masterdata/functions.ts:168-169 | with at most one project field, no label is added |
| MasterdataOptions.ProjectColumns | frontend/src/components/project/masterdata/functions.ts:151-175 | the loop computes the reduce over the results |
| MasterdataOptions.StratigraphicColumnsOptionsMeaning | frontend/src/components/project/masterdata/functions.ts:161-176 | the options are exactly the project fields' columns, labelled with their field when there are several fields, and sorted by identifier |
| MasterdataOptions.CreateOptions | frontend/src/components/project/masterdata/functions.ts:91-178 | no coordinate systems without project fields. Otherwise the first field's systems, and the default options followed by the remaining systems. The columns and the sorted, labelled column options as above |
| MasterdataOptions.InitialValueError | frontend/src/components/project/masterdata/functions.ts:248-265 | no error iff exactly one entry of the placeholder plus the options has the value's uuid; otherwise "Initial value "<id>" does not exist in selection list" |
| MasterdataOptions.PlaceholderAccepted | frontend/src/components/project/masterdata/functions.ts:257-258 | the placeholder value is always accepted |
| MasterdataOptions.InitialValueErrorIff | frontend/src/components/project/masterdata/functions.ts:248-265 | for a real value and options with unique uuids, there is no error iff the options hold its uuid |
| MasterdataOptions.PrepareSelectedItems | frontend/src/components/project/masterdata/functions.ts:267-281 | a selection of exactly one item, of the given kind (a discovery in the "none" group), with the given operation |
| MasterdataEdit.SetEntry | frontend/src/components/project/masterdata/Edit.tsx:863 | `acc[field] = data`: that key reads back as the data, other keys are untouched, a new key goes last |
| MasterdataEdit.LastWithKeyMeaning | frontend/src/components/project/masterdata/Edit.tsx:858-867 | a key holds nothing iff no loaded result has that key; otherwise it holds a loaded result with that key |
| MasterdataEdit.Combine | frontend/src/components/project/masterdata/Edit.tsx:853-871 | each key holds the last loaded result with that key (the first field's identifier, else `index-<i>`); pending iff some query is pending; success iff all succeeded |
| MasterdataEdit.NewNames | frontend/src/components/project/masterdata/Edit.tsx:1036-1042 | the names pushed by the reduce: exactly the requested names not already present, each once |
| MasterdataEdit.AddFieldsCounts | frontend/src/components/project/masterdata/Edit.tsx:1033-1045 | after adding, an existing name occurs as often as before and a new requested name exactly once |
| MasterdataEdit.AddFieldsNoRepeats | frontend/src/components/project/masterdata/Edit.tsx:1033-1045 | adding fields to a list without repeats keeps it without repeats |
| MasterdataEdit.ApplyOperation | frontend/src/components/project/masterdata/Edit.tsx:904-933 | the list operation on a form list: nothing to apply leaves it as it is. An addition keeps the list as a prefix, covers every value and keeps uuids unique. A removal on a list with unique uuids keeps exactly the items whose uuid was not requested |
| MasterdataEdit.ItemsOperationResult | frontend/src/components/project/masterdata/Edit.tsx:897-935 | without a selection (or an empty one) the form is unchanged. Otherwise the operation is applied to fields, countries and discoveries with the selected plus affected items of each kind. The coordinate system and column are untouched |
| MasterdataEdit.PickOption | frontend/src/components/project/masterdata/Edit.tsx:1212-1218 | the picked value is the option with that uuid, or the placeholder; a uuid held by exactly one option picks that option |
| MasterdataEdit.PickedOptionAccepted | frontend/src/components/project/masterdata/Edit.tsx:1212-1218 | whatever is picked passes the initial-value check against the same options |
| MasterdataEdit.EditDataFor | frontend/src/components/project/masterdata/functions.ts:50-89 | the options, the two initial-value errors (coordinate system against `coordinateSystems`, column against `stratigraphicColumnsOptions`), and the project, available and orphan lists, all as the functions above compute them from the form |
| MasterdataEdit.ApplyItemsOperation | frontend/src/components/project/masterdata/Edit.tsx:902-934 | the three guarded list operations yield `ItemsOperationResult` |
| MasterdataEdit.Editor.constructor | frontend/src/components/project/masterdata/Edit.tsx:813-830 | the form holds the project's masterdata; empty lists, options and orphans; no selection; no operation running; dialogs closed (also lines 873-874) |
| MasterdataEdit.Editor.OpenDialog | frontend/src/components/project/masterdata/Edit.tsx:969-977 | opening loads the project field identifiers, sorted, as the SMDA fields to query; both errors are kept |
| MasterdataEdit.Editor.AddFields | frontend/src/components/project/masterdata/Edit.tsx:1033-1045 | the SMDA fields become the old ones plus the new requested names, each once, sorted; both errors are kept |
| MasterdataEdit.Editor.PrepareEditData | frontend/src/components/project/masterdata/functions.ts:50-89 | the editor's project, available and orphan data and both errors become what `EditDataFor` computes; nothing else changes |
| MasterdataEdit.Editor.SetEditData | frontend/src/components/project/masterdata/functions.ts:83-88 | stores the prepared data; nothing else changes |
| MasterdataEdit.Editor.HandleItemsOperation | frontend/src/components/project/masterdata/Edit.tsx:897-935 | the form becomes `ItemsOperationResult` of the selection and the affected items; both errors are kept |
| MasterdataEdit.Editor.FinishItemsOperation | frontend/src/components/project/masterdata/Edit.tsx:937-941 | clears the selection and the affected items and ends the operation; both errors are kept |
| MasterdataEdit.Editor.StartItemsOperation | frontend/src/components/project/masterdata/Edit.tsx:943-967 | the affected items are those `handleAffectedItems` finds for the selection against the form as it was. With several selected items or any affected item, it stores them and asks for confirmation. Otherwise the operation is applied at once and finished |
| MasterdataEdit.Editor.SelectionChanged | frontend/src/components/project/masterdata/Edit.tsx:1001-1017 | a non-empty selection with loaded data and no operation running starts one: when confirmation is needed the dialog opens with the affected items and the form is unchanged, otherwise the form becomes the operation's result and the selection is cleared. Anything else changes nothing |
| MasterdataEdit.Editor.HandleConfirmItemsOperationDecision | frontend/src/components/project/masterdata/Edit.tsx:1047-1053 | confirming applies the operation and declining leaves the form as it is; both errors are kept |
| MasterdataEdit.Editor.DataLoaded | frontend/src/components/project/masterdata/Edit.tsx:979-999 | an open dialog with loaded, non-empty data prepares the edit data; otherwise nothing changes |
| MasterdataEdit.Editor.SelectItem | frontend/src/components/project/masterdata/Edit.tsx:776-786 | clicking an item selects exactly that item for the operation; both errors are kept |
| MasterdataEdit.Editor.PickCoordinateSystem | frontend/src/components/project/masterdata/Edit.tsx:1195-1219 | the form's coordinate system becomes the picked option from `coordinateSystems` (or the placeholder) and its error is cleared |
| MasterdataEdit.Editor.PickStratigraphicColumn | frontend/src/components/project/masterdata/Edit.tsx:1226-1251 | the form's column becomes the picked option from `stratigraphicColumns` (or the placeholder) and its error is cleared |
| MasterdataEdit.Editor.Submit | frontend/src/components/project/masterdata/Edit.tsx:1262-1269 | the orphan discoveries are removed from the form; the form is sent unless the project is read-only (also lines 886-894); both errors are kept |
| MasterdataEdit.Editor.Close | frontend/src/components/project/masterdata/Edit.tsx:1019-1023 | the form is reset to the project's masterdata, both errors are cleared and the edit data become the empty values |
| MasterdataEdit.SubmitDropsOrphans | frontend/src/components/project/masterdata/Edit.tsx:1262-1269 | on a discovery list with unique uuids, a discovery is kept on submit iff it is not an orphan |

## Left out

- `Edit.tsx` keeps local copies of the masterdata helpers (`Edit.tsx:131-607`). They are modelled once, from `functions.ts` and `utils.ts`.
- `handleNameUuidListOperation(OnForm)` and `findOptionValueInNameUuidArray` are not part of this model. The masterdata dialog uses them for its form lists and pickers; the three entries below stand in for them.
- MasterdataEdit.ApplyOperation: stands in for `handleNameUuidListOperation(OnForm)` as the identifier/uuid list operation, in its corrected form (see Findings).
- MasterdataEdit.PickOption: stands in for `findOptionValueInNameUuidArray` as the unique-match lookup.
- MasterdataOptions.InitialValueError: models `handleErrorUnknownInitialValue`, whose call to `findOptionValueInNameUuidArray` is modelled by the same unique-match lookup.
- MasterdataOptions.CoordinateSystemsOf: a key that SMDA did not return reads as no systems, and a missing discovery group (`NoneGroup`) reads as empty. The source would throw on the undefined value.
- MasterdataOptions.DefaultOptionsText: a default system with no SMDA fields cannot occur in the source. In the model its label uses "" as the first field identifier.
- MasterdataFunctions.HandleAffectedItems: the number of rounds is a ghost output. Its coverage clauses state only what the selection itself links to, not the closure over later rounds. The source makes no promise beyond the round limit.
- MasterdataFunctions.CheckForAffectedItems: uniqueness of its own output is not stated. Only `handleAffectedItems` removes duplicates, and that is proved there.
- The picker for the coordinate system offers `coordinateSystemsOptions` but looks the chosen uuid up in `coordinateSystems` (`Edit.tsx:1212-1218`). This is modelled as written. Choosing a default system of another project field gives the placeholder when the first field's result does not list that system.
- JavaScript orders integer-like object keys before the other keys. Records here keep plain insertion order.
- In-place mutation of the `smdaFields` array and React's identity checks on it are not modelled. `addFields` is a new sorted value.
- The masterdata save mutation, the network, toasts and `formSubmitCallback` are not modelled. A submit is the form value handed on, and closing afterwards is `Close`.
- The SMDA search dialog (`openSearchDialog`/`closeSearchDialog`) only toggles a flag and is not modelled. The form `onChange` listener re-runs the same preparation as `PrepareEditData`.
- React's batching and the ordering of effects are not modelled. Each handler or effect is one atomic method.
- `LockExpireDialog.tsx:29-56, 80-115` (refresh, expired state, rendering) refer to names that are not defined in that file. Only the countdown and the seconds display are modelled.
- LockExpire.LockExpireCountdown.Tick requires a clock that does not go backwards.
- Locales are not modelled: the text shown for a cache file's date (`displayDateTime`, `toLocaleString`) is a function parameter applied to the ISO text.
- HistoryUtils.IsValidDate: an hour of 24 counts as invalid, although the ECMAScript date time string format also reads 24:00:00.000 as the end of the day; and it rejects a day past the end of its month as that format requires, where some engines roll it over into the next month.
- VersionCompare.ComponentValues: a part that `Number` reads as a fraction (a negative exponent whose power of ten does not divide the mantissa) or as Infinity (including the text "Infinity") is not evaluated and counts as 0 in the model. In the source such a value is truthy and is kept by `|| 0`: a fraction compares by its value, and Infinity compares above every finite part and equal to another Infinity. Integers are read exactly in the model, where `Number` rounds them to the nearest double: above 2^53 two different integers can read as the same double (so "1.9007199254740993" and "1.9007199254740992" compare equal in the source and not in the model), and from about 1.8·10^308 on the source reads Infinity, which compares above every finite part and equal to another Infinity, where the model keeps the exact integer (so "1.1e400" is less than "1.2e400" in the model and not in the source).
- AppMain.App: `createSessionMutateAsync`, the third dependency of the interceptor effect, is taken to keep its identity across renders, so only the token and its validity re-run the effect.
- `isApiUrlSession`, `isExternalApi`, `isApiTokenNonEmpty` and the response interceptor callbacks are not part of this model. They are parameters.
- Timers (`setInterval`, `refetchInterval`), the query cache internals, the generated HTTP client and MSAL sign-in are not modelled. The query keys invalidated after a restore follow the key shape of the generated client.
- The viewer's plain close and cancel buttons only reset flags, and are not modelled.
- `stringCompare` (`localeCompare` with the Norwegian locale) is an abstract comparison that the lemmas assume to be a total preorder. Results are stated as "sorted by that comparison".
- `formatInlineValue`: numbers are integers, and their decimal rendering is modelled only for integers.
- StratFramework.GetZoneGridPlacement: the order in which zones were placed is a ghost output.

## Findings

| source | as written | input that shows it | evidently intended | confidence | as-written member | corrected member |
|---|---|---|---|---|---|---|
| frontend/src/utils/form.ts:52-67 | removal collects an index once per requested value, so two requested values with the same uuid collect the same index twice. Removing both copies then also removes an item nobody asked for | list [A, B], remove [A, A]: the result is [] | remove exactly the items whose uuid was requested: [B] | high; not executed | FormUtils.RemovalAsWrittenRemovesUnrequested | FormUtils.RemovalCorrected |
| frontend/src/utils/form.ts:45-51 | addition checks each value against the list as it was before the call, so a value repeated in the request is pushed twice | list [], add [A, A]: the result is [A, A] | add a value only when its uuid is absent, as the doc comment at form.ts:29-32 says: [A] | high; not executed | FormUtils.AdditionAsWrittenPushesDuplicates | FormUtils.AdditionCorrected |

=== FILE: app_main.dfy ===
/** Application-wide wiring: the error toasts of the query and mutation
    caches, the default query freshness, and the lifecycle of the HTTP
    response interceptor that is registered while an API token is set. */
module AppMain {
  import opened Common
  import opened Model

  const DefaultQueryErrorPrefix: string := "Error getting data"
  const DefaultMutationErrorPrefix: string := "Error updating data"
  /** Default `staleTime` of queries, in milliseconds (five minutes). */
  const DefaultStaleTime: nat := 300000

  /** A query's or mutation's `meta`; `errorPrefix` is present or not. */
  datatype Meta = Meta(errorPrefix: Option<string>)

  /** A failed request: its message, and the body of the response when it
      is an HTTP error that has one. */
  datatype RequestError = RequestError(message: string, responseBody: ResponseBody)

  predicate EndsWith(s: string, suffix: string) {
    |suffix| <= |s| && s[|s| - |suffix|..] == suffix
  }

  /** The toast's prefix: the meta's `errorPrefix` when it has one. */
  function PrefixOf(meta: Option<Meta>, defaultPrefix: string): (prefix: string)
    ensures meta.Some? && meta.value.errorPrefix.Some? ==> prefix == meta.value.errorPrefix.value
    ensures !(meta.Some? && meta.value.errorPrefix.Some?) ==> prefix == defaultPrefix
  {
    if meta.Some? && meta.value.errorPrefix.Some? then meta.value.errorPrefix.value else defaultPrefix
  }

  /** The toast's text: the response body's `detail` when it is an object
      that has one, and the error's message otherwise. Not defined for a
      primitive body, where the `in` test throws. */
  function TextOf(error: RequestError): (text: string)
    requires !error.responseBody.PrimitiveBody?
    ensures error.responseBody.ObjectBody? && error.responseBody.detail.Some? ==>
      text == error.responseBody.detail.value
    ensures !(error.responseBody.ObjectBody? && error.responseBody.detail.Some?) ==> text == error.message
  {
    match error.responseBody
    case ObjectBody(Some(detail)) => detail
    case _ => error.message
  }

  /** The message of an error toast, `prefix + ": " + (detail ?? message)`;
      none when the body is a primitive, where `"detail" in data` throws and
      no toast is shown. */
  function ErrorMessage(meta: Option<Meta>, defaultPrefix: string, error: RequestError): (message: Option<string>)
    ensures message.None? <==> error.responseBody.PrimitiveBody?
    ensures message.Some? ==>
      && StartsWith(message.value, PrefixOf(meta, defaultPrefix) + ": ")
      && EndsWith(message.value, ": " + TextOf(error))
      && |message.value| == |PrefixOf(meta, defaultPrefix)| + 2 + |TextOf(error)|
  {
    if error.responseBody.PrimitiveBody? then None
    else
      var prefix := PrefixOf(meta, defaultPrefix);
      var text := TextOf(error);
      var message := prefix + ": " + text;
      assert message[..|prefix + ": "|] == prefix + ": ";
      assert message[|message| - |": " + text|..] == ": " + text;
      Some(message)
  }

  /** The query cache's error toast: "Error getting data" unless the query
      names its own prefix. */
  function QueryErrorMessage(meta: Option<Meta>, error: RequestError): (message: Option<string>)
    ensures message.None? <==> error.responseBody.PrimitiveBody?
    ensures message.Some? ==>
      && StartsWith(message.value, PrefixOf(meta, "Error getting data") + ": ")
      && EndsWith(message.value, ": " + TextOf(error))
      && |message.value| == |PrefixOf(meta, "Error getting data")| + 2 + |TextOf(error)|
  {
    ErrorMessage(meta, DefaultQueryErrorPrefix, error)
  }

  /** The mutation cache's error toast: "Error updating data" unless the
      mutation names its own prefix. */
  function MutationErrorMessage(meta: Option<Meta>, error: RequestError): (message: Option<string>)
    ensures message.None? <==> error.responseBody.PrimitiveBody?
    ensures message.Some? ==>
      && StartsWith(message.value, PrefixOf(meta, "Error updating data") + ": ")
      && EndsWith(message.value, ": " + TextOf(error))
      && |message.value| == |PrefixOf(meta, "Error updating data")| + 2 + |TextOf(error)|
  {
    ErrorMessage(meta, DefaultMutationErrorPrefix, error)
  }

  /** A prefix, the separator and a text are told apart again: a message of
      the right length that starts with the one and ends with the other is
      exactly their concatenation. */
  lemma MessagePinned(message: string, prefix: string, text: string)
    requires StartsWith(message, prefix + ": ") && EndsWith(message, ": " + text)
    requires |message| == |prefix| + 2 + |text|
    ensures message == prefix + ": " + text
  {
    var m := prefix + ": " + text;
    forall i | 0 <= i < |message|
      ensures message[i] == m[i]
    {
      if i < |prefix| + 2 {
        assert message[i] == message[..|prefix + ": "|][i];
      } else {
        assert message[i] == message[|message| - |": " + text|..][i - |prefix|];
      }
    }
  }

  /** `apiTokenStatus.valid ?? false` */
  function ValidOrFalse(valid: Option<bool>): bool {
    valid.Some? && valid.value
  }

  /** The `App` component's state and the interceptors registered on the
      HTTP client. `isApiTokenNonEmpty` is not part of this model and is
      passed in. */
  class App {
    var apiToken: string
    /** `apiTokenStatus.valid`: unknown, valid or invalid. */
    var apiTokenValid: Option<bool>
    var hasResponseInterceptor: bool
    /** Ids of the response interceptors registered on the client. */
    var registered: set<nat>
    /** The id the client hands out at the next registration. */
    var nextId: nat
    /** The id registered by the current effect run, which its cleanup ejects. */
    var effectId: Option<nat>
    /** The token and validity the registered interceptor's callbacks were
        created with. */
    var capturedToken: string
    var capturedValid: bool
    var routerInvalidations: nat

    /** At most one interceptor is registered: the current effect run's,
        whose callbacks see the current token and validity. */
    ghost predicate Valid()
      reads this
    {
      && (effectId.Some? ==> registered == {effectId.value} && effectId.value < nextId)
      && (effectId.None? ==> registered == {})
      && (effectId.Some? ==> capturedToken == apiToken && capturedValid == ValidOrFalse(apiTokenValid))
    }

    constructor()
      ensures Valid()
      ensures apiToken == "" && apiTokenValid.None? && !hasResponseInterceptor && registered == {} && effectId.None?
      ensures routerInvalidations == 0
    {
      apiToken := "";
      apiTokenValid := None;
      hasResponseInterceptor := false;
      registered := {};
      nextId := 0;
      effectId := None;
      capturedToken := "";
      capturedValid := false;
      routerInvalidations := 0;
    }

    /** The interceptor effect: registers an interceptor, built from the
        current token and validity, only when the token is non-empty. */
    method RunInterceptorEffect(isApiTokenNonEmpty: string -> bool)
      requires Valid() && effectId.None?
      modifies this
      ensures Valid()
      ensures isApiTokenNonEmpty(apiToken) ==>
        && effectId == Some(old(nextId))
        && registered == old(registered) + {old(nextId)}
        && hasResponseInterceptor
      ensures !isApiTokenNonEmpty(apiToken) ==>
        && effectId.None?
        && registered == old(registered)
        && hasResponseInterceptor == old(hasResponseInterceptor)
      ensures apiToken == old(apiToken) && apiTokenValid == old(apiTokenValid)
      ensures routerInvalidations == old(routerInvalidations)
    {
      if isApiTokenNonEmpty(apiToken) {
        var id := nextId;
        registered := registered + {id};
        nextId := nextId + 1;
        effectId := Some(id);
        capturedToken := apiToken;
        capturedValid := ValidOrFalse(apiTokenValid);
        hasResponseInterceptor := true;
      }
    }

    /** The interceptor effect's cleanup: ejects the id registered by that
        run, and nothing when none was registered. */
    method CleanupInterceptorEffect()
      requires Valid()
      modifies this
      ensures Valid()
      ensures effectId.None?
      ensures old(effectId).Some? ==> registered == old(registered) - {old(effectId).value}
      ensures old(effectId).None? ==> registered == old(registered)
      ensures nextId == old(nextId) && hasResponseInterceptor == old(hasResponseInterceptor)
      ensures apiToken == old(apiToken) && apiTokenValid == old(apiTokenValid)
      ensures routerInvalidations == old(routerInvalidations)
    {
      if effectId.Some? {
        registered := registered - {effectId.value};
        effectId := None;
      }
    }

    /** The router effect: invalidate the router when an interceptor exists. */
    method RunRouterEffect()
      modifies this
      ensures hasResponseInterceptor ==> routerInvalidations == old(routerInvalidations) + 1
      ensures !hasResponseInterceptor ==> routerInvalidations == old(routerInvalidations)
      ensures apiToken == old(apiToken) && apiTokenValid == old(apiTokenValid)
      ensures hasResponseInterceptor == old(hasResponseInterceptor)
      ensures registered == old(registered) && effectId == old(effectId) && nextId == old(nextId)
      ensures capturedToken == old(capturedToken) && capturedValid == old(capturedValid)
    {
      if hasResponseInterceptor {
        routerInvalidations := routerInvalidations + 1;
      }
    }

    /** A re-render in which the interceptor effect's dependencies, the
        token and its validity, take new values: the previous run is cleaned
        up and the effect runs again, and the router effect runs when that
        changed its own dependency, the flag. */
    method RerunEffects(token: string, valid: Option<bool>, isApiTokenNonEmpty: string -> bool)
      requires Valid()
      modifies this
      ensures Valid()
      ensures apiToken == token && apiTokenValid == valid
      ensures isApiTokenNonEmpty(token) ==> registered == {old(nextId)} && hasResponseInterceptor
      ensures !isApiTokenNonEmpty(token) ==> registered == {} && hasResponseInterceptor == old(hasResponseInterceptor)
      ensures routerInvalidations ==
        old(routerInvalidations) + (if !old(hasResponseInterceptor) && hasResponseInterceptor then 1 else 0)
    {
      var hadInterceptor := hasResponseInterceptor;
      CleanupInterceptorEffect();
      apiToken, apiTokenValid := token, valid;
      RunInterceptorEffect(isApiTokenNonEmpty);
      if hasResponseInterceptor != hadInterceptor {
        RunRouterEffect();
      }
    }

    /** `setApiToken`: setting the token it already has re-renders nothing;
        a new token re-runs the interceptor effect, so the old interceptor
        never outlives its token. */
    method SetApiToken(token: string, isApiTokenNonEmpty: string -> bool)
      requires Valid()
      modifies this
      ensures Valid()
      ensures apiToken == token && apiTokenValid == old(apiTokenValid)
      ensures token == old(apiToken) ==>
        && registered == old(registered) && effectId == old(effectId) && nextId == old(nextId)
        && hasResponseInterceptor == old(hasResponseInterceptor) && routerInvalidations == old(routerInvalidations)
      ensures token != old(apiToken) && isApiTokenNonEmpty(token) ==>
        registered == {old(nextId)} && hasResponseInterceptor
      ensures token != old(apiToken) && !isApiTokenNonEmpty(token) ==>
        registered == {} && hasResponseInterceptor == old(hasResponseInterceptor)
      ensures routerInvalidations ==
        old(routerInvalidations) + (if !old(hasResponseInterceptor) && hasResponseInterceptor then 1 else 0)
    {
      if token != apiToken {
        RerunEffects(token, apiTokenValid, isApiTokenNonEmpty);
      }
    }

    /** `setApiTokenStatus` changing `valid`: the interceptor effect depends
        on it, so a change re-runs the effect and the new interceptor sees
        the new validity. */
    method SetApiTokenValid(valid: Option<bool>, isApiTokenNonEmpty: string -> bool)
      requires Valid()
      modifies this
      ensures Valid()
      ensures apiTokenValid == valid && apiToken == old(apiToken)
      ensures valid == old(apiTokenValid) ==>
        && registered == old(registered) && effectId == old(effectId) && nextId == old(nextId)
        && hasResponseInterceptor == old(hasResponseInterceptor) && routerInvalidations == old(routerInvalidations)
      ensures valid != old(apiTokenValid) && isApiTokenNonEmpty(apiToken) ==>
        && registered == {old(nextId)} && hasResponseInterceptor && capturedValid == ValidOrFalse(valid)
      ensures valid != old(apiTokenValid) && !isApiTokenNonEmpty(apiToken) ==>
        registered == {} && hasResponseInterceptor == old(hasResponseInterceptor)
      ensures routerInvalidations ==
        old(routerInvalidations) + (if !old(hasResponseInterceptor) && hasResponseInterceptor then 1 else 0)
    {
      if valid != apiTokenValid {
        RerunEffects(apiToken, valid, isApiTokenNonEmpty);
      }
    }
  }
}

=== FILE: authentication.dfy ===
/** API token handling in the browser: a token handed over in the URL
    fragment (`#token=…`) is moved into session storage and removed from the
    address bar; otherwise the token kept in session storage is used. */
module Authentication {
  import opened Common

  const FragmentTokenPrefix: string := "#token="
  const StorageTokenName: string := "apiToken"

  /** The token carried by a URL fragment, or "" when there is none. */
  function GetTokenFromFragment(fragment: string): (token: string)
    ensures StartsWith(fragment, FragmentTokenPrefix) ==> fragment == FragmentTokenPrefix + token
    ensures !StartsWith(fragment, FragmentTokenPrefix) ==> token == ""
  {
    if fragment != "" && StartsWith(fragment, FragmentTokenPrefix) then
      fragment[|FragmentTokenPrefix|..]
    else
      ""
  }

  /** Reading a fragment built from a token gives the token back. */
  lemma FragmentTokenRoundTrip(token: string)
    ensures GetTokenFromFragment(FragmentTokenPrefix + token) == token
  {
    var fragment := FragmentTokenPrefix + token;
    assert fragment[..|FragmentTokenPrefix|] == FragmentTokenPrefix;
  }

  function IsApiToken(apiToken: string): (r: bool)
    ensures r <==> |apiToken| > 0
  {
    apiToken != ""
  }

  /** The parts of the browser `getApiToken` reads and writes: the location
      (fragment, path and query string), session storage and the history of
      pushed URLs. */
  class Browser {
    var hash: string
    var pathname: string
    var search: string
    var sessionStorage: map<string, string>
    var history: seq<string>

    constructor(hash: string, pathname: string, search: string, sessionStorage: map<string, string>)
      ensures this.hash == hash && this.pathname == pathname && this.search == search
      ensures this.sessionStorage == sessionStorage && history == []
    {
      this.hash := hash;
      this.pathname := pathname;
      this.search := search;
      this.sessionStorage := sessionStorage;
      history := [];
    }

    /** `sessionStorage.getItem("apiToken") ?? ""` */
    function StoredToken(): string
      reads this
    {
      if StorageTokenName in sessionStorage then sessionStorage[StorageTokenName] else ""
    }

    /** `getApiToken`: a fragment token wins, is stored, and the URL is
        replaced by one without the fragment; otherwise the stored token (or
        "") is returned and nothing changes. */
    method GetApiToken() returns (token: string)
      modifies this
      ensures GetTokenFromFragment(old(hash)) != "" ==>
        && token == GetTokenFromFragment(old(hash))
        && sessionStorage == old(sessionStorage)[StorageTokenName := token]
        && history == old(history) + [old(pathname) + old(search)]
        && hash == ""
      ensures GetTokenFromFragment(old(hash)) == "" ==>
        && token == old(StoredToken())
        && sessionStorage == old(sessionStorage)
        && history == old(history)
        && hash == old(hash)
      ensures pathname == old(pathname) && search == old(search)
      // afterwards storage holds the returned token and the URL carries none,
      // so a second call returns the same token
      ensures StoredToken() == token
      ensures GetTokenFromFragment(hash) == ""
    {
      var fragmentToken := GetTokenFromFragment(hash);
      var storageToken := StoredToken();
      if fragmentToken != "" {
        sessionStorage := sessionStorage[StorageTokenName := fragmentToken];
        history := history + [pathname + search];
        hash := "";
        token := fragmentToken;
      } else if storageToken != "" {
        token := storageToken;
      } else {
        token := "";
      }
    }
  }
}

=== FILE: common.dfy ===
/** Small value-level helpers shared by the modules of this model: an
    optional value, decimal rendering of naturals, and the JavaScript string
    and array operations the source relies on (split, join, filter, reverse). */
module Common {

  /** `undefined`/`null` versus a present value. */
  datatype Option<+T> = None | Some(value: T)

  /** The character of a decimal digit. */
  function DigitChar(d: nat): (c: char)
    requires d < 10
    ensures '0' <= c <= '9'
    ensures c as int - '0' as int == d
  {
    (d + '0' as int) as char
  }

  predicate IsDigit(c: char) {
    '0' <= c <= '9'
  }

  predicate AllDigits(s: string) {
    forall i :: 0 <= i < |s| ==> IsDigit(s[i])
  }

  /** `String(n)` for a non-negative integer. */
  function NatToString(n: nat): (r: string)
    ensures |r| >= 1 && AllDigits(r)
    ensures n >= 10 ==> r[0] != '0'
    decreases n
  {
    if n < 10 then [DigitChar(n)] else NatToString(n / 10) + [DigitChar(n % 10)]
  }

  /** The value of a string of decimal digits (the empty string is 0, as `Number("")`). */
  function DigitsValue(s: string): (v: nat)
    requires AllDigits(s)
  {
    if s == [] then 0 else DigitsValue(s[..|s| - 1]) * 10 + (s[|s| - 1] as int - '0' as int)
  }

  /** Reading back the rendering of a natural gives the natural. */
  lemma {:induction false} DigitsValueOfNatToString(n: nat)
    ensures DigitsValue(NatToString(n)) == n
    decreases n
  {
    if n >= 10 {
      var r := NatToString(n);
      assert r[..|r| - 1] == NatToString(n / 10);
      DigitsValueOfNatToString(n / 10);
    }
  }

  /** The elements of `s` that satisfy `p`, in order (`Array.prototype.filter`). */
  function Filter<T>(s: seq<T>, p: T -> bool): (r: seq<T>)
    ensures |r| <= |s|
  {
    if s == [] then []
    else Filter(s[..|s| - 1], p) + (if p(s[|s| - 1]) then [s[|s| - 1]] else [])
  }

  /** An element is kept exactly when it occurs and passes the test. */
  lemma {:induction false} FilterIn<T>(s: seq<T>, p: T -> bool, x: T)
    ensures x in Filter(s, p) <==> x in s && p(x)
  {
    if s != [] {
      FilterIn(s[..|s| - 1], p, x);
      assert s == s[..|s| - 1] + [s[|s| - 1]];
    }
  }

  lemma FilterMembers<T>(s: seq<T>, p: T -> bool)
    ensures forall x :: x in Filter(s, p) <==> x in s && p(x)
  {
    forall x
      ensures x in Filter(s, p) <==> x in s && p(x)
    {
      FilterIn(s, p, x);
    }
  }

  lemma {:induction false} FilterConcat<T>(a: seq<T>, b: seq<T>, p: T -> bool)
    ensures Filter(a + b, p) == Filter(a, p) + Filter(b, p)
    decreases |b|
  {
    if b != [] {
      assert (a + b)[..|a + b| - 1] == a + b[..|b| - 1];
      FilterConcat(a, b[..|b| - 1], p);
    } else {
      assert a + b == a;
    }
  }

  /** `i` is the one and only position of `s` whose element satisfies `p`. */
  ghost predicate IsOnlyMatch<T>(s: seq<T>, p: T -> bool, i: int) {
    0 <= i < |s| && p(s[i]) && forall j :: 0 <= j < |s| && p(s[j]) ==> j == i
  }

  lemma FilterEmptyIff<T>(s: seq<T>, p: T -> bool)
    ensures |Filter(s, p)| == 0 <==> forall j :: 0 <= j < |s| ==> !p(s[j])
  {
    if |Filter(s, p)| != 0 {
      var y := Filter(s, p)[0];
      FilterIn(s, p, y);
    } else {
      forall j | 0 <= j < |s|
        ensures !p(s[j])
      {
        FilterIn(s, p, s[j]);
      }
    }
  }

  lemma OnlyMatchLast<T>(s: seq<T>, p: T -> bool)
    requires |s| > 0 && p(s[|s| - 1])
    ensures (exists i :: IsOnlyMatch(s, p, i)) <==> IsOnlyMatch(s, p, |s| - 1)
    ensures IsOnlyMatch(s, p, |s| - 1) <==> forall j :: 0 <= j < |s| - 1 ==> !p(s[j])
  {
  }

  lemma OnlyMatchNotLast<T>(s: seq<T>, p: T -> bool, i: int)
    requires |s| > 0 && !p(s[|s| - 1])
    ensures IsOnlyMatch(s, p, i) <==> IsOnlyMatch(s[..|s| - 1], p, i)
  {
    var n := |s| - 1;
    var init := s[..n];
    if IsOnlyMatch(init, p, i) {
      forall j | 0 <= j < |s| && p(s[j])
        ensures j == i
      {
        assert j < n && init[j] == s[j];
      }
    }
    if IsOnlyMatch(s, p, i) {
      forall j | 0 <= j < n && p(init[j])
        ensures j == i
      {
        assert init[j] == s[j];
      }
    }
  }

  /** A filter keeps exactly one element iff exactly one position matches. */
  lemma {:induction false} FilterSingleton<T>(s: seq<T>, p: T -> bool)
    ensures |Filter(s, p)| == 1 <==> exists i :: IsOnlyMatch(s, p, i)
    ensures forall i :: IsOnlyMatch(s, p, i) ==> Filter(s, p) == [s[i]]
  {
    if s != [] {
      var n := |s| - 1;
      var init := s[..n];
      FilterSingleton(init, p);
      if p(s[n]) {
        assert Filter(s, p) == Filter(init, p) + [s[n]];
        FilterEmptyIff(init, p);
        OnlyMatchLast(s, p);
        assert (forall j :: 0 <= j < n ==> !p(init[j])) <==> (forall j :: 0 <= j < n ==> !p(s[j]));
      } else {
        assert Filter(s, p) == Filter(init, p);
        forall i
          ensures IsOnlyMatch(s, p, i) <==> IsOnlyMatch(init, p, i)
        {
          OnlyMatchNotLast(s, p, i);
        }
        forall i | IsOnlyMatch(s, p, i)
          ensures s[i] == init[i]
        {
        }
      }
    }
  }

  /** `[...s].reverse()` */
  function Reverse<T>(s: seq<T>): (r: seq<T>)
    ensures |r| == |s|
    ensures forall i :: 0 <= i < |s| ==> r[i] == s[|s| - 1 - i]
  {
    if s == [] then [] else Reverse(s[1..]) + [s[0]]
  }

  /** `s.split(c)` for a one-character separator: always at least one part. */
  function Split(s: string, c: char): (parts: seq<string>)
    ensures |parts| >= 1
    ensures forall k :: 0 <= k < |parts| ==> c !in parts[k]
  {
    if s == [] then [""]
    else
      var rest := Split(s[1..], c);
      if s[0] == c then [""] + rest
      else [[s[0]] + rest[0]] + rest[1..]
  }

  /** Splitting at one separator occurrence splits the two sides independently. */
  lemma {:induction false} SplitConcat(s: string, c: char, t: string)
    ensures Split(s + [c] + t, c) == Split(s, c) + Split(t, c)
  {
    if s == [] {
      assert s + [c] + t == [c] + t;
      assert ([c] + t)[1..] == t;
    } else {
      assert (s + [c] + t)[1..] == s[1..] + [c] + t;
      SplitConcat(s[1..], c, t);
    }
  }

  /** A string without the separator splits into itself alone. */
  lemma {:induction false} SplitAbsent(s: string, c: char)
    requires c !in s
    ensures Split(s, c) == [s]
  {
    if s != [] {
      assert c !in s[1..];
      SplitAbsent(s[1..], c);
      assert s == [s[0]] + s[1..];
    }
  }

  /** `parts.join(sep)` */
  function Join(parts: seq<string>, sep: string): string {
    if |parts| == 0 then ""
    else if |parts| == 1 then parts[0]
    else parts[0] + sep + Join(parts[1..], sep)
  }

  /** Every occurrence of `c` in `s` replaced by `repl`. */
  function ReplaceChar(s: string, c: char, repl: string): string {
    if s == [] then []
    else (if s[0] == c then repl else [s[0]]) + ReplaceChar(s[1..], c, repl)
  }

  /** Splitting on `c` and joining with `repl` replaces each `c` by `repl`. */
  lemma {:induction false} JoinSplitIsReplace(s: string, c: char, repl: string)
    ensures Join(Split(s, c), repl) == ReplaceChar(s, c, repl)
  {
    if s != [] {
      var rest := Split(s[1..], c);
      JoinSplitIsReplace(s[1..], c, repl);
      if s[0] == c {
        assert Split(s, c) == [""] + rest;
        assert ([""] + rest)[1..] == rest;
      } else {
        var parts := [[s[0]] + rest[0]] + rest[1..];
        assert Split(s, c) == parts;
        if |rest| > 1 {
          assert parts[1..] == rest[1..];
          assert Join(rest, repl) == rest[0] + repl + Join(rest[1..], repl);
        }
      }
    }
  }

  /** Splitting on `c` and joining with `c` gives back the string. */
  lemma JoinSplitRoundTrip(s: string, c: char)
    ensures Join(Split(s, c), [c]) == s
  {
    JoinSplitIsReplace(s, c, [c]);
    ReplaceSameChar(s, c);
  }

  lemma {:induction false} ReplaceSameChar(s: string, c: char)
    ensures ReplaceChar(s, c, [c]) == s
  {
    if s != [] {
      ReplaceSameChar(s[1..], c);
      assert s == [s[0]] + s[1..];
    }
  }

  lemma {:induction false} ReplaceAbsentChar(s: string, c: char, repl: string)
    requires c !in s
    ensures ReplaceChar(s, c, repl) == s
  {
    if s != [] {
      assert c !in s[1..];
      ReplaceAbsentChar(s[1..], c, repl);
      assert s == [s[0]] + s[1..];
    }
  }

  lemma {:induction false} ReplaceRemovesChar(s: string, c: char, repl: string)
    requires c !in repl
    ensures c !in ReplaceChar(s, c, repl)
  {
    if s != [] {
      ReplaceRemovesChar(s[1..], c, repl);
    }
  }

  /** `s.startsWith(prefix)` */
  predicate StartsWith(s: string, prefix: string) {
    |prefix| <= |s| && s[..|prefix|] == prefix
  }
}

=== FILE: form_utils.dfy ===
/** Identifier/uuid list fields of the masterdata form: conversion to select
    options, lookup of a unique option by uuid, and adding values to or
    removing values from a list field, matched by uuid. */
module FormUtils {
  import opened Common
  import opened Model
  import opened Sorting

  datatype ListOperation = Addition | Removal

  /** A select option: the uuid is the value, the identifier the label (`labelText`). */
  datatype OptionProps = OptionProps(value: string, labelText: string)

  function IdentifierUuidArrayToOptionsArray(input: seq<IdentifierUuid>): (r: seq<OptionProps>)
    ensures |r| == |input|
    ensures forall i :: 0 <= i < |input| ==> r[i].value == input[i].uuid && r[i].labelText == input[i].identifier
  {
    if input == [] then []
    else [OptionProps(input[0].uuid, input[0].identifier)] + IdentifierUuidArrayToOptionsArray(input[1..])
  }

  function HasUuid(value: string): IdentifierUuid -> bool {
    (e: IdentifierUuid) => e.uuid == value
  }

  /** The element whose uuid is `value`, when exactly one element has it;
      none when no element or several elements have it. */
  function FindOptionValueInIdentifierUuidArray(items: seq<IdentifierUuid>, value: string): (r: Option<IdentifierUuid>)
    ensures r.Some? <==> exists i :: IsOnlyMatch(items, HasUuid(value), i)
    ensures forall i :: IsOnlyMatch(items, HasUuid(value), i) ==> r == Some(items[i])
  {
    var result := Filter(items, HasUuid(value));
    FilterSingleton(items, HasUuid(value));
    if |result| == 1 then Some(result[0]) else None
  }

  /** `list.findIndex((v) => v.uuid === uuid)`: the first position with that
      uuid, or -1. */
  function FindIndex(list: seq<IdentifierUuid>, uuid: string): (idx: int)
    ensures -1 <= idx < |list|
    ensures idx >= 0 ==> list[idx].uuid == uuid
    ensures forall j :: 0 <= j < |list| && (idx < 0 || j < idx) ==> list[j].uuid != uuid
  {
    if list == [] then -1
    else if list[0].uuid == uuid then 0
    else
      var k := FindIndex(list[1..], uuid);
      if k < 0 then -1 else k + 1
  }

  predicate UuidIn(list: seq<IdentifierUuid>, uuid: string) {
    exists i :: 0 <= i < |list| && list[i].uuid == uuid
  }

  predicate UniqueUuids(list: seq<IdentifierUuid>) {
    forall i, j :: 0 <= i < j < |list| ==> list[i].uuid != list[j].uuid
  }

  /** An array field of the form, as the form library exposes it. */
  class ListField {
    var value: seq<IdentifierUuid>

    constructor(value: seq<IdentifierUuid>)
      ensures this.value == value
    {
      this.value := value;
    }

    method PushValue(x: IdentifierUuid)
      modifies this
      ensures value == old(value) + [x]
    {
      value := value + [x];
    }

    /** Removing at a position outside the list leaves it unchanged. */
    method RemoveValue(index: int)
      modifies this
      ensures value == RemoveAt(old(value), index)
    {
      if 0 <= index < |value| {
        value := value[..index] + value[index + 1..];
      }
    }
  }

  function RemoveAt<T>(s: seq<T>, index: int): (r: seq<T>)
    ensures 0 <= index < |s| ==> |r| == |s| - 1
    ensures !(0 <= index < |s|) ==> r == s
  {
    if 0 <= index < |s| then s[..index] + s[index + 1..] else s
  }

  /** The value operated on: one value or an array of values. */
  datatype ListValue = One(item: IdentifierUuid) | Many(items: seq<IdentifierUuid>)

  function ValueList(value: ListValue): (r: seq<IdentifierUuid>)
    ensures value.One? ==> r == [value.item]
    ensures value.Many? ==> r == value.items
  {
    match value
    case One(x) => [x]
    case Many(xs) => xs
  }

  /** The requested values whose uuid does not occur in `list`. */
  function AbsentFrom(list: seq<IdentifierUuid>): IdentifierUuid -> bool {
    (v: IdentifierUuid) => FindIndex(list, v.uuid) < 0
  }

  /** Addition as written: each requested value is checked against the list
      as it was before the operation, so two requested values with the same
      new uuid are both pushed. */
  function AdditionAsWritten(list: seq<IdentifierUuid>, values: seq<IdentifierUuid>): (r: seq<IdentifierUuid>)
    ensures |r| >= |list| && r[..|list|] == list
    ensures forall x :: x in r[|list|..] ==> x in values && !UuidIn(list, x.uuid)
  {
    var added := Filter(values, AbsentFrom(list));
    FilterMembers(values, AbsentFrom(list));
    assert (list + added)[|list|..] == added;
    list + added
  }

  /** The position of the first match of each requested value that occurs,
      in request order (repeats included). */
  function CollectIndexes(list: seq<IdentifierUuid>, values: seq<IdentifierUuid>): (r: seq<int>)
    ensures forall k :: 0 <= k < |r| ==> 0 <= r[k] < |list|
    ensures forall k :: k in r <==> k in MatchedIndexes(list, values)
  {
    if values == [] then []
    else
      var prev := CollectIndexes(list, values[..|values| - 1]);
      var v := values[|values| - 1];
      var idx := FindIndex(list, v.uuid);
      assert values == values[..|values| - 1] + [v];
      if idx >= 0 then prev + [idx] else prev
  }

  /** The set of positions of the first match of each requested value:
      only positions holding a requested uuid, and for every requested uuid
      that occurs, its first position. */
  function MatchedIndexes(list: seq<IdentifierUuid>, values: seq<IdentifierUuid>): (m: set<int>)
    ensures forall k :: k in m ==> 0 <= k < |list| && exists v :: v in values && list[k].uuid == v.uuid
    ensures forall v :: v in values && UuidIn(list, v.uuid) ==> FindIndex(list, v.uuid) in m
  {
    set v | v in values && FindIndex(list, v.uuid) >= 0 :: FindIndex(list, v.uuid)
  }

  function Negate(i: int): int {
    -i
  }

  /** `indexes.sort((a, b) => b - a)` */
  function DescendingOrder(indexes: seq<int>): (r: seq<int>)
    ensures multiset(r) == multiset(indexes)
    ensures |r| == |indexes|
  {
    SortByKey(indexes, Negate)
  }

  /** `removeValue` applied to each position in turn. */
  function RemoveEach<T>(s: seq<T>, indexes: seq<int>): seq<T>
    decreases |indexes|
  {
    if indexes == [] then s else RemoveEach(RemoveAt(s, indexes[0]), indexes[1..])
  }

  /** Removal as written: the collected positions, largest first, each removed
      from the list as it is at that moment. */
  function RemovalAsWritten(list: seq<IdentifierUuid>, values: seq<IdentifierUuid>): seq<IdentifierUuid> {
    RemoveEach(list, DescendingOrder(CollectIndexes(list, values)))
  }

  /** The elements of `s` at positions outside `drop`, in order. */
  function KeepExcept<T>(s: seq<T>, drop: set<int>): (r: seq<T>)
    ensures |r| <= |s|
    ensures forall x :: x in r ==> x in s
  {
    if s == [] then []
    else KeepExcept(s[..|s| - 1], drop) + (if |s| - 1 in drop then [] else [s[|s| - 1]])
  }

  /** `handleIdentifierUuidListOperation` as written. */
  method HandleIdentifierUuidListOperation(field: ListField, operation: ListOperation, value: ListValue)
    modifies field
    ensures operation == Addition ==> field.value == AdditionAsWritten(old(field.value), ValueList(value))
    ensures operation == Removal ==> field.value == RemovalAsWritten(old(field.value), ValueList(value))
  {
    if operation == Addition {
      PushAbsentValues(field, ValueList(value));
    } else {
      RemoveMatchingValues(field, ValueList(value));
    }
  }

  lemma FilterSnoc<T>(s: seq<T>, i: int, p: T -> bool)
    requires 0 <= i < |s|
    ensures Filter(s[..i + 1], p) == Filter(s[..i], p) + (if p(s[i]) then [s[i]] else [])
  {
    assert s[..i + 1][..i] == s[..i];
  }

  /** The addition branch: push each value whose uuid the list did not hold. */
  method PushAbsentValues(field: ListField, valueList: seq<IdentifierUuid>)
    modifies field
    ensures field.value == AdditionAsWritten(old(field.value), valueList)
  {
    var fieldValue := field.value;
    var absent := AbsentFrom(fieldValue);
    for i := 0 to |valueList|
      invariant field.value == fieldValue + Filter(valueList[..i], absent)
    {
      FilterSnoc(valueList, i, absent);
      if absent(valueList[i]) {
        field.PushValue(valueList[i]);
      }
    }
    assert valueList[..|valueList|] == valueList;
  }

  /** The removal branch: collect the first match of each value, then remove
      the collected positions largest first. */
  method RemoveMatchingValues(field: ListField, valueList: seq<IdentifierUuid>)
    modifies field
    ensures field.value == RemovalAsWritten(old(field.value), valueList)
  {
    var fieldValue := field.value;
    var indexes: seq<int> := [];
    var i := 0;
    while i < |valueList|
      invariant 0 <= i <= |valueList|
      invariant indexes == CollectIndexes(fieldValue, valueList[..i])
    {
      assert valueList[..i + 1][..i] == valueList[..i];
      var idx := FindIndex(fieldValue, valueList[i].uuid);
      if idx >= 0 {
        indexes := indexes + [idx];
      }
      i := i + 1;
    }
    assert valueList[..|valueList|] == valueList;
    if |indexes| > 0 {
      var order := DescendingOrder(indexes);
      var k := 0;
      while k < |order|
        invariant 0 <= k <= |order|
        invariant RemoveEach(field.value, order[k..]) == RemoveEach(fieldValue, order)
      {
        assert order[k..][1..] == order[k + 1..];
        field.RemoveValue(order[k]);
        k := k + 1;
      }
    }
  }

  ghost predicate Distinct(s: seq<int>) {
    forall i, j :: 0 <= i < j < |s| ==> s[i] != s[j]
  }

  ghost predicate StrictlyDescending(s: seq<int>) {
    forall i, j :: 0 <= i < j < |s| ==> s[i] > s[j]
  }

  lemma {:induction false} DistinctCount(s: seq<int>, x: int)
    requires Distinct(s)
    ensures multiset(s)[x] <= 1
  {
    if s != [] {
      assert s == [s[0]] + s[1..];
      assert Distinct(s[1..]);
      DistinctCount(s[1..], x);
      if x == s[0] {
        assert x !in s[1..];
      }
    }
  }

  lemma DistinctPermutation(s: seq<int>, r: seq<int>)
    requires Distinct(s) && multiset(r) == multiset(s)
    ensures Distinct(r)
  {
    forall i, j | 0 <= i < j < |r|
      ensures r[i] != r[j]
    {
      DistinctCount(s, r[i]);
      assert r == r[..j] + r[j..];
      assert r[i] in multiset(r[..j]);
      assert r[j] in multiset(r[j..]);
    }
  }

  /** Sorting distinct positions with `b - a` orders them strictly largest first. */
  lemma DescendingOrderStrict(indexes: seq<int>)
    requires Distinct(indexes)
    ensures StrictlyDescending(DescendingOrder(indexes))
  {
    var r := DescendingOrder(indexes);
    SortByKeySorted(indexes, Negate);
    DistinctPermutation(indexes, r);
  }

  lemma {:induction false} KeepExceptNone<T>(s: seq<T>)
    ensures KeepExcept(s, {}) == s
  {
    if s != [] {
      KeepExceptNone(s[..|s| - 1]);
    }
  }

  lemma {:induction false} KeepExceptAppend<T>(a: seq<T>, b: seq<T>, drop: set<int>)
    requires forall k :: k in drop ==> k < |a|
    ensures KeepExcept(a + b, drop) == KeepExcept(a, drop) + b
    decreases |b|
  {
    if b == [] {
      assert a + b == a;
    } else {
      var n := |b| - 1;
      assert (a + b)[..|a + b| - 1] == a + b[..n];
      KeepExceptAppend(a, b[..n], drop);
      assert b == b[..n] + [b[n]];
    }
  }

  lemma {:induction false} KeepExceptSameBelow<T>(a: seq<T>, d1: set<int>, d2: set<int>)
    requires forall k :: 0 <= k < |a| ==> (k in d1 <==> k in d2)
    ensures KeepExcept(a, d1) == KeepExcept(a, d2)
  {
    if a != [] {
      KeepExceptSameBelow(a[..|a| - 1], d1, d2);
    }
  }

  lemma {:induction false} RemoveAtKeepExcept<T>(s: seq<T>, i: int, drop: set<int>)
    requires 0 <= i < |s|
    requires forall k :: k in drop ==> k < i
    ensures KeepExcept(RemoveAt(s, i), drop) == KeepExcept(s, drop + {i})
  {
    KeepExceptAppend(s[..i], s[i + 1..], drop);
    assert s == s[..i + 1] + s[i + 1..];
    KeepExceptAppend(s[..i + 1], s[i + 1..], drop + {i});
    assert s[..i + 1][..i] == s[..i];
    KeepExceptSameBelow(s[..i], drop + {i}, drop);
  }

  /** Removing positions one by one, largest first, removes exactly those
      positions: no removal shifts a position still to be removed. */
  lemma {:induction false} RemoveEachDescending<T>(s: seq<T>, indexes: seq<int>)
    requires StrictlyDescending(indexes)
    requires forall k :: 0 <= k < |indexes| ==> 0 <= indexes[k] < |s|
    ensures RemoveEach(s, indexes) == KeepExcept(s, set k | k in indexes)
    decreases |indexes|
  {
    if indexes == [] {
      KeepExceptNone(s);
      assert (set k | k in indexes) == {};
    } else {
      var i0, rest := indexes[0], indexes[1..];
      forall k | 0 <= k < |rest|
        ensures 0 <= rest[k] < i0
      {
        assert rest[k] == indexes[k + 1];
      }
      assert StrictlyDescending(rest) by {
        forall a, b | 0 <= a < b < |rest|
          ensures rest[a] > rest[b]
        {
          assert rest[a] == indexes[a + 1] && rest[b] == indexes[b + 1];
        }
      }
      var s' := RemoveAt(s, i0);
      assert RemoveEach(s, indexes) == RemoveEach(s', rest);
      RemoveEachDescending(s', rest);
      RemoveAtKeepExcept(s, i0, set k | k in rest);
      assert (set k | k in rest) + {i0} == (set k | k in indexes) by {
        assert indexes == [i0] + rest;
      }
    }
  }

  /** The collected positions, each kept once. */
  function CollectDistinctIndexes(list: seq<IdentifierUuid>, values: seq<IdentifierUuid>): (r: seq<int>)
    ensures Distinct(r)
    ensures forall k :: 0 <= k < |r| ==> 0 <= r[k] < |list|
    ensures forall k :: k in r <==> k in MatchedIndexes(list, values)
  {
    if values == [] then []
    else
      var prev := CollectDistinctIndexes(list, values[..|values| - 1]);
      var v := values[|values| - 1];
      var idx := FindIndex(list, v.uuid);
      assert values == values[..|values| - 1] + [v];
      if idx >= 0 && idx !in prev then prev + [idx] else prev
  }

  /** Removing distinct positions in the order `b - a` sorts them into
      removes exactly those positions. */
  lemma RemoveDistinctIndexes(list: seq<IdentifierUuid>, indexes: seq<int>, m: set<int>)
    requires Distinct(indexes)
    requires forall k :: 0 <= k < |indexes| ==> 0 <= indexes[k] < |list|
    requires forall k :: k in indexes <==> k in m
    ensures RemoveEach(list, DescendingOrder(indexes)) == KeepExcept(list, m)
  {
    var order := DescendingOrder(indexes);
    DescendingOrderStrict(indexes);
    forall k
      ensures k in order <==> k in indexes
    {
      assert k in order <==> k in multiset(order);
      assert k in indexes <==> k in multiset(indexes);
    }
    forall k | 0 <= k < |order|
      ensures 0 <= order[k] < |list|
    {
      assert order[k] in order;
    }
    forall k
      ensures k in (set x | x in order) <==> k in m
    {
    }
    assert (set k | k in order) == m;
    RemoveEachDescending(list, order);
  }

  /** Corrected removal: each matched position is collected once, so exactly
      the first match of every requested uuid is removed and nothing else. */
  function RemovalCorrected(list: seq<IdentifierUuid>, values: seq<IdentifierUuid>): (r: seq<IdentifierUuid>)
    ensures r == KeepExcept(list, MatchedIndexes(list, values))
  {
    var indexes := CollectDistinctIndexes(list, values);
    RemoveDistinctIndexes(list, indexes, MatchedIndexes(list, values));
    RemoveEach(list, DescendingOrder(indexes))
  }

  ghost predicate DistinctUuids(values: seq<IdentifierUuid>) {
    forall i, j :: 0 <= i < j < |values| ==> values[i].uuid != values[j].uuid
  }

  lemma {:induction false} CollectIndexesDistinct(list: seq<IdentifierUuid>, values: seq<IdentifierUuid>)
    requires DistinctUuids(values)
    ensures Distinct(CollectIndexes(list, values))
  {
    if values != [] {
      var n := |values| - 1;
      var init := values[..n];
      assert DistinctUuids(init);
      CollectIndexesDistinct(list, init);
      var prev := CollectIndexes(list, init);
      var idx := FindIndex(list, values[n].uuid);
      if idx >= 0 {
        forall i | 0 <= i < |prev|
          ensures prev[i] != idx
        {
          var k := prev[i];
          assert k in prev;
          var w :| w in init && list[k].uuid == w.uuid;
          var j :| 0 <= j < n && init[j] == w;
          assert values[j] == w;
        }
        var r := prev + [idx];
        assert r == CollectIndexes(list, values);
        forall i, j | 0 <= i < j < |r|
          ensures r[i] != r[j]
        {
          if j < |prev| {
            assert r[i] == prev[i] && r[j] == prev[j];
          }
        }
      }
    }
  }

  /** When the requested values have distinct uuids, removal as written
      removes exactly the first match of each of them. */
  lemma RemovalAsWrittenDistinctRequests(list: seq<IdentifierUuid>, values: seq<IdentifierUuid>)
    requires DistinctUuids(values)
    ensures RemovalAsWritten(list, values) == KeepExcept(list, MatchedIndexes(list, values))
  {
    CollectIndexesDistinct(list, values);
    RemoveDistinctIndexes(list, CollectIndexes(list, values), MatchedIndexes(list, values));
  }

  /** Removal as written with the same value requested twice: the first
      match is collected twice, and the second removal at that position takes
      away the element that moved into it. */
  lemma RemovalAsWrittenRemovesUnrequested()
    ensures var a, b := IdentifierUuid("A", "a"), IdentifierUuid("B", "b");
      && RemovalAsWritten([a, b], [a, a]) == []
      && RemovalCorrected([a, b], [a, a]) == [b]
  {
    var a, b := IdentifierUuid("A", "a"), IdentifierUuid("B", "b");
    var list := [a, b];
    assert FindIndex(list, "a") == 0;
    assert [a, a][..1] == [a];
    assert CollectIndexes(list, [a]) == [0];
    assert CollectIndexes(list, [a, a]) == [0, 0];
    var order := DescendingOrder([0, 0]);
    assert order == [0, 0] by {
      assert |order| == 2;
      assert order[0] in multiset(order) && order[1] in multiset(order);
    }
    assert RemoveAt(list, 0) == [b];
    assert RemoveAt([b], 0) == [];
    assert RemoveEach(list, [0, 0]) == RemoveEach([b], [0]);
    assert MatchedIndexes(list, [a, a]) == {0};
    assert KeepExcept(list, {0}) == KeepExcept([a], {0}) + [b];
  }

  lemma {:induction false} KeepExceptIn<T>(s: seq<T>, drop: set<int>, x: T)
    ensures x in KeepExcept(s, drop) <==> exists k :: 0 <= k < |s| && k !in drop && s[k] == x
  {
    if s != [] {
      var n := |s| - 1;
      var init := s[..n];
      KeepExceptIn(init, drop, x);
      if exists k :: 0 <= k < |s| && k !in drop && s[k] == x {
        var k :| 0 <= k < |s| && k !in drop && s[k] == x;
        if k < n {
          assert init[k] == x;
        }
      }
      if exists k :: 0 <= k < |init| && k !in drop && init[k] == x {
        var k :| 0 <= k < |init| && k !in drop && init[k] == x;
        assert s[k] == x;
      }
    }
  }

  /** In a list with unique uuids, a position holding a requested uuid is matched. */
  lemma MatchedWhenRequested(list: seq<IdentifierUuid>, values: seq<IdentifierUuid>, k: int, v: IdentifierUuid)
    requires UniqueUuids(list) && 0 <= k < |list| && v in values
    ensures list[k].uuid == v.uuid ==> k in MatchedIndexes(list, values)
  {
    if list[k].uuid == v.uuid {
      assert UuidIn(list, v.uuid);
      assert FindIndex(list, v.uuid) == k;
    }
  }

  /** On a list with unique uuids, corrected removal keeps exactly the
      elements whose uuid was not requested. */
  lemma RemovalCorrectedExact(list: seq<IdentifierUuid>, values: seq<IdentifierUuid>, x: IdentifierUuid)
    requires UniqueUuids(list)
    ensures x in RemovalCorrected(list, values) <==> x in list && !UuidIn(values, x.uuid)
  {
    var m := MatchedIndexes(list, values);
    KeepExceptIn(list, m, x);
    if x in RemovalCorrected(list, values) {
      var k :| 0 <= k < |list| && k !in m && list[k] == x;
      forall i | 0 <= i < |values|
        ensures values[i].uuid != x.uuid
      {
        MatchedWhenRequested(list, values, k, values[i]);
      }
    }
    if x in list && !UuidIn(values, x.uuid) {
      var k :| 0 <= k < |list| && list[k] == x;
      assert k !in m;
    }
  }

  /** Corrected addition: each value is checked against the list as it
      grows, so no uuid is pushed twice. */
  function AdditionCorrected(list: seq<IdentifierUuid>, values: seq<IdentifierUuid>): (r: seq<IdentifierUuid>)
    ensures |r| >= |list| && r[..|list|] == list
    decreases |values|
  {
    if values == [] then list
    else
      var v := values[0];
      var next := if FindIndex(list, v.uuid) < 0 then list + [v] else list;
      var r := AdditionCorrected(next, values[1..]);
      assert r[..|list|] == next[..|list|];
      r
  }

  /** Corrected addition pushes only requested values whose uuid the list did not hold. */
  lemma {:induction false} AdditionCorrectedOnlyNew(list: seq<IdentifierUuid>, values: seq<IdentifierUuid>)
    ensures forall k :: |list| <= k < |AdditionCorrected(list, values)| ==>
      AdditionCorrected(list, values)[k] in values && !UuidIn(list, AdditionCorrected(list, values)[k].uuid)
    decreases |values|
  {
    if values != [] {
      var v := values[0];
      var next := if FindIndex(list, v.uuid) < 0 then list + [v] else list;
      var r := AdditionCorrected(next, values[1..]);
      AdditionCorrectedOnlyNew(next, values[1..]);
      assert values == [v] + values[1..];
      forall k | |list| <= k < |r|
        ensures r[k] in values && !UuidIn(list, r[k].uuid)
      {
        if FindIndex(list, v.uuid) < 0 && k == |list| {
          assert r[k] == next[k] == v;
        } else {
          assert !UuidIn(next, r[k].uuid);
          forall i | 0 <= i < |list|
            ensures list[i].uuid != r[k].uuid
          {
            assert next[i] == list[i];
          }
        }
      }
    }
  }

  /** Corrected addition keeps uuids unique. */
  lemma {:induction false} AdditionCorrectedUnique(list: seq<IdentifierUuid>, values: seq<IdentifierUuid>)
    requires UniqueUuids(list)
    ensures UniqueUuids(AdditionCorrected(list, values))
    decreases |values|
  {
    if values != [] {
      var v := values[0];
      var next := if FindIndex(list, v.uuid) < 0 then list + [v] else list;
      assert UniqueUuids(next) by {
        if FindIndex(list, v.uuid) < 0 {
          forall i, j | 0 <= i < j < |next|
            ensures next[i].uuid != next[j].uuid
          {
            if j == |list| {
              assert next[i] == list[i];
            } else {
              assert next[i] == list[i] && next[j] == list[j];
            }
          }
        }
      }
      AdditionCorrectedUnique(next, values[1..]);
    }
  }

  /** After corrected addition every requested uuid is in the list. */
  lemma {:induction false} AdditionCorrectedCovers(list: seq<IdentifierUuid>, values: seq<IdentifierUuid>)
    ensures forall v :: v in values ==> UuidIn(AdditionCorrected(list, values), v.uuid)
    decreases |values|
  {
    if values != [] {
      var v := values[0];
      var next := if FindIndex(list, v.uuid) < 0 then list + [v] else list;
      var r := AdditionCorrected(next, values[1..]);
      AdditionCorrectedCovers(next, values[1..]);
      var i := if FindIndex(list, v.uuid) < 0 then |list| else FindIndex(list, v.uuid);
      assert next[i].uuid == v.uuid;
      assert r[..|next|] == next;
      assert r[i] == next[i];
      assert values == [v] + values[1..];
    }
  }

  /** Addition as written with the same new value requested twice pushes it
      twice, leaving two elements with one uuid. */
  lemma AdditionAsWrittenPushesDuplicates()
    ensures var a := IdentifierUuid("A", "a");
      && AdditionAsWritten([], [a, a]) == [a, a]
      && !UniqueUuids(AdditionAsWritten([], [a, a]))
      && AdditionCorrected([], [a, a]) == [a]
  {
    var a := IdentifierUuid("A", "a");
    var absent := AbsentFrom([]);
    assert absent(a);
    assert [a][..0] == [];
    assert Filter([a], absent) == Filter([], absent) + [a];
    assert [a, a][..1] == [a];
    assert Filter([a, a], absent) == Filter([a], absent) + [a];
    assert [a, a][1..] == [a];
    assert AdditionCorrected([a], [a]) == [a];
  }
}

=== FILE: history_utils.dfy ===
/** Helpers of the snapshot history view: reading the timestamp of a cache
    file name, rendering values and diff paths inline, list item keys, and
    the kind of a scalar change. */
module HistoryUtils {
  import opened Common

  /** A JSON-like value as the diff carries it. A record's entries are in
      key order of the object; `Other` stands for values of any other type
      (functions). Numbers are modelled as integers. */
  datatype Value =
    | Null
    | Undefined
    | Str(s: string)
    | Num(n: int)
    | Bool(b: bool)
    | Arr(items: seq<Value>)
    | Rec(entries: seq<Entry>)
    | BigInt(big: int)
    | Symbol(description: Option<string>)
    | Other

  datatype Entry = Entry(key: string, value: Value)

  /** The keys that name a list item, in order of preference. */
  const ItemNameKeys: seq<string> := ["identifier", "source_id", "target_id", "name", "uuid", "id"]

  /** `String(n)` for an integer. */
  function IntToString(n: int): (r: string)
    ensures |r| >= 1
  {
    if n < 0 then "-" + NatToString(-n) else NatToString(n)
  }

  function BoolToString(b: bool): string {
    if b then "true" else "false"
  }

  predicate IsRecord(value: Value) {
    value.Rec?
  }

  predicate HasKey(entries: seq<Entry>, key: string) {
    exists i :: 0 <= i < |entries| && entries[i].key == key
  }

  /** The position of the entry with that key. */
  function KeyIndex(entries: seq<Entry>, key: string): (i: int)
    ensures -1 <= i < |entries|
    ensures i >= 0 ==> entries[i].key == key
    ensures i < 0 <==> !HasKey(entries, key)
  {
    if entries == [] then -1
    else if entries[0].key == key then 0
    else
      var k := KeyIndex(entries[1..], key);
      assert forall j :: 0 < j < |entries| ==> entries[j] == entries[1..][j - 1];
      if k < 0 then -1 else k + 1
  }

  /** The first of `keys` that the record has. */
  function FirstPresentKey(keys: seq<string>, entries: seq<Entry>): (r: Option<string>)
    ensures r.Some? ==> r.value in keys && HasKey(entries, r.value)
    ensures r.Some? ==> exists i :: (0 <= i < |keys| && keys[i] == r.value
      && forall j :: 0 <= j < i ==> !HasKey(entries, keys[j]))
    ensures r.None? <==> forall j :: 0 <= j < |keys| ==> !HasKey(entries, keys[j])
  {
    if keys == [] then None
    else if HasKey(entries, keys[0]) then Some(keys[0])
    else
      var r := FirstPresentKey(keys[1..], entries);
      assert forall j :: 0 < j < |keys| ==> keys[j] == keys[1..][j - 1];
      if r.Some? then
        var i :| 0 <= i < |keys[1..]| && keys[1..][i] == r.value
          && forall j :: 0 <= j < i ==> !HasKey(entries, keys[1..][j]);
        assert keys[i + 1] == r.value;
        r
      else
        r
  }

  /** `ITEM_NAME_KEYS.find((key) => key in value)` */
  function PreferredKey(entries: seq<Entry>): Option<string> {
    FirstPresentKey(ItemNameKeys, entries)
  }

  /** `formatInlineValue`: a short text for a value. */
  function FormatInlineValue(value: Value): (r: string)
    ensures |r| > 0
    ensures value.Null? ==> r == "null"
    ensures value.Undefined? ==> r == "(missing)"
    ensures value.Str? ==> r == (if value.s == "" then "(empty string)" else value.s)
    ensures value.Num? ==> r == IntToString(value.n)
    ensures value.Bool? ==> r == BoolToString(value.b)
    ensures value.Arr? ==> r == (if |value.items| == 0 then "(empty list)" else NatToString(|value.items|) + " values")
    ensures value.Rec? && PreferredKey(value.entries).Some? ==>
      var key := PreferredKey(value.entries).value;
      var i := KeyIndex(value.entries, key);
      0 <= i && r == key + ": " + FormatInlineValue(value.entries[i].value)
    ensures value.Rec? && PreferredKey(value.entries).None? ==>
      r == "(" + NatToString(|value.entries|) + " fields)"
    ensures value.BigInt? ==> r == IntToString(value.big)
    ensures value.Symbol? ==>
      r == (if value.description.Some? && value.description.value != "" then "symbol(" + value.description.value + ")" else "symbol")
    ensures value.Other? ==> r == "(unavailable)"
    decreases value
  {
    match value
    case Null => "null"
    case Undefined => "(missing)"
    case Str(s) => if s == "" then "(empty string)" else s
    case Num(n) => IntToString(n)
    case Bool(b) => BoolToString(b)
    case Arr(items) => if |items| == 0 then "(empty list)" else NatToString(|items|) + " values"
    case Rec(entries) =>
      var preferred := PreferredKey(entries);
      if preferred.Some? then
        var i := KeyIndex(entries, preferred.value);
        preferred.value + ": " + FormatInlineValue(entries[i].value)
      else
        "(" + NatToString(|entries|) + " fields)"
    case BigInt(n) => IntToString(n)
    case Symbol(description) =>
      if description.Some? && description.value != "" then "symbol(" + description.value + ")" else "symbol"
    case Other => "(unavailable)"
  }

  /** `key + ":" + formatInlineValue(value)` for each entry. */
  function Pairs(entries: seq<Entry>): (pairs: seq<string>)
    ensures |pairs| == |entries|
    ensures forall i :: 0 <= i < |entries| ==> pairs[i] == entries[i].key + ":" + FormatInlineValue(entries[i].value)
  {
    if entries == [] then []
    else [entries[0].key + ":" + FormatInlineValue(entries[0].value)] + Pairs(entries[1..])
  }

  lemma {:induction false} JoinNonEmpty(parts: seq<string>, sep: string)
    requires |parts| > 0 && |parts[0]| > 0
    ensures |Join(parts, sep)| > 0
  {
  }

  /** `getListItemKey`: the preferred key and its value, else all
      `key:value` pairs joined by "|", else "empty-item". */
  function GetListItemKey(item: seq<Entry>): (r: string)
    ensures |r| > 0
    ensures PreferredKey(item).Some? ==>
      var key := PreferredKey(item).value;
      var i := KeyIndex(item, key);
      0 <= i && r == key + "-" + FormatInlineValue(item[i].value)
    ensures PreferredKey(item).None? && item != [] ==> r == Join(Pairs(item), "|")
    ensures item == [] ==> r == "empty-item"
  {
    var preferred := PreferredKey(item);
    if preferred.Some? then
      var i := KeyIndex(item, preferred.value);
      preferred.value + "-" + FormatInlineValue(item[i].value)
    else
      var joined := Join(Pairs(item), "|");
      assert item != [] ==> |joined| > 0 by {
        if item != [] {
          JoinNonEmpty(Pairs(item), "|");
        }
      }
      if joined == "" then "empty-item" else joined
  }

  datatype DiffKind = Added | Removed | Updated

  predicate IsMissing(v: Value) {
    v.Null? || v.Undefined?
  }

  /** The kind of change from `before` to `after`. */
  function GetScalarDiffKind(before: Value, after: Value): (kind: DiffKind)
    ensures kind == Added <==> IsMissing(before) && !IsMissing(after)
    ensures kind == Removed <==> !IsMissing(before) && IsMissing(after)
    ensures kind == Updated <==> (IsMissing(before) <==> IsMissing(after))
  {
    var beforeMissing := before == Null || before == Undefined;
    var afterMissing := after == Null || after == Undefined;
    if beforeMissing && !afterMissing then Added
    else if !beforeMissing && afterMissing then Removed
    else Updated
  }

  /** A diff is a list diff when it has all three of "added", "removed" and
      "updated". */
  function IsListFieldDiff(diff: seq<Entry>): (r: bool)
    ensures r ==> KeyIndex(diff, "added") >= 0 && KeyIndex(diff, "removed") >= 0 && KeyIndex(diff, "updated") >= 0
    ensures !r ==> KeyIndex(diff, "added") < 0 || KeyIndex(diff, "removed") < 0 || KeyIndex(diff, "updated") < 0
  {
    HasKey(diff, "added") && HasKey(diff, "removed") && HasKey(diff, "updated")
  }

  /** `path.split(".").join(" > ")` */
  function FormatFieldPath(path: string): (r: string)
    ensures r == ReplaceChar(path, '.', " > ")
    ensures '.' !in r
    ensures '.' !in path ==> r == path
  {
    JoinSplitIsReplace(path, '.', " > ");
    ReplaceRemovesChar(path, '.', " > ");
    assert '.' !in path ==> ReplaceChar(path, '.', " > ") == path by {
      if '.' !in path {
        ReplaceAbsentChar(path, '.', " > ");
      }
    }
    Join(Split(path, '.'), " > ")
  }

  /** The label of the snapshot at a 0-based position: numbered from 1. */
  function GetSnapshotLabel(index: nat): (r: string)
    ensures StartsWith(r, "Snapshot ")
    ensures AllDigits(r[9..]) && DigitsValue(r[9..]) == index + 1
  {
    var r := "Snapshot " + NatToString(index + 1);
    assert r[9..] == NatToString(index + 1);
    DigitsValueOfNatToString(index + 1);
    r
  }

  // ---- cache file names ----

  /** The date and time fields of a cache file name, as text. */
  datatype CacheStamp = CacheStamp(
    year: string, month: string, day: string,
    hour: string, minute: string, second: string,
    fraction: string)

  /** The digits the stamp fields must have. */
  ghost predicate WellFormedStamp(c: CacheStamp) {
    && |c.year| == 4 && AllDigits(c.year)
    && |c.month| == 2 && AllDigits(c.month)
    && |c.day| == 2 && AllDigits(c.day)
    && |c.hour| == 2 && AllDigits(c.hour)
    && |c.minute| == 2 && AllDigits(c.minute)
    && |c.second| == 2 && AllDigits(c.second)
    && |c.fraction| >= 1 && AllDigits(c.fraction)
  }

  /** `YYYYmmddTHHMMSS.f…fZ` */
  function StampText(c: CacheStamp): string {
    c.year + c.month + c.day + "T" + c.hour + c.minute + c.second + "." + c.fraction + "Z"
  }

  /** `cacheId.split("/").pop()`: the part after the last "/". */
  function FileName(cacheId: string): string {
    var parts := Split(cacheId, '/');
    parts[|parts| - 1]
  }

  /** The number of digits at the start of `s`. */
  function DigitRun(s: string): (n: nat)
    ensures n <= |s| && AllDigits(s[..n])
    ensures n < |s| ==> !IsDigit(s[n])
  {
    if s == [] || !IsDigit(s[0]) then 0
    else
      var n := 1 + DigitRun(s[1..]);
      assert s[..n] == [s[0]] + s[1..][..n - 1];
      n
  }

  /** The match of `^(\d{4})(\d{2})(\d{2})T(\d{2})(\d{2})(\d{2})\.(\d+)Z` on a
      file name, or none; text after the `Z` is allowed. */
  function ParseStamp(f: string): (r: Option<CacheStamp>)
    ensures r.Some? ==> WellFormedStamp(r.value) && StartsWith(f, StampText(r.value))
  {
    if |f| >= 16 && AllDigits(f[..4]) && AllDigits(f[4..6]) && AllDigits(f[6..8]) && f[8] == 'T'
      && AllDigits(f[9..11]) && AllDigits(f[11..13]) && AllDigits(f[13..15]) && f[15] == '.'
    then
      var n := DigitRun(f[16..]);
      if n >= 1 && 16 + n < |f| && f[16 + n] == 'Z' then
        var c := CacheStamp(f[..4], f[4..6], f[6..8], f[9..11], f[11..13], f[13..15], f[16..16 + n]);
        assert f[16..16 + n] == f[16..][..n];
        StampPrefix(f, n);
        Some(c)
      else
        None
    else
      None
  }

  lemma StampPrefix(f: string, n: nat)
    requires 17 + n <= |f| && f[8] == 'T' && f[15] == '.' && f[16 + n] == 'Z'
    ensures f[..17 + n] == StampText(CacheStamp(f[..4], f[4..6], f[6..8], f[9..11], f[11..13], f[13..15], f[16..16 + n]))
  {
    assert f[..4] + f[4..6] == f[..6];
    assert f[..6] + f[6..8] == f[..8];
    assert f[..8] + "T" == f[..9];
    assert f[..9] + f[9..11] == f[..11];
    assert f[..11] + f[11..13] == f[..13];
    assert f[..13] + f[13..15] == f[..15];
    assert f[..15] + "." == f[..16];
    assert f[..16] + f[16..16 + n] == f[..16 + n];
    assert f[..16 + n] + "Z" == f[..17 + n];
  }

  /** `parseCacheDate`: the stamp in the file name of a cache id. */
  function ParseCacheStamp(cacheId: string): (r: Option<CacheStamp>)
    ensures r.Some? ==> WellFormedStamp(r.value) && StartsWith(FileName(cacheId), StampText(r.value))
  {
    ParseStamp(FileName(cacheId))
  }

  /** The file name is what follows the last "/", or the whole id. */
  lemma FileNameAfterSlash(dir: string, name: string)
    requires '/' !in name
    ensures FileName(dir + "/" + name) == name
    ensures FileName(name) == name
  {
    SplitAbsent(name, '/');
    SplitConcat(dir, '/', name);
    assert dir + "/" + name == dir + ['/'] + name;
  }

  /** A well-formed stamp followed by any text parses back to that stamp. */
  lemma ParseStampRoundTrip(c: CacheStamp, suffix: string)
    requires WellFormedStamp(c)
    ensures ParseStamp(StampText(c) + suffix) == Some(c)
  {
    var f := StampText(c) + suffix;
    var n := |c.fraction|;
    assert f[..4] == c.year && f[4..6] == c.month && f[6..8] == c.day && f[8] == 'T';
    assert f[9..11] == c.hour && f[11..13] == c.minute && f[13..15] == c.second && f[15] == '.';
    assert f[16..][..n] == c.fraction;
    assert f[16..][n] == 'Z';
    DigitRunOf(f[16..], n);
    assert f[16..16 + n] == c.fraction;
  }

  /** Any directory path, a well-formed stamp and any suffix without "/"
      parse back to that stamp. */
  lemma ParseCacheStampRoundTrip(dir: string, c: CacheStamp, suffix: string)
    requires WellFormedStamp(c)
    requires '/' !in suffix
    ensures ParseCacheStamp(dir + "/" + StampText(c) + suffix) == Some(c)
    ensures ParseCacheStamp(StampText(c) + suffix) == Some(c)
  {
    var name := StampText(c) + suffix;
    assert '/' !in StampText(c);
    assert '/' !in name;
    FileNameAfterSlash(dir, name);
    assert dir + "/" + StampText(c) + suffix == dir + "/" + name;
    ParseStampRoundTrip(c, suffix);
  }

  lemma DigitRunOf(s: string, n: nat)
    requires n < |s| && AllDigits(s[..n]) && !IsDigit(s[n])
    ensures DigitRun(s) == n
  {
    if n > 0 {
      assert s[1..][..n - 1] == s[..n][1..];
      DigitRunOf(s[1..], n - 1);
    }
  }

  /** `frac.slice(0, 3).padEnd(3, "0")`: milliseconds, truncated or padded
      to exactly three digits. */
  function Milliseconds(fraction: string): (ms: string)
    ensures |ms| == 3
    ensures |fraction| >= 3 ==> ms == fraction[..3]
    ensures |fraction| < 3 ==> ms[..|fraction|] == fraction && forall i :: |fraction| <= i < 3 ==> ms[i] == '0'
  {
    var head := if |fraction| >= 3 then fraction[..3] else fraction;
    head + seq(3 - |head|, _ => '0')
  }

  predicate IsLeapYear(year: nat) {
    year % 4 == 0 && (year % 100 != 0 || year % 400 == 0)
  }

  function DaysInMonth(year: nat, month: nat): (days: nat)
    requires 1 <= month <= 12
    ensures 28 <= days <= 31
    ensures days == 29 <==> month == 2 && IsLeapYear(year)
  {
    if month == 2 then (if IsLeapYear(year) then 29 else 28)
    else if month == 4 || month == 6 || month == 9 || month == 11 then 30
    else 31
  }

  /** The stamp names a real time of day on a real date of the proleptic
      Gregorian calendar, as the ECMAScript date time string format
      requires; `new Date` of any other text is an invalid date. */
  predicate IsValidDate(c: CacheStamp)
    requires WellFormedStamp(c)
  {
    var month := DigitsValue(c.month);
    && 1 <= month <= 12
    && 1 <= DigitsValue(c.day) <= DaysInMonth(DigitsValue(c.year), month)
    && DigitsValue(c.hour) < 24
    && DigitsValue(c.minute) < 60
    && DigitsValue(c.second) < 60
  }

  /** The ISO text of the stamp's date, to the millisecond, which is what
      `toISOString` gives back for a valid date of a four-digit year. */
  function IsoText(c: CacheStamp): (r: string)
    ensures WellFormedStamp(c) ==> |r| == 24
    ensures WellFormedStamp(c) ==>
      r[4] == '-' && r[7] == '-' && r[10] == 'T' && r[13] == ':' && r[16] == ':' && r[19] == '.' && r[23] == 'Z'
    ensures WellFormedStamp(c) ==>
      && r[..4] == c.year && r[5..7] == c.month && r[8..10] == c.day
      && r[11..13] == c.hour && r[14..16] == c.minute && r[17..19] == c.second && r[20..23] == Milliseconds(c.fraction)
  {
    c.year + "-" + c.month + "-" + c.day + "T" + c.hour + ":" + c.minute + ":" + c.second + "." + Milliseconds(c.fraction) + "Z"
  }

  /** `formatCacheDateTime`: "Unknown date" unless the file name carries a
      stamp, and the display text of the stamp's ISO time when it is a
      valid date; none when it is not, where `toISOString` throws. How an
      ISO time is displayed is passed in. */
  function FormatCacheDateTime(cacheId: string, displayDateTime: string -> string): (r: Option<string>)
    ensures ParseCacheStamp(cacheId).None? ==> r == Some("Unknown date")
    ensures ParseCacheStamp(cacheId).Some? && !IsValidDate(ParseCacheStamp(cacheId).value) ==> r.None?
    ensures ParseCacheStamp(cacheId).Some? && IsValidDate(ParseCacheStamp(cacheId).value) ==>
      r == Some(displayDateTime(IsoText(ParseCacheStamp(cacheId).value)))
  {
    var parsed := ParseCacheStamp(cacheId);
    if parsed.None? then Some("Unknown date")
    else if !IsValidDate(parsed.value) then None
    else Some(displayDateTime(IsoText(parsed.value)))
  }

  /** A cache id whose stamp is a valid date is displayed from that date's
      ISO text; one whose month is not 1 to 12 cannot be displayed. */
  lemma FormatCacheDateTimeOfStamp(dir: string, c: CacheStamp, suffix: string, displayDateTime: string -> string)
    requires WellFormedStamp(c)
    requires '/' !in suffix
    ensures IsValidDate(c) ==>
      FormatCacheDateTime(dir + "/" + StampText(c) + suffix, displayDateTime) == Some(displayDateTime(IsoText(c)))
    ensures DigitsValue(c.month) > 12 ==>
      FormatCacheDateTime(dir + "/" + StampText(c) + suffix, displayDateTime).None?
  {
    ParseCacheStampRoundTrip(dir, c, suffix);
  }
}

=== FILE: history_viewer.dfy ===
/** The snapshot history page: the newest-first list of cache entries, the
    selection that falls back to the newest snapshot, the restore flow and
    the query keys a successful restore invalidates. */
module HistoryViewer {
  import opened Common
  import opened HistoryUtils

  /** One row of the snapshot list. */
  datatype CacheEntry = CacheEntry(cacheId: string, labelText: string, dateTimeLabel: Option<string>, isAutoBackup: bool)

  const PreRestoreSuffix: string := " (pre-restore)"
  const RestoreSuccessMessage: string :=
    "Restore successful. An auto-backup of your previous state has been saved at the top of the list."

  /** The revisions as the server lists them, newest last, shown newest first. */
  function AllCaches(revisions: seq<string>): (caches: seq<string>)
    ensures |caches| == |revisions|
    ensures forall i :: 0 <= i < |revisions| ==> caches[i] == revisions[|revisions| - 1 - i]
  {
    Reverse(revisions)
  }

  /** One entry per cache id, in the same order; after a restore the newest
      one is the automatic backup of the state before it. */
  function CacheEntries(allCaches: seq<string>, lastRestoredCacheId: Option<string>,
                        displayDateTime: string -> string): (entries: seq<CacheEntry>)
    ensures |entries| == |allCaches|
    ensures forall i :: 0 <= i < |allCaches| ==>
      && entries[i].cacheId == allCaches[i]
      && (entries[i].isAutoBackup <==> lastRestoredCacheId.Some? && i == 0)
      && entries[i].labelText == (if entries[i].isAutoBackup then GetSnapshotLabel(i) + PreRestoreSuffix else GetSnapshotLabel(i))
      && entries[i].dateTimeLabel == FormatCacheDateTime(allCaches[i], displayDateTime)
  {
    seq(|allCaches|, (index: int) requires 0 <= index < |allCaches| =>
      var isAutoBackup := lastRestoredCacheId.Some? && index == 0;
      CacheEntry(
        allCaches[index],
        if isAutoBackup then GetSnapshotLabel(index) + PreRestoreSuffix else GetSnapshotLabel(index),
        FormatCacheDateTime(allCaches[index], displayDateTime),
        isAutoBackup))
  }

  function CountAutoBackups(entries: seq<CacheEntry>): nat {
    if entries == [] then 0
    else (if entries[|entries| - 1].isAutoBackup then 1 else 0) + CountAutoBackups(entries[..|entries| - 1])
  }

  lemma {:induction false} CountAutoBackupsFirstOnly(entries: seq<CacheEntry>)
    requires forall i :: 0 < i < |entries| ==> !entries[i].isAutoBackup
    ensures CountAutoBackups(entries) == (if entries != [] && entries[0].isAutoBackup then 1 else 0)
  {
    if |entries| > 1 {
      CountAutoBackupsFirstOnly(entries[..|entries| - 1]);
    } else if |entries| == 1 {
      assert entries[..0] == [];
    }
  }

  /** Exactly one row is marked as the automatic backup after a restore,
      none otherwise. */
  lemma AutoBackupCount(allCaches: seq<string>, lastRestoredCacheId: Option<string>, displayDateTime: string -> string)
    ensures CountAutoBackups(CacheEntries(allCaches, lastRestoredCacheId, displayDateTime))
      == (if lastRestoredCacheId.Some? && allCaches != [] then 1 else 0)
  {
    var entries := CacheEntries(allCaches, lastRestoredCacheId, displayDateTime);
    CountAutoBackupsFirstOnly(entries);
  }

  /** `array.includes(x)` */
  predicate Includes(s: seq<string>, x: string) {
    x in s
  }

  /** The key of a cached query: the generated operation id and the
      resource and revision it was asked for. All keys share one base URL. */
  datatype QueryKey = QueryKey(id: string, resource: Option<string>, revisionId: Option<string>)

  /** A key filter as `invalidateQueries({ queryKey })` uses it: the id must
      match, and the resource when the filter names one. */
  datatype KeyFilter = KeyFilter(id: string, resource: Option<string>)

  predicate PartialMatch(filter: KeyFilter, key: QueryKey) {
    key.id == filter.id && (filter.resource.Some? ==> key.resource == filter.resource)
  }

  const ProjectQueryId: string := "projectGetProject"
  const CacheListQueryId: string := "projectGetCache"
  const CacheDiffQueryId: string := "projectGetCacheDiff"

  /** The three invalidations of a successful restore of `resource`: the
      project, the cache list of the resource, and any diff query of it. */
  predicate InvalidatedByRestore(key: QueryKey, resource: string) {
    || PartialMatch(KeyFilter(ProjectQueryId, None), key)
    || PartialMatch(KeyFilter(CacheListQueryId, Some(resource)), key)
    || (key.id == CacheDiffQueryId && key.resource == Some(resource))
  }

  /** Which keys a restore invalidates, in terms of the key alone. */
  lemma InvalidatedByRestoreIff(key: QueryKey, resource: string)
    ensures InvalidatedByRestore(key, resource) <==>
      key.id == ProjectQueryId
      || ((key.id == CacheListQueryId || key.id == CacheDiffQueryId) && key.resource == Some(resource))
  {
  }

  /** The diff of any revision of the restored resource is invalidated;
      diffs of another resource are not. */
  lemma DiffInvalidation(key: QueryKey, resource: string)
    requires key.id == CacheDiffQueryId
    ensures InvalidatedByRestore(key, resource) <==> key.resource == Some(resource)
  {
  }

  /** What a restore asks the server for. */
  datatype RestoreRequest = RestoreRequest(revisionId: string, resource: string)

  /** The selection the effect settles on, as a value. */
  function SettledSelection(allCaches: seq<string>, selected: Option<string>): (r: Option<string>)
    ensures r.Some? <==> allCaches != []
    ensures r.Some? ==> r.value in allCaches
    ensures selected.Some? && selected.value in allCaches ==> r == selected
    ensures allCaches != [] && (selected.None? || selected.value !in allCaches) ==> r == Some(allCaches[0])
  {
    if allCaches == [] then None
    else if selected.None? || selected.value !in allCaches then Some(allCaches[0])
    else selected
  }

  /** Running the effect again on its own result changes nothing. */
  lemma SettledSelectionStable(allCaches: seq<string>, selected: Option<string>)
    ensures SettledSelection(allCaches, SettledSelection(allCaches, selected)) == SettledSelection(allCaches, selected)
  {
  }
  class Viewer {
    var resource: string
    var selectedCacheId: Option<string>
    var isDiffDialogOpen: bool
    var isRestoreDialogOpen: bool
    var lastRestoredCacheId: Option<string>
    var toasts: seq<string>

    constructor()
      ensures resource == "config.json"
      ensures selectedCacheId.None? && lastRestoredCacheId.None?
      ensures !isDiffDialogOpen && !isRestoreDialogOpen
      ensures toasts == []
    {
      resource := "config.json";
      selectedCacheId := None;
      isDiffDialogOpen := false;
      isRestoreDialogOpen := false;
      lastRestoredCacheId := None;
      toasts := [];
    }

    /** The effect on the list and the selection: nothing to select in an
        empty list, a selection that is in the list is kept, any other
        falls back to the newest snapshot. */
    method ApplySelectionFallback(allCaches: seq<string>)
      modifies this
      ensures selectedCacheId == SettledSelection(allCaches, old(selectedCacheId))
      ensures resource == old(resource) && lastRestoredCacheId == old(lastRestoredCacheId)
      ensures isDiffDialogOpen == old(isDiffDialogOpen) && isRestoreDialogOpen == old(isRestoreDialogOpen)
      ensures toasts == old(toasts)
    {
      if |allCaches| == 0 {
        selectedCacheId := None;
        return;
      }
      if selectedCacheId.None? || !Includes(allCaches, selectedCacheId.value) {
        selectedCacheId := Some(allCaches[0]);
      }
    }

    /** The diff query runs only for an open diff dialog and a selection. */
    predicate DiffQueryEnabled()
      reads this
    {
      isDiffDialogOpen && selectedCacheId.Some?
    }

    method OpenDiffDialog(cacheId: string)
      modifies this
      ensures selectedCacheId == Some(cacheId) && isDiffDialogOpen
      ensures DiffQueryEnabled()
      ensures resource == old(resource) && lastRestoredCacheId == old(lastRestoredCacheId)
      ensures isRestoreDialogOpen == old(isRestoreDialogOpen) && toasts == old(toasts)
    {
      selectedCacheId := Some(cacheId);
      isDiffDialogOpen := true;
    }

    method OpenRestoreDialog(cacheId: string)
      modifies this
      ensures selectedCacheId == Some(cacheId) && isRestoreDialogOpen
      ensures resource == old(resource) && lastRestoredCacheId == old(lastRestoredCacheId)
      ensures isDiffDialogOpen == old(isDiffDialogOpen) && toasts == old(toasts)
    {
      selectedCacheId := Some(cacheId);
      isRestoreDialogOpen := true;
    }

    /** Closes the diff dialog; opens the restore dialog only for a non-empty
        selection. */
    method OpenRestoreDialogFromDiff()
      modifies this
      ensures !isDiffDialogOpen
      ensures isRestoreDialogOpen <==> old(isRestoreDialogOpen) || (selectedCacheId.Some? && selectedCacheId.value != "")
      ensures selectedCacheId == old(selectedCacheId)
      ensures resource == old(resource) && lastRestoredCacheId == old(lastRestoredCacheId) && toasts == old(toasts)
    {
      isDiffDialogOpen := false;
      if selectedCacheId.Some? && selectedCacheId.value != "" {
        OpenRestoreDialog(selectedCacheId.value);
      }
    }

    /** The restore request, or none without a (non-empty) selection. */
    method RestoreSelectedCache() returns (request: Option<RestoreRequest>)
      ensures request.None? <==> selectedCacheId.None? || selectedCacheId.value == ""
      ensures request.Some? ==> request.value.revisionId == selectedCacheId.value && request.value.resource == resource
    {
      if selectedCacheId.None? || selectedCacheId.value == "" {
        return None;
      }
      request := Some(RestoreRequest(selectedCacheId.value, resource));
    }

    /** After the server restored `request`: the affected cached queries are
        invalidated, a toast is shown, the restored revision is remembered,
        the restore dialog closes and the selection is cleared. */
    method OnRestoreSuccess(request: RestoreRequest, cachedKeys: set<QueryKey>) returns (invalidated: set<QueryKey>)
      modifies this
      ensures invalidated <= cachedKeys
      ensures forall k :: k in cachedKeys ==> (k in invalidated <==> InvalidatedByRestore(k, request.resource))
      ensures toasts == old(toasts) + [RestoreSuccessMessage]
      ensures lastRestoredCacheId == Some(request.revisionId)
      ensures !isRestoreDialogOpen && selectedCacheId.None?
      ensures resource == old(resource) && isDiffDialogOpen == old(isDiffDialogOpen)
    {
      invalidated := set k | k in cachedKeys && InvalidatedByRestore(k, request.resource);
      toasts := toasts + [RestoreSuccessMessage];
      lastRestoredCacheId := Some(request.revisionId);
      isRestoreDialogOpen := false;
      selectedCacheId := None;
    }

    /** Picking a resource; the backup marker belongs to the previous one, so
        it is dropped when the resource actually changes. */
    method ChangeResource(newResource: string)
      modifies this
      ensures resource == newResource
      ensures newResource != old(resource) ==> lastRestoredCacheId.None?
      ensures newResource == old(resource) ==> lastRestoredCacheId == old(lastRestoredCacheId)
      ensures selectedCacheId == old(selectedCacheId) && toasts == old(toasts)
      ensures isDiffDialogOpen == old(isDiffDialogOpen) && isRestoreDialogOpen == old(isRestoreDialogOpen)
    {
      if newResource != resource {
        resource := newResource;
        lastRestoredCacheId := None;
      }
    }

    /** The Restore button of the diff dialog. */
    predicate DiffRestoreDisabled(projectReadOnly: bool, restorePending: bool, diffPending: bool, diffData: Option<nat>)
      reads this
    {
      projectReadOnly || restorePending || selectedCacheId.None? || diffPending
        || (diffData.Some? && diffData.value == 0)
    }

    /** The Restore button of the confirmation dialog. */
    predicate ConfirmRestoreDisabled(projectReadOnly: bool, restorePending: bool)
      reads this
    {
      projectReadOnly || restorePending || selectedCacheId.None?
    }

    /** The diff dialog's button is enabled only when there are differences to
        restore and the confirmation's button would be enabled too. */
    lemma DiffRestoreEnabled(projectReadOnly: bool, restorePending: bool, diffPending: bool, diffData: Option<nat>)
      ensures !DiffRestoreDisabled(projectReadOnly, restorePending, diffPending, diffData) ==>
        && !ConfirmRestoreDisabled(projectReadOnly, restorePending)
        && !projectReadOnly && selectedCacheId.Some? && !diffPending
        && (diffData.None? || diffData.value > 0)
    {
    }
  }
}

=== FILE: lock_expire.dfy ===
/** The lock-expiry countdown: while the lock has an expiry time, the time
    left is recomputed once a second, and the warning dialog is open exactly
    while that time is within the warning threshold. Times are milliseconds;
    the clock reading is passed in, and the interval timer is a handle that
    is started and cleared. */
module LockExpire {
  import opened Common

  /** `Math.max(0, expireAt - now)` */
  function TimeLeft(expireAt: int, now: int): (t: nat)
    ensures t >= expireAt - now
    ensures t == 0 || t == expireAt - now
  {
    if expireAt - now > 0 then expireAt - now else 0
  }

  /** Later readings of the clock never show more time left. */
  lemma TimeLeftNonIncreasing(expireAt: int, now: int, later: int)
    requires now <= later
    ensures TimeLeft(expireAt, later) <= TimeLeft(expireAt, now)
  {
  }

  /** `Math.ceil(timeLeft / 1000)`: the least whole number of seconds that
      covers the time left. */
  function DisplaySeconds(timeLeft: nat): (s: nat)
    ensures s * 1000 >= timeLeft
    ensures s == 0 || (s - 1) * 1000 < timeLeft
  {
    (timeLeft + 999) / 1000
  }

  /** An expiry timestamp drives a countdown only when it is truthy: present
      and not 0. */
  predicate StartsCountdown(lockExpireAt: Option<int>) {
    lockExpireAt.Some? && lockExpireAt.value != 0
  }

  class LockExpireCountdown {
    const threshold: int
    var timeUntilExpire: int
    var isDialogOpen: bool
    /** The expiry time the running interval counts down to. */
    var expireAt: int
    /** The clock reading of the last update. */
    var lastUpdate: int
    /** The handle of the running interval, if one runs. */
    var interval: Option<nat>
    var nextHandle: nat
    var clearedIntervals: seq<nat>

    /** While an interval runs, the state reflects the last update. */
    ghost predicate Valid()
      reads this
    {
      && (interval.Some? ==> interval.value < nextHandle)
      && (interval.Some? ==> timeUntilExpire == TimeLeft(expireAt, lastUpdate))
      && (interval.Some? ==> (isDialogOpen <==> timeUntilExpire <= threshold))
    }

    constructor(threshold: int)
      ensures Valid()
      ensures this.threshold == threshold
      ensures timeUntilExpire == 0 && !isDialogOpen && interval == None && clearedIntervals == []
    {
      this.threshold := threshold;
      timeUntilExpire := 0;
      isDialogOpen := false;
      expireAt := 0;
      lastUpdate := 0;
      interval := None;
      nextHandle := 0;
      clearedIntervals := [];
    }

    /** `updateTimeUntilExpire` */
    method UpdateTimeUntilExpire(now: int)
      modifies this
      ensures timeUntilExpire == TimeLeft(expireAt, now)
      ensures isDialogOpen <==> timeUntilExpire <= threshold
      ensures lastUpdate == now
      ensures expireAt == old(expireAt) && interval == old(interval)
      ensures nextHandle == old(nextHandle) && clearedIntervals == old(clearedIntervals)
    {
      var timeLeft := TimeLeft(expireAt, now);
      timeUntilExpire := timeLeft;
      if timeLeft <= threshold {
        isDialogOpen := true;
      } else {
        isDialogOpen := false;
      }
      lastUpdate := now;
    }

    /** The effect run for a new expiry timestamp (the previous run's
        cleanup has already run): with a truthy timestamp, update once and
        start the per-second interval; otherwise do nothing. */
    method RunEffect(lockExpireAt: Option<int>, now: int)
      requires Valid() && interval.None?
      modifies this
      ensures Valid()
      ensures !StartsCountdown(lockExpireAt) ==>
        && interval.None?
        && timeUntilExpire == old(timeUntilExpire) && isDialogOpen == old(isDialogOpen)
      ensures StartsCountdown(lockExpireAt) ==>
        && interval == Some(old(nextHandle))
        && expireAt == lockExpireAt.value
        && timeUntilExpire == TimeLeft(lockExpireAt.value, now)
        && (isDialogOpen <==> timeUntilExpire <= threshold)
      ensures clearedIntervals == old(clearedIntervals)
    {
      if StartsCountdown(lockExpireAt) {
        expireAt := lockExpireAt.value;
        UpdateTimeUntilExpire(now);
        interval := Some(nextHandle);
        nextHandle := nextHandle + 1;
      }
    }

    /** One firing of the interval. */
    method Tick(now: int)
      requires Valid() && interval.Some? && lastUpdate <= now
      modifies this
      ensures Valid()
      ensures timeUntilExpire <= old(timeUntilExpire)
      ensures timeUntilExpire == TimeLeft(expireAt, now)
      ensures isDialogOpen <==> timeUntilExpire <= threshold
      // once open, the dialog stays open as time passes
      ensures old(isDialogOpen) ==> isDialogOpen
      ensures interval == old(interval) && clearedIntervals == old(clearedIntervals)
    {
      TimeLeftNonIncreasing(expireAt, lastUpdate, now);
      UpdateTimeUntilExpire(now);
    }

    /** The effect cleanup: the running interval, if any, is cleared. */
    method Cleanup()
      requires Valid()
      modifies this
      ensures Valid()
      ensures interval.None?
      ensures old(interval).Some? ==> clearedIntervals == old(clearedIntervals) + [old(interval).value]
      ensures old(interval).None? ==> clearedIntervals == old(clearedIntervals)
      ensures timeUntilExpire == old(timeUntilExpire) && isDialogOpen == old(isDialogOpen)
    {
      if interval.Some? {
        clearedIntervals := clearedIntervals + [interval.value];
        interval := None;
      }
    }
  }
}

=== FILE: masterdata_edit.dfy ===
/** The masterdata edit dialog: the SMDA queries combined into one record
    keyed by field, the list of SMDA fields to query, the item operations
    started from the item lists (with the confirmation step when they reach
    further than one item) and the submit that drops orphan discoveries.
    The form's list operations are the corrected ones of `FormUtils`. */
module MasterdataEdit {
  import opened Common
  import opened Model
  import opened Sorting
  import opened FormUtils
  import opened MasterdataUtils
  import opened MasterdataFunctions
  import opened MasterdataOptions

  // The `useQueries` combine

  /** One SMDA query as `useQueries` reports it. */
  datatype QueryResult = QueryResult(data: Option<SmdaMasterdataResult>, isPending: bool, isSuccess: bool)

  datatype CombinedResults = CombinedResults(data: Grouped, isPending: bool, isSuccess: bool)

  /** The key of result `idx`: its first field's identifier, or `index-<idx>`
      when it has no field or that identifier is empty. */
  function ResultKey(data: SmdaMasterdataResult, idx: nat): string {
    if |data.field| > 0 && data.field[0].identifier != "" then data.field[0].identifier
    else "index-" + NatToString(idx)
  }

  /** `record[key]` */
  function Lookup(entries: seq<GroupedEntry>, key: string): Option<SmdaMasterdataResult> {
    var i := IndexOf(Keys(entries), key);
    if i < 0 then None else Some(entries[i].data)
  }

  /** `record[key] = data`: an existing key keeps its place, a new one goes last. */
  function SetEntry(entries: Grouped, key: string, data: SmdaMasterdataResult): (r: Grouped)
    ensures Lookup(r, key) == Some(data)
    ensures forall k :: k != key ==> Lookup(r, k) == Lookup(entries, k)
    ensures key in Keys(entries) ==> Keys(r) == Keys(entries)
    ensures key !in Keys(entries) ==> Keys(r) == Keys(entries) + [key]
  {
    var i := IndexOf(Keys(entries), key);
    if i >= 0 then
      var r := entries[i := GroupedEntry(key, data)];
      assert Keys(r) == Keys(entries);
      assert DistinctKeys(r) by {
        forall a, b | 0 <= a < b < |r|
          ensures r[a].key != r[b].key
        {
          assert Keys(r)[a] == Keys(entries)[a] && Keys(r)[b] == Keys(entries)[b];
        }
      }
      r
    else
      var r := entries + [GroupedEntry(key, data)];
      assert Keys(r) == Keys(entries) + [key];
      forall k | k != key
        ensures IndexOf(Keys(r), k) == IndexOf(Keys(entries), k)
      {
        IndexOfSnoc(Keys(entries), key, k);
      }
      r
  }

  /** The data of the last result with that key, which the reduce leaves in
      the record. */
  ghost function LastWithKey(results: seq<QueryResult>, key: string): Option<SmdaMasterdataResult> {
    if results == [] then None
    else
      var n := |results| - 1;
      if results[n].data.Some? && ResultKey(results[n].data.value, n) == key then results[n].data
      else LastWithKey(results[..n], key)
  }

  /** A key is absent exactly when no result with data has it, and present
      with the data of a result that has it. */
  lemma {:induction false} LastWithKeyMeaning(results: seq<QueryResult>, key: string)
    ensures LastWithKey(results, key).None? <==>
      forall i :: 0 <= i < |results| && results[i].data.Some? ==> ResultKey(results[i].data.value, i) != key
    ensures LastWithKey(results, key).Some? ==>
      exists i :: 0 <= i < |results| && results[i].data == LastWithKey(results, key) && ResultKey(results[i].data.value, i) == key
  {
    if results != [] {
      var n := |results| - 1;
      var init := results[..n];
      LastWithKeyMeaning(init, key);
      if !(results[n].data.Some? && ResultKey(results[n].data.value, n) == key) {
        forall i | 0 <= i < n
          ensures results[i] == init[i]
        {
        }
        if LastWithKey(init, key).Some? {
          var i :| 0 <= i < |init| && init[i].data == LastWithKey(init, key) && ResultKey(init[i].data.value, i) == key;
          assert results[i] == init[i];
        }
      }
    }
  }

  /** `combine`: the defined results keyed as `ResultKey` says (a later
      result overwriting an earlier one with the same key), pending when
      some query is, successful when all are. */
  method Combine(results: seq<QueryResult>) returns (c: CombinedResults)
    ensures forall key :: Lookup(c.data, key) == LastWithKey(results, key)
    ensures c.isPending <==> exists i :: 0 <= i < |results| && results[i].isPending
    ensures c.isSuccess <==> forall i :: 0 <= i < |results| ==> results[i].isSuccess
  {
    var acc: Grouped := [];
    for i := 0 to |results|
      invariant forall key :: Lookup(acc, key) == LastWithKey(results[..i], key)
    {
      assert results[..i + 1][..i] == results[..i];
      var curr := results[i];
      if curr.data.Some? {
        acc := SetEntry(acc, ResultKey(curr.data.value, i), curr.data.value);
      }
    }
    assert results[..|results|] == results;
    var isPending := exists i | 0 <= i < |results| :: results[i].isPending;
    var isSuccess := forall i | 0 <= i < |results| :: results[i].isSuccess;
    c := CombinedResults(acc, isPending, isSuccess);
  }

  // The SMDA field list

  predicate NoRepeats(s: seq<string>) {
    forall i, j :: 0 <= i < j < |s| ==> s[i] != s[j]
  }

  /** The names the reduce of `addFields` pushes, in order: each name not
      yet present, once. */
  function NewNames(existing: seq<string>, fields: seq<string>): (added: seq<string>)
    ensures forall n :: n in added <==> n in fields && n !in existing
    ensures NoRepeats(added)
  {
    if fields == [] then []
    else
      var pre := NewNames(existing, fields[..|fields| - 1]);
      var c := fields[|fields| - 1];
      assert forall n :: n in fields <==> n in fields[..|fields| - 1] || n == c by {
        assert fields == fields[..|fields| - 1] + [c];
      }
      if c in existing || c in pre then pre else pre + [c]
  }

  lemma {:induction false} NoRepeatsCount(s: seq<string>, n: string)
    requires NoRepeats(s)
    ensures multiset(s)[n] == if n in s then 1 else 0
  {
    if s != [] {
      var init := s[..|s| - 1];
      assert s == init + [s[|s| - 1]];
      NoRepeatsCount(init, n);
    }
  }

  /** After `addFields` each name already listed keeps its count, each new
      name is listed once, and nothing else is listed. */
  lemma AddFieldsCounts(existing: seq<string>, fields: seq<string>, n: string)
    ensures multiset(existing + NewNames(existing, fields))[n] ==
      if n in existing then multiset(existing)[n] else if n in fields then 1 else 0
  {
    NoRepeatsCount(NewNames(existing, fields), n);
  }

  /** With a list free of repeats, `addFields` keeps it free of repeats. */
  lemma AddFieldsNoRepeats(existing: seq<string>, fields: seq<string>)
    requires NoRepeats(existing)
    ensures NoRepeats(existing + NewNames(existing, fields))
  {
    var added := NewNames(existing, fields);
    var all := existing + added;
    forall i, j | 0 <= i < j < |all|
      ensures all[i] != all[j]
    {
      if j >= |existing| && i < |existing| {
        assert all[j] in added && all[i] in existing;
      } else if i >= |existing| {
        assert all[i] == added[i - |existing|] && all[j] == added[j - |existing|];
      }
    }
  }

  // The items operations

  /** A category's list after an operation: nothing changes for no values;
      an addition keeps the list as its prefix, holds every requested uuid
      and keeps uuids unique; a removal from a list of unique uuids keeps
      exactly the elements whose uuid was not requested. */
  ghost predicate Applied(before: seq<IdentifierUuid>, after: seq<IdentifierUuid>, operation: ListOperation, values: seq<IdentifierUuid>) {
    && (values == [] ==> after == before)
    && (operation == Addition ==>
         && |before| <= |after| && after[..|before|] == before
         && (forall v :: v in values ==> UuidIn(after, v.uuid))
         && (UniqueUuids(before) ==> UniqueUuids(after)))
    && (operation == Removal && UniqueUuids(before) ==>
         forall x :: x in after <==> x in before && !UuidIn(values, x.uuid))
  }

  /** `handleNameUuidListOperationOnForm` on one field, called only with a
      non-empty list. */
  function ApplyOperation(list: seq<IdentifierUuid>, operation: ListOperation, values: seq<IdentifierUuid>): (r: seq<IdentifierUuid>)
    ensures Applied(list, r, operation, values)
  {
    if values == [] then list
    else if operation == Addition then
      var r := AdditionCorrected(list, values);
      AdditionCorrectedCovers(list, values);
      assert UniqueUuids(list) ==> UniqueUuids(r) by {
        if UniqueUuids(list) {
          AdditionCorrectedUnique(list, values);
        }
      }
      r
    else
      var r := RemovalCorrected(list, values);
      assert UniqueUuids(list) ==> forall x :: x in r <==> x in list && !UuidIn(values, x.uuid) by {
        if UniqueUuids(list) {
          forall x
            ensures x in r <==> x in list && !UuidIn(values, x.uuid)
          {
            RemovalCorrectedExact(list, values, x);
          }
        }
      }
      r
  }

  /** The items of one category the operation applies to: the selected ones
      and then the affected ones. */
  function Requested(selected: ItemLists, affected: Option<ItemLists>, itemType: ItemType): seq<IdentifierUuid> {
    match itemType
    case FieldItem => selected.field + (if affected.Some? then affected.value.field else [])
    case CountryItem => selected.country + (if affected.Some? then affected.value.country else [])
    case DiscoveryItem => NoneGroup(selected) + (if affected.Some? then NoneGroup(affected.value) else [])
  }

  /** The form after `handleItemsOperation`: unchanged without a selection
      or with an empty one, else each list with the operation applied to its
      requested items, the single values untouched. */
  function ItemsOperationResult(form: Smda, selected: Option<SelectedItems>, affected: Option<ItemLists>): (r: Smda)
    ensures selected.None? || TotalItems(selected.value.items) == 0 ==> r == form
    ensures r.coordinateSystem == form.coordinateSystem && r.stratigraphicColumn == form.stratigraphicColumn
    ensures selected.Some? && TotalItems(selected.value.items) > 0 ==>
      var operation := selected.value.operation;
      && Applied(form.field, r.field, operation, Requested(selected.value.items, affected, FieldItem))
      && Applied(form.country, r.country, operation, Requested(selected.value.items, affected, CountryItem))
      && Applied(form.discovery, r.discovery, operation, Requested(selected.value.items, affected, DiscoveryItem))
  {
    if selected.None? || TotalItems(selected.value.items) == 0 then form
    else
      var operation := selected.value.operation;
      var items := selected.value.items;
      form.(
        field := ApplyOperation(form.field, operation, Requested(items, affected, FieldItem)),
        country := ApplyOperation(form.country, operation, Requested(items, affected, CountryItem)),
        discovery := ApplyOperation(form.discovery, operation, Requested(items, affected, DiscoveryItem)))
  }

  /** Whether a selection needs the confirmation dialog: more than one item
      selected, or anything affected. */
  predicate NeedsConfirmation(selected: ItemLists, affected: ItemLists) {
    TotalItems(selected) > 1 || TotalItems(affected) > 0
  }

  /** When the selection effect starts an items operation: none is ongoing,
      the selection holds items, and the SMDA data has loaded. */
  predicate StartsOperation(isOngoing: bool, selected: Option<SelectedItems>, grouped: Grouped, isSuccess: bool) {
    !isOngoing && selected.Some? && TotalItems(selected.value.items) > 0 && isSuccess && |grouped| > 0
  }

  /** The value a picker writes to the form for the chosen uuid: the one
      option with that uuid, or the "(none)" placeholder. */
  function PickOption(options: seq<IdentifierUuid>, value: string): (r: IdentifierUuid)
    ensures r == EmptyIdentifierUuid() || (r in options && r.uuid == value)
    ensures (exists i :: IsOnlyMatch(options, HasUuid(value), i)) ==> r in options && r.uuid == value
  {
    var found := FindOptionValueInIdentifierUuidArray(options, value);
    if found.Some? then
      assert exists i :: IsOnlyMatch(options, HasUuid(value), i);
      found.value
    else EmptyIdentifierUuid()
  }

  /** A picked value never draws the unknown-initial-value error against the
      same options, provided no option takes the placeholder's uuid. */
  lemma PickedOptionAccepted(options: seq<IdentifierUuid>, value: string)
    requires !UuidIn(options, EmptyIdentifierUuid().uuid)
    ensures InitialValueError(options, PickOption(options, value)) == None
  {
    var picked := PickOption(options, value);
    if FindOptionValueInIdentifierUuidArray(options, value).Some? {
      var i :| IsOnlyMatch(options, HasUuid(value), i);
      var all := [EmptyIdentifierUuid()] + options;
      var p := HasUuid(picked.uuid);
      assert picked == options[i];
      forall j | 0 <= j < |all| && p(all[j])
        ensures j == i + 1
      {
        if j > 0 {
          assert all[j] == options[j - 1];
        }
      }
      assert IsOnlyMatch(all, p, i + 1);
    } else {
      PlaceholderAccepted(options);
    }
  }

  /** What `handlePrepareEditData` derives from the SMDA data and the form. */
  datatype EditData = EditData(
    project: FormMasterdataProject,
    available: ItemLists,
    orphan: FormMasterdataSub,
    coordinateSystemError: Option<string>,
    stratigraphicColumnError: Option<string>)

  /** The derived data for a form: the options for its fields; an error on
      the coordinate system or the stratigraphic column exactly when it is
      not one of the options the form offers for it; the SMDA items split
      into those in the project and those available; the project's
      discovery groups one per project field; the discoveries placed under
      no project field as the orphans. */
  ghost predicate PreparedFor(d: EditData, grouped: Grouped, form: Smda, leq: (string, string) -> bool) {
    var options := d.project.options;
    && options.coordinateSystems ==
       (if |form.field| > 0 then CoordinateSystemsOf(grouped, form.field[0].identifier) else [])
    && options.coordinateSystemsOptions ==
       CoordinateSystemsOptions(grouped, form.field, CsFold(grouped, Identifiers(form.field), leq), leq)
    && options.stratigraphicColumns == ColumnsFold(grouped, Identifiers(form.field), |form.field|, false)
    && options.stratigraphicColumnsOptions ==
       SortBy(ColumnsFold(grouped, Identifiers(form.field), |form.field|, true), ByIdentifier(leq))
    && d.coordinateSystemError == InitialValueError(options.coordinateSystems, form.coordinateSystem)
    && d.stratigraphicColumnError == InitialValueError(options.stratigraphicColumnsOptions, form.stratigraphicColumn)
    && Partitioned(AllOf(grouped, FieldItem), form.field, d.project.lists.field, d.available.field)
    && Partitioned(AllOf(grouped, CountryItem), form.country, d.project.lists.country, d.available.country)
    && (forall n :: n in GroupNames(d.project.lists.discovery) <==> n in Identifiers(form.field))
    && GroupNames(d.available.discovery) == Keys(grouped)
    && d.orphan.country == []
    && d.orphan.discovery == [Group(DummyGroupName, Filter(form.discovery, Unplaced(grouped, form.field)))]
  }

  method EditDataFor(grouped: Grouped, form: Smda, leq: (string, string) -> bool) returns (d: EditData)
    ensures PreparedFor(d, grouped, form, leq)
  {
    var options := CreateOptions(grouped, form.field, leq);
    var csError := InitialValueError(options.coordinateSystems, form.coordinateSystem);
    var scError := InitialValueError(options.stratigraphicColumnsOptions, form.stratigraphicColumn);
    var project, available, orphan := CreateItemLists(grouped, form.field, form.country, form.discovery);
    d := EditData(FormMasterdataProject(project, options), available,
                  FormMasterdataSub(orphan.country, orphan.discovery), csError, scError);
  }

  /** The three list updates of `handleItemsOperation`, each made only
      when the operation requests items of that kind. */
  method ApplyItemsOperation(form: Smda, selected: SelectedItems, affected: Option<ItemLists>) returns (r: Smda)
    requires TotalItems(selected.items) > 0
    ensures r == ItemsOperationResult(form, Some(selected), affected)
  {
    var operation := selected.operation;
    var items := selected.items;
    r := form;
    var fields := Requested(items, affected, FieldItem);
    if |fields| > 0 {
      r := r.(field := ApplyOperation(r.field, operation, fields));
    }
    var countries := Requested(items, affected, CountryItem);
    if |countries| > 0 {
      r := r.(country := ApplyOperation(r.country, operation, countries));
    }
    var discoveries := Requested(items, affected, DiscoveryItem);
    if |discoveries| > 0 {
      r := r.(discovery := ApplyOperation(r.discovery, operation, discoveries));
    }
  }

  /** The state of the edit dialog. */
  class Editor {
    var form: Smda
    const projectReadOnly: bool
    var smdaFields: seq<string>
    var projectData: FormMasterdataProject
    var availableData: ItemLists
    var orphanData: FormMasterdataSub
    var coordinateSystemError: Option<string>
    var stratigraphicColumnError: Option<string>
    var selectedItems: Option<SelectedItems>
    var affectedItems: Option<ItemLists>
    var isOngoingItemsOperation: bool
    var confirmDialogOpen: bool
    /** The form value last handed to the save mutation. */
    var submitted: Option<Smda>

    constructor(projectMasterdata: Smda, projectReadOnly: bool)
      ensures form == projectMasterdata && this.projectReadOnly == projectReadOnly
      ensures smdaFields == []
      ensures projectData == EmptyFormMasterdataProject() && availableData == EmptyFormMasterdataBase()
      ensures orphanData == EmptyFormMasterdataSub(true)
      ensures coordinateSystemError.None? && stratigraphicColumnError.None?
      ensures selectedItems.None? && affectedItems.None?
      ensures !isOngoingItemsOperation && !confirmDialogOpen && submitted.None?
    {
      form := projectMasterdata;
      this.projectReadOnly := projectReadOnly;
      smdaFields := [];
      projectData := EmptyFormMasterdataProject();
      availableData := EmptyFormMasterdataBase();
      orphanData := EmptyFormMasterdataSub(true);
      coordinateSystemError := None;
      stratigraphicColumnError := None;
      selectedItems := None;
      affectedItems := None;
      isOngoingItemsOperation := false;
      confirmDialogOpen := false;
      submitted := None;
    }

    /** The effect run when the dialog opens: the SMDA fields to query are
        the project's field identifiers, sorted. */
    method OpenDialog(projectMasterdata: Smda, leq: (string, string) -> bool)
      modifies this
      ensures smdaFields == SortBy(Identifiers(projectMasterdata.field), leq)
      ensures form == old(form) && selectedItems == old(selectedItems) && affectedItems == old(affectedItems)
      ensures projectData == old(projectData) && availableData == old(availableData) && orphanData == old(orphanData)
      ensures isOngoingItemsOperation == old(isOngoingItemsOperation) && confirmDialogOpen == old(confirmDialogOpen)
      ensures submitted == old(submitted)
      ensures coordinateSystemError == old(coordinateSystemError) && stratigraphicColumnError == old(stratigraphicColumnError)
    {
      smdaFields := SortBy(Identifiers(projectMasterdata.field), leq);
    }

    /** `addFields`: the names not yet listed are pushed, then the list is sorted. */
    method AddFields(fields: seq<string>, leq: (string, string) -> bool)
      modifies this
      ensures multiset(smdaFields) == multiset(old(smdaFields) + NewNames(old(smdaFields), fields))
      ensures TotalPreorder(leq) ==> SortedBy(smdaFields, leq)
      ensures form == old(form) && selectedItems == old(selectedItems) && affectedItems == old(affectedItems)
      ensures projectData == old(projectData) && availableData == old(availableData) && orphanData == old(orphanData)
      ensures isOngoingItemsOperation == old(isOngoingItemsOperation) && confirmDialogOpen == old(confirmDialogOpen)
      ensures submitted == old(submitted)
      ensures coordinateSystemError == old(coordinateSystemError) && stratigraphicColumnError == old(stratigraphicColumnError)
    {
      var acc := smdaFields;
      for i := 0 to |fields|
        invariant acc == old(smdaFields) + NewNames(old(smdaFields), fields[..i])
      {
        assert fields[..i + 1][..i] == fields[..i];
        var curr := fields[i];
        if curr !in acc {
          acc := acc + [curr];
        }
      }
      assert fields[..|fields|] == fields;
      if TotalPreorder(leq) {
        SortBySorted(acc, leq);
      }
      smdaFields := SortBy(acc, leq);
    }

    /** `handlePrepareEditData`: the options, the checks of the form's
        coordinate system and stratigraphic column against them, and the
        project, available and orphan item lists. */
    method PrepareEditData(grouped: Grouped, leq: (string, string) -> bool)
      modifies this
      ensures PreparedFor(EditData(projectData, availableData, orphanData, coordinateSystemError, stratigraphicColumnError),
                          grouped, form, leq)
      ensures form == old(form) && smdaFields == old(smdaFields)
      ensures selectedItems == old(selectedItems) && affectedItems == old(affectedItems)
      ensures isOngoingItemsOperation == old(isOngoingItemsOperation) && confirmDialogOpen == old(confirmDialogOpen)
      ensures submitted == old(submitted)
    {
      var d := EditDataFor(grouped, form, leq);
      SetEditData(d);
    }

    /** The three state setters and the two field-meta writes of
        `handlePrepareEditData`. */
    method SetEditData(d: EditData)
      modifies this
      ensures EditData(projectData, availableData, orphanData, coordinateSystemError, stratigraphicColumnError) == d
      ensures form == old(form) && smdaFields == old(smdaFields)
      ensures selectedItems == old(selectedItems) && affectedItems == old(affectedItems)
      ensures isOngoingItemsOperation == old(isOngoingItemsOperation) && confirmDialogOpen == old(confirmDialogOpen)
      ensures submitted == old(submitted)
    {
      projectData := d.project;
      availableData := d.available;
      orphanData := d.orphan;
      coordinateSystemError := d.coordinateSystemError;
      stratigraphicColumnError := d.stratigraphicColumnError;
    }

    /** `handleItemsOperation`: applies the pending operation to the form's
        lists; a no-op without a selection or with an empty one. */
    method HandleItemsOperation()
      modifies this
      ensures form == ItemsOperationResult(old(form), old(selectedItems), old(affectedItems))
      ensures selectedItems == old(selectedItems) && affectedItems == old(affectedItems)
      ensures smdaFields == old(smdaFields) && projectData == old(projectData)
      ensures availableData == old(availableData) && orphanData == old(orphanData)
      ensures isOngoingItemsOperation == old(isOngoingItemsOperation) && confirmDialogOpen == old(confirmDialogOpen)
      ensures submitted == old(submitted)
      ensures coordinateSystemError == old(coordinateSystemError) && stratigraphicColumnError == old(stratigraphicColumnError)
    {
      if selectedItems.None? {
        return;
      }
      var count := ItemsCount(selectedItems.value.items);
      if count == 0 {
        return;
      }
      form := ApplyItemsOperation(form, selectedItems.value, affectedItems);
    }

    /** `finishItemsOperation` */
    method FinishItemsOperation()
      modifies this
      ensures selectedItems.None? && affectedItems.None? && !isOngoingItemsOperation
      ensures form == old(form) && smdaFields == old(smdaFields) && projectData == old(projectData)
      ensures availableData == old(availableData) && orphanData == old(orphanData)
      ensures confirmDialogOpen == old(confirmDialogOpen) && submitted == old(submitted)
      ensures coordinateSystemError == old(coordinateSystemError) && stratigraphicColumnError == old(stratigraphicColumnError)
    {
      selectedItems := None;
      affectedItems := None;
      isOngoingItemsOperation := false;
    }

    /** `startItemsOperation`: looks up what the selection affects in the
        form's lists (`handleAffectedItems`); asks for confirmation when the
        selection holds more than one item or affects any, and otherwise
        applies the operation and finishes. */
    method StartItemsOperation(selected: SelectedItems, grouped: Grouped) returns (ghost affected: ItemLists)
      modifies this
      ensures AffectedItemsOf(selected, grouped, old(form).field, old(form).country, old(form).discovery, affected)
      ensures NeedsConfirmation(selected.items, affected) ==>
        && isOngoingItemsOperation && confirmDialogOpen
        && affectedItems == Some(affected) && selectedItems == old(selectedItems) && form == old(form)
      ensures !NeedsConfirmation(selected.items, affected) ==>
        && form == ItemsOperationResult(old(form), old(selectedItems), old(affectedItems))
        && selectedItems.None? && affectedItems.None? && !isOngoingItemsOperation
        && confirmDialogOpen == old(confirmDialogOpen)
      ensures smdaFields == old(smdaFields) && projectData == old(projectData)
      ensures availableData == old(availableData) && orphanData == old(orphanData) && submitted == old(submitted)
      ensures coordinateSystemError == old(coordinateSystemError) && stratigraphicColumnError == old(stratigraphicColumnError)
    {
      isOngoingItemsOperation := true;
      var found, rounds := HandleAffectedItems(selected, grouped, form.field, form.country, form.discovery);
      affected := found;
      var selectedCount := ItemsCount(selected.items);
      var affectedCount := ItemsCount(found);
      var requireConfirmation := selectedCount > 1 || affectedCount > 0;
      if requireConfirmation {
        affectedItems := Some(found);
        confirmDialogOpen := true;
      } else {
        HandleItemsOperation();
        FinishItemsOperation();
      }
    }

    /** The effect that starts an operation once a non-empty selection is
        made, no operation is ongoing, and the SMDA data has loaded. When it
        starts one, `affected` is what the selection affects, and the
        operation either waits for confirmation or has been applied. */
    method SelectionChanged(grouped: Grouped, isSuccess: bool) returns (ghost affected: ItemLists)
      modifies this
      ensures !StartsOperation(old(isOngoingItemsOperation), old(selectedItems), grouped, isSuccess) ==>
        && form == old(form) && selectedItems == old(selectedItems) && affectedItems == old(affectedItems)
        && isOngoingItemsOperation == old(isOngoingItemsOperation) && confirmDialogOpen == old(confirmDialogOpen)
      ensures StartsOperation(old(isOngoingItemsOperation), old(selectedItems), grouped, isSuccess) ==>
        AffectedItemsOf(old(selectedItems).value, grouped, old(form).field, old(form).country, old(form).discovery, affected)
      ensures StartsOperation(old(isOngoingItemsOperation), old(selectedItems), grouped, isSuccess)
              && NeedsConfirmation(old(selectedItems).value.items, affected) ==>
        && isOngoingItemsOperation && confirmDialogOpen
        && affectedItems == Some(affected) && selectedItems == old(selectedItems) && form == old(form)
      ensures StartsOperation(old(isOngoingItemsOperation), old(selectedItems), grouped, isSuccess)
              && !NeedsConfirmation(old(selectedItems).value.items, affected) ==>
        && form == ItemsOperationResult(old(form), old(selectedItems), old(affectedItems))
        && selectedItems.None? && affectedItems.None? && !isOngoingItemsOperation
        && confirmDialogOpen == old(confirmDialogOpen)
      ensures smdaFields == old(smdaFields) && projectData == old(projectData)
      ensures availableData == old(availableData) && orphanData == old(orphanData) && submitted == old(submitted)
      ensures coordinateSystemError == old(coordinateSystemError) && stratigraphicColumnError == old(stratigraphicColumnError)
    {
      affected := EmptyItemLists(true);
      if !isOngoingItemsOperation && selectedItems.Some? && |grouped| > 0 && isSuccess {
        var count := ItemsCount(selectedItems.value.items);
        if count > 0 {
          affected := StartItemsOperation(selectedItems.value, grouped);
        }
      }
    }

    /** `handleConfirmItemsOperationDecision`: applies the operation only
        when confirmed; closes the dialog and clears the operation either way. */
    method HandleConfirmItemsOperationDecision(confirm: bool)
      modifies this
      ensures form == if confirm then ItemsOperationResult(old(form), old(selectedItems), old(affectedItems)) else old(form)
      ensures !confirmDialogOpen && selectedItems.None? && affectedItems.None? && !isOngoingItemsOperation
      ensures smdaFields == old(smdaFields) && projectData == old(projectData)
      ensures availableData == old(availableData) && orphanData == old(orphanData) && submitted == old(submitted)
      ensures coordinateSystemError == old(coordinateSystemError) && stratigraphicColumnError == old(stratigraphicColumnError)
    {
      if confirm {
        HandleItemsOperation();
      }
      confirmDialogOpen := false;
      FinishItemsOperation();
    }

    /** The effect that prepares the edit data once the dialog is open and
        the SMDA data has loaded (the form's change listener calls the same
        preparation on every change). */
    method DataLoaded(isOpen: bool, isSuccess: bool, grouped: Grouped, leq: (string, string) -> bool)
      modifies this
      ensures isOpen && isSuccess && |grouped| > 0 ==>
        PreparedFor(EditData(projectData, availableData, orphanData, coordinateSystemError, stratigraphicColumnError),
                    grouped, form, leq)
      ensures !(isOpen && isSuccess && |grouped| > 0) ==>
        && projectData == old(projectData) && availableData == old(availableData) && orphanData == old(orphanData)
        && coordinateSystemError == old(coordinateSystemError)
        && stratigraphicColumnError == old(stratigraphicColumnError)
      ensures form == old(form) && smdaFields == old(smdaFields)
      ensures selectedItems == old(selectedItems) && affectedItems == old(affectedItems)
      ensures isOngoingItemsOperation == old(isOngoingItemsOperation) && confirmDialogOpen == old(confirmDialogOpen)
      ensures submitted == old(submitted)
    {
      if isOpen && isSuccess && |grouped| > 0 {
        PrepareEditData(grouped, leq);
      }
    }

    /** A chip click: the selection becomes that one item (`prepareSelectedItems`). */
    method SelectItem(operation: ListOperation, itemType: ItemType, item: IdentifierUuid)
      modifies this
      ensures selectedItems == Some(PrepareSelectedItems(operation, itemType, item))
      ensures TotalItems(selectedItems.value.items) == 1
      ensures form == old(form) && smdaFields == old(smdaFields) && affectedItems == old(affectedItems)
      ensures projectData == old(projectData) && availableData == old(availableData) && orphanData == old(orphanData)
      ensures isOngoingItemsOperation == old(isOngoingItemsOperation) && confirmDialogOpen == old(confirmDialogOpen)
      ensures submitted == old(submitted)
      ensures coordinateSystemError == old(coordinateSystemError) && stratigraphicColumnError == old(stratigraphicColumnError)
    {
      selectedItems := Some(PrepareSelectedItems(operation, itemType, item));
    }

    /** The coordinate system picker: the system with the chosen uuid among
        the first field's systems, else the placeholder; a change clears the
        field's error. */
    method PickCoordinateSystem(value: string)
      modifies this
      ensures form == old(form).(coordinateSystem := PickOption(projectData.options.coordinateSystems, value))
      ensures coordinateSystemError.None? && stratigraphicColumnError == old(stratigraphicColumnError)
      ensures smdaFields == old(smdaFields) && selectedItems == old(selectedItems) && affectedItems == old(affectedItems)
      ensures projectData == old(projectData) && availableData == old(availableData) && orphanData == old(orphanData)
      ensures isOngoingItemsOperation == old(isOngoingItemsOperation) && confirmDialogOpen == old(confirmDialogOpen)
      ensures submitted == old(submitted)
    {
      form := form.(coordinateSystem := PickOption(projectData.options.coordinateSystems, value));
      coordinateSystemError := None;
    }

    /** The stratigraphic column picker: the column with the chosen uuid
        among the unlabelled columns, else the placeholder; a change clears
        the field's error. */
    method PickStratigraphicColumn(value: string)
      modifies this
      ensures form == old(form).(stratigraphicColumn := PickOption(projectData.options.stratigraphicColumns, value))
      ensures stratigraphicColumnError.None? && coordinateSystemError == old(coordinateSystemError)
      ensures smdaFields == old(smdaFields) && selectedItems == old(selectedItems) && affectedItems == old(affectedItems)
      ensures projectData == old(projectData) && availableData == old(availableData) && orphanData == old(orphanData)
      ensures isOngoingItemsOperation == old(isOngoingItemsOperation) && confirmDialogOpen == old(confirmDialogOpen)
      ensures submitted == old(submitted)
    {
      form := form.(stratigraphicColumn := PickOption(projectData.options.stratigraphicColumns, value));
      stratigraphicColumnError := None;
    }

    /** Submitting: the discovery field's submit listener removes the orphan
        discoveries, then the form value goes to the save mutation unless
        the project is read-only. */
    method Submit()
      modifies this
      ensures form.discovery == ApplyOperation(old(form.discovery), Removal, GroupItems(orphanData.discovery, DummyGroupName))
      ensures form == old(form).(discovery := form.discovery)
      ensures submitted == if projectReadOnly then old(submitted) else Some(form)
      ensures smdaFields == old(smdaFields) && projectData == old(projectData)
      ensures availableData == old(availableData) && orphanData == old(orphanData)
      ensures selectedItems == old(selectedItems) && affectedItems == old(affectedItems)
      ensures isOngoingItemsOperation == old(isOngoingItemsOperation) && confirmDialogOpen == old(confirmDialogOpen)
      ensures coordinateSystemError == old(coordinateSystemError) && stratigraphicColumnError == old(stratigraphicColumnError)
    {
      var orphans := GroupItems(orphanData.discovery, DummyGroupName);
      if |orphans| > 0 {
        form := form.(discovery := ApplyOperation(form.discovery, Removal, orphans));
      }
      if !projectReadOnly {
        submitted := Some(form);
      }
    }

    /** `handleClose` with `resetEditData`: the form back to its initial
        value, its field errors cleared by the reset, and the derived data
        back to empty. */
    method Close(projectMasterdata: Smda)
      modifies this
      ensures form == projectMasterdata
      ensures projectData == EmptyFormMasterdataProject() && availableData == EmptyFormMasterdataBase()
      ensures orphanData == EmptyFormMasterdataSub(true)
      ensures coordinateSystemError.None? && stratigraphicColumnError.None?
      ensures smdaFields == old(smdaFields) && selectedItems == old(selectedItems) && affectedItems == old(affectedItems)
      ensures isOngoingItemsOperation == old(isOngoingItemsOperation) && confirmDialogOpen == old(confirmDialogOpen)
      ensures submitted == old(submitted)
    {
      form := projectMasterdata;
      coordinateSystemError := None;
      stratigraphicColumnError := None;
      projectData := EmptyFormMasterdataProject();
      availableData := EmptyFormMasterdataBase();
      orphanData := EmptyFormMasterdataSub(true);
    }
  }

  /** On submit, with unique discovery uuids in the form, exactly the
      discoveries whose uuid is not an orphan's remain. */
  lemma SubmitDropsOrphans(discovery: seq<IdentifierUuid>, orphans: seq<IdentifierUuid>, x: IdentifierUuid)
    requires UniqueUuids(discovery)
    ensures x in ApplyOperation(discovery, Removal, orphans) <==> x in discovery && !UuidIn(orphans, x.uuid)
  {
    var r := ApplyOperation(discovery, Removal, orphans);
    assert Applied(discovery, r, Removal, orphans);
    if orphans == [] {
      assert !UuidIn(orphans, x.uuid);
    }
  }
}

=== FILE: masterdata_functions.dfy ===
/** How the masterdata editor sorts SMDA items into project, available and
    orphan lists, finds the items an addition or removal drags along with
    it, and builds the select options for coordinate systems and
    stratigraphic columns. */
module MasterdataFunctions {
  import opened Common
  import opened Model
  import opened Sorting
  import opened FormUtils
  import opened MasterdataUtils

  // createItemLists

  /** All items of one kind over the entries, in entry order. */
  function AllOf(entries: seq<GroupedEntry>, itemType: ItemType): seq<IdentifierUuid> {
    if entries == [] then []
    else AllOf(entries[..|entries| - 1], itemType) + ListOf(entries[|entries| - 1].data, itemType)
  }

  /** An item is among `AllOf` exactly when some entry lists it. */
  lemma {:induction false} AllOfIn(entries: seq<GroupedEntry>, itemType: ItemType, x: IdentifierUuid)
    ensures x in AllOf(entries, itemType) <==> exists j :: 0 <= j < |entries| && x in ListOf(entries[j].data, itemType)
  {
    if entries != [] {
      var init := entries[..|entries| - 1];
      AllOfIn(init, itemType, x);
      if x in AllOf(entries, itemType) && x !in AllOf(init, itemType) {
        assert x in ListOf(entries[|entries| - 1].data, itemType);
      }
      if exists j :: 0 <= j < |entries| && x in ListOf(entries[j].data, itemType) {
        var j :| 0 <= j < |entries| && x in ListOf(entries[j].data, itemType);
        if j < |entries| - 1 {
          assert init[j] == entries[j];
        }
      }
    }
  }

  function Identifiers(items: seq<IdentifierUuid>): (ids: seq<string>)
    ensures |ids| == |items|
    ensures forall i :: 0 <= i < |items| ==> ids[i] == items[i].identifier
  {
    seq(|items|, (i: int) requires 0 <= i < |items| => items[i].identifier)
  }

  function Uuids(items: seq<IdentifierUuid>): (uuids: seq<string>)
    ensures |uuids| == |items|
    ensures forall i :: 0 <= i < |items| ==> uuids[i] == items[i].uuid
  {
    seq(|items|, (i: int) requires 0 <= i < |items| => items[i].uuid)
  }

  function InList(reference: seq<IdentifierUuid>): IdentifierUuid -> bool {
    (x: IdentifierUuid) => UuidIn(reference, x.uuid)
  }

  function NotInList(reference: seq<IdentifierUuid>): IdentifierUuid -> bool {
    (x: IdentifierUuid) => !UuidIn(reference, x.uuid)
  }

  /** The items seen so far are split by uuid between `project` (uuid
      among the reference items) and `available` (uuid not among them),
      each list holding seen items only, each uuid at most once. */
  ghost predicate Partitioned(seen: seq<IdentifierUuid>, reference: seq<IdentifierUuid>,
                              project: seq<IdentifierUuid>, available: seq<IdentifierUuid>)
  {
    && UniqueUuids(project) && UniqueUuids(available)
    && (forall x :: x in project ==> x in seen && UuidIn(reference, x.uuid))
    && (forall x :: x in available ==> x in seen && !UuidIn(reference, x.uuid))
    && (forall x :: x in seen && UuidIn(reference, x.uuid) ==> UuidIn(project, x.uuid))
    && (forall x :: x in seen && !UuidIn(reference, x.uuid) ==> UuidIn(available, x.uuid))
  }

  /** Under `Partitioned`, the uuid of every seen item is in exactly one of
      the two lists, and it is in the project list exactly when the
      reference holds it. */
  lemma PartitionedExactlyOne(seen: seq<IdentifierUuid>, reference: seq<IdentifierUuid>,
                              project: seq<IdentifierUuid>, available: seq<IdentifierUuid>, x: IdentifierUuid)
    requires Partitioned(seen, reference, project, available)
    requires x in seen
    ensures UuidIn(project, x.uuid) <==> !UuidIn(available, x.uuid)
    ensures UuidIn(project, x.uuid) <==> UuidIn(reference, x.uuid)
  {
    if UuidIn(available, x.uuid) {
      var k :| 0 <= k < |available| && available[k].uuid == x.uuid;
      assert available[k] in available;
    }
    if UuidIn(project, x.uuid) {
      var k :| 0 <= k < |project| && project[k].uuid == x.uuid;
      assert project[k] in project;
    }
  }

  /** One `forEach` over the fields (or countries) of an SMDA result: an item
      whose uuid the project holds is pushed to the project list, any other
      to the available list, each only when its uuid is not there yet. */
  method PartitionByUuid(items: seq<IdentifierUuid>, reference: seq<IdentifierUuid>, ghost seen: seq<IdentifierUuid>,
                         project0: seq<IdentifierUuid>, available0: seq<IdentifierUuid>)
    returns (project: seq<IdentifierUuid>, available: seq<IdentifierUuid>)
    requires Partitioned(seen, reference, project0, available0)
    ensures Partitioned(seen + items, reference, project, available)
    ensures project0 <= project && available0 <= available
  {
    project, available := project0, available0;
    for i := 0 to |items|
      invariant Partitioned(seen + items[..i], reference, project, available)
      invariant project0 <= project && available0 <= available
    {
      var x := items[i];
      assert seen + items[..i + 1] == (seen + items[..i]) + [x];
      if UuidIn(reference, x.uuid) {
        if !UuidIn(project, x.uuid) {
          PushUnique(project, x);
          UuidInAppend(project, [x]);
          project := project + [x];
        }
      } else if !UuidIn(available, x.uuid) {
        PushUnique(available, x);
        UuidInAppend(available, [x]);
        available := available + [x];
      }
    }
    assert items[..|items|] == items;
  }

  /** The discoveries of one SMDA result whose group is a project field:
      those the project holds go to the project group (and their uuids to
      `seen`), the others to the available group. */
  method PlaceGroupDiscoveries(discoveries: seq<IdentifierUuid>, projectDiscoveries: seq<IdentifierUuid>,
                               projectGroup0: seq<IdentifierUuid>, availableGroup0: seq<IdentifierUuid>, seen0: seq<string>)
    returns (projectGroup: seq<IdentifierUuid>, availableGroup: seq<IdentifierUuid>, seen: seq<string>)
    ensures projectGroup == projectGroup0 + Filter(discoveries, InList(projectDiscoveries))
    ensures availableGroup == availableGroup0 + Filter(discoveries, NotInList(projectDiscoveries))
    ensures seen == seen0 + Uuids(Filter(discoveries, InList(projectDiscoveries)))
  {
    projectGroup, availableGroup, seen := projectGroup0, availableGroup0, seen0;
    var inProject, notInProject := InList(projectDiscoveries), NotInList(projectDiscoveries);
    for i := 0 to |discoveries|
      invariant projectGroup == projectGroup0 + Filter(discoveries[..i], inProject)
      invariant availableGroup == availableGroup0 + Filter(discoveries[..i], notInProject)
      invariant seen == seen0 + Uuids(Filter(discoveries[..i], inProject))
    {
      PlaceStep(discoveries, projectDiscoveries, i);
      var d := discoveries[i];
      if UuidIn(projectDiscoveries, d.uuid) {
        UuidsSnoc(Filter(discoveries[..i], inProject), d);
        projectGroup := projectGroup + [d];
        seen := seen + [d.uuid];
      } else {
        availableGroup := availableGroup + [d];
      }
    }
    assert discoveries[..|discoveries|] == discoveries;
  }

  lemma PlaceStep(discoveries: seq<IdentifierUuid>, projectDiscoveries: seq<IdentifierUuid>, i: int)
    requires 0 <= i < |discoveries|
    ensures UuidIn(projectDiscoveries, discoveries[i].uuid) ==>
      && Filter(discoveries[..i + 1], InList(projectDiscoveries)) == Filter(discoveries[..i], InList(projectDiscoveries)) + [discoveries[i]]
      && Filter(discoveries[..i + 1], NotInList(projectDiscoveries)) == Filter(discoveries[..i], NotInList(projectDiscoveries))
    ensures !UuidIn(projectDiscoveries, discoveries[i].uuid) ==>
      && Filter(discoveries[..i + 1], InList(projectDiscoveries)) == Filter(discoveries[..i], InList(projectDiscoveries))
      && Filter(discoveries[..i + 1], NotInList(projectDiscoveries)) == Filter(discoveries[..i], NotInList(projectDiscoveries)) + [discoveries[i]]
  {
    FilterSnoc(discoveries, i, InList(projectDiscoveries));
    FilterSnoc(discoveries, i, NotInList(projectDiscoveries));
  }

  lemma UuidsSnoc(items: seq<IdentifierUuid>, x: IdentifierUuid)
    ensures Uuids(items + [x]) == Uuids(items) + [x.uuid]
  {
  }

  /** A uuid is among those placed from `discoveries` exactly when both the
      result and the project hold it. */
  lemma UuidsOfPlaced(discoveries: seq<IdentifierUuid>, projectDiscoveries: seq<IdentifierUuid>, u: string)
    ensures u in Uuids(Filter(discoveries, InList(projectDiscoveries))) <==>
      UuidIn(discoveries, u) && UuidIn(projectDiscoveries, u)
  {
    var placed := Filter(discoveries, InList(projectDiscoveries));
    if u in Uuids(placed) {
      var k :| 0 <= k < |placed| && Uuids(placed)[k] == u;
      FilterIn(discoveries, InList(projectDiscoveries), placed[k]);
      UuidInMember(discoveries, placed[k]);
    }
    if UuidIn(discoveries, u) && UuidIn(projectDiscoveries, u) {
      var k :| 0 <= k < |discoveries| && discoveries[k].uuid == u;
      FilterIn(discoveries, InList(projectDiscoveries), discoveries[k]);
      var m :| 0 <= m < |placed| && placed[m] == discoveries[k];
      assert Uuids(placed)[m] == u;
    }
  }

  /** Some result among the first `n`, whose group is one of `names`, lists
      a discovery with uuid `u` that the project holds. */
  ghost predicate PlacedBefore(grouped: seq<GroupedEntry>, n: int, names: seq<string>,
                               projectDiscoveries: seq<IdentifierUuid>, u: string)
  {
    exists j :: 0 <= j < n && j < |grouped| && grouped[j].key in names && UuidIn(grouped[j].data.discovery, u) && UuidIn(projectDiscoveries, u)
  }

  /** No result whose group is a project field lists a discovery with this uuid. */
  function Unplaced(grouped: seq<GroupedEntry>, projectFields: seq<IdentifierUuid>): IdentifierUuid -> bool {
    (d: IdentifierUuid) =>
      !exists j :: 0 <= j < |grouped| && grouped[j].key in Identifiers(projectFields) && UuidIn(grouped[j].data.discovery, d.uuid)
  }

  lemma {:induction false} FilterCongruent<T>(s: seq<T>, p: T -> bool, q: T -> bool)
    requires forall x :: x in s ==> p(x) == q(x)
    ensures Filter(s, p) == Filter(s, q)
  {
    if s != [] {
      FilterCongruent(s[..|s| - 1], p, q);
    }
  }

  /** `discovery[key] = []` for every project field identifier. */
  method ProjectGroups(projectFields: seq<IdentifierUuid>) returns (groups: seq<Group>)
    ensures forall n :: n in GroupNames(groups) <==> n in Identifiers(projectFields)
    ensures DistinctNames(groups)
    ensures forall n :: GroupItems(groups, n) == []
  {
    groups := EmptyItemLists(false).discovery;
    for k := 0 to |projectFields|
      invariant forall n :: n in GroupNames(groups) <==> n in Identifiers(projectFields[..k])
      invariant DistinctNames(groups)
      invariant forall n :: GroupItems(groups, n) == []
    {
      assert Identifiers(projectFields[..k + 1]) == Identifiers(projectFields[..k]) + [projectFields[k].identifier];
      groups := SetGroup(groups, projectFields[k].identifier, []);
    }
    assert projectFields[..|projectFields|] == projectFields;
  }

  /** `discovery[key] = []` for every key of the SMDA results. */
  method AvailableGroups(grouped: Grouped) returns (groups: seq<Group>)
    ensures GroupNames(groups) == Keys(grouped)
    ensures DistinctNames(groups)
    ensures forall n :: GroupItems(groups, n) == []
  {
    groups := EmptyItemLists(false).discovery;
    for k := 0 to |grouped|
      invariant GroupNames(groups) == Keys(grouped)[..k]
      invariant DistinctNames(groups)
      invariant forall n :: GroupItems(groups, n) == []
    {
      assert Keys(grouped)[..k + 1] == Keys(grouped)[..k] + [grouped[k].key];
      assert grouped[k].key !in Keys(grouped)[..k];
      groups := SetGroup(groups, grouped[k].key, []);
    }
    assert Keys(grouped)[..|grouped|] == Keys(grouped);
  }

  /** The discovery groups after the first `i` SMDA results: a result whose
      key is a project group is split between that group and its available
      group, any other goes wholly to its available group, groups of keys
      not reached yet are empty. */
  ghost predicate GroupsSorted(grouped: Grouped, i: int, names: seq<string>, projectDiscoveries: seq<IdentifierUuid>,
                               projectGroups: seq<Group>, availableGroups: seq<Group>)
  {
    && 0 <= i <= |grouped|
    && GroupNames(projectGroups) == names
    && GroupNames(availableGroups) == Keys(grouped)
    && DistinctNames(projectGroups) && DistinctNames(availableGroups)
    && (forall j :: 0 <= j < i && grouped[j].key in names ==>
         && GroupItems(projectGroups, grouped[j].key) == Filter(grouped[j].data.discovery, InList(projectDiscoveries))
         && GroupItems(availableGroups, grouped[j].key) == Filter(grouped[j].data.discovery, NotInList(projectDiscoveries)))
    && (forall j :: 0 <= j < i && grouped[j].key !in names ==>
         GroupItems(availableGroups, grouped[j].key) == grouped[j].data.discovery)
    && (forall n :: n !in Keys(grouped)[..i] ==>
         GroupItems(projectGroups, n) == [] && GroupItems(availableGroups, n) == [])
  }

  /** `seen` holds the uuids placed in project groups by the first `i` results. */
  ghost predicate SeenPlaced(grouped: Grouped, i: int, names: seq<string>, projectDiscoveries: seq<IdentifierUuid>, seen: seq<string>) {
    forall u :: u in seen <==> PlacedBefore(grouped, i, names, projectDiscoveries, u)
  }

  /** The discovery part of one SMDA result (`fieldGroup in project.discovery`). */
  method SortEntryDiscoveries(grouped: Grouped, i: int, ghost names: seq<string>, projectDiscoveries: seq<IdentifierUuid>,
                              projectGroups0: seq<Group>, availableGroups0: seq<Group>, seen0: seq<string>)
    returns (projectGroups: seq<Group>, availableGroups: seq<Group>, seen: seq<string>)
    requires 0 <= i < |grouped|
    requires GroupsSorted(grouped, i, names, projectDiscoveries, projectGroups0, availableGroups0)
    requires SeenPlaced(grouped, i, names, projectDiscoveries, seen0)
    ensures GroupsSorted(grouped, i + 1, names, projectDiscoveries, projectGroups, availableGroups)
    ensures SeenPlaced(grouped, i + 1, names, projectDiscoveries, seen)
  {
    var entry := grouped[i];
    projectGroups, availableGroups, seen := projectGroups0, availableGroups0, seen0;
    if IndexOf(GroupNames(projectGroups), entry.key) >= 0 {
      var pg, ag, s := PlaceGroupDiscoveries(entry.data.discovery, projectDiscoveries,
        GroupItems(projectGroups, entry.key), GroupItems(availableGroups, entry.key), seen);
      projectGroups := SetGroup(projectGroups, entry.key, pg);
      availableGroups := SetGroup(availableGroups, entry.key, ag);
      seen := s;
    } else {
      availableGroups := SetGroup(availableGroups, entry.key, GroupItems(availableGroups, entry.key) + entry.data.discovery);
    }
    GroupsStep(grouped, i, names, projectDiscoveries, projectGroups0, availableGroups0, projectGroups, availableGroups);
    SeenStep(grouped, i, names, projectDiscoveries, seen0, seen);
  }

  lemma GroupsStep(grouped: Grouped, i: int, names: seq<string>, projectDiscoveries: seq<IdentifierUuid>,
                   projectGroups0: seq<Group>, availableGroups0: seq<Group>, projectGroups: seq<Group>, availableGroups: seq<Group>)
    requires 0 <= i < |grouped|
    requires GroupsSorted(grouped, i, names, projectDiscoveries, projectGroups0, availableGroups0)
    requires var key := grouped[i].key;
      && (key in names ==>
           && projectGroups == SetGroup(projectGroups0, key, GroupItems(projectGroups0, key) + Filter(grouped[i].data.discovery, InList(projectDiscoveries)))
           && availableGroups == SetGroup(availableGroups0, key, GroupItems(availableGroups0, key) + Filter(grouped[i].data.discovery, NotInList(projectDiscoveries))))
      && (key !in names ==>
           && projectGroups == projectGroups0
           && availableGroups == SetGroup(availableGroups0, key, GroupItems(availableGroups0, key) + grouped[i].data.discovery))
    ensures GroupsSorted(grouped, i + 1, names, projectDiscoveries, projectGroups, availableGroups)
  {
    var key := grouped[i].key;
    NewKeyAt(grouped, i);
    if key in names {
      GroupsStepProject(grouped, i, names, projectDiscoveries, projectGroups0, availableGroups0, projectGroups, availableGroups);
    } else {
      GroupsStepOther(grouped, i, names, projectDiscoveries, projectGroups0, availableGroups0, availableGroups);
    }
  }

  /** The key of result `i` is a key of the record and not among the keys
      of the results before it. */
  lemma NewKeyAt(grouped: Grouped, i: int)
    requires 0 <= i < |grouped|
    ensures Keys(grouped)[..i + 1] == Keys(grouped)[..i] + [grouped[i].key]
    ensures grouped[i].key !in Keys(grouped)[..i] && grouped[i].key in Keys(grouped)
    ensures forall j :: 0 <= j < i ==> grouped[j].key != grouped[i].key
  {
    assert Keys(grouped)[i] == grouped[i].key;
  }

  lemma GroupsStepProject(grouped: Grouped, i: int, names: seq<string>, projectDiscoveries: seq<IdentifierUuid>,
                          projectGroups0: seq<Group>, availableGroups0: seq<Group>, projectGroups: seq<Group>, availableGroups: seq<Group>)
    requires 0 <= i < |grouped| && grouped[i].key in names
    requires grouped[i].key !in Keys(grouped)[..i] && grouped[i].key in Keys(grouped)
    requires Keys(grouped)[..i + 1] == Keys(grouped)[..i] + [grouped[i].key]
    requires forall j :: 0 <= j < i ==> grouped[j].key != grouped[i].key
    requires GroupsSorted(grouped, i, names, projectDiscoveries, projectGroups0, availableGroups0)
    requires var key := grouped[i].key;
      && projectGroups == SetGroup(projectGroups0, key, GroupItems(projectGroups0, key) + Filter(grouped[i].data.discovery, InList(projectDiscoveries)))
      && availableGroups == SetGroup(availableGroups0, key, GroupItems(availableGroups0, key) + Filter(grouped[i].data.discovery, NotInList(projectDiscoveries)))
    ensures GroupsSorted(grouped, i + 1, names, projectDiscoveries, projectGroups, availableGroups)
  {
    var key := grouped[i].key;
    assert GroupItems(projectGroups0, key) == [] && GroupItems(availableGroups0, key) == [];
    forall j | 0 <= j < i + 1 && grouped[j].key in names
      ensures GroupItems(projectGroups, grouped[j].key) == Filter(grouped[j].data.discovery, InList(projectDiscoveries))
      ensures GroupItems(availableGroups, grouped[j].key) == Filter(grouped[j].data.discovery, NotInList(projectDiscoveries))
    {
      if j < i {
        assert grouped[j].key != key;
      }
    }
    forall j | 0 <= j < i + 1 && grouped[j].key !in names
      ensures GroupItems(availableGroups, grouped[j].key) == grouped[j].data.discovery
    {
      assert grouped[j].key != key;
    }
    forall n | n !in Keys(grouped)[..i + 1]
      ensures GroupItems(projectGroups, n) == [] && GroupItems(availableGroups, n) == []
    {
      assert n != key && n !in Keys(grouped)[..i];
    }
  }

  lemma GroupsStepOther(grouped: Grouped, i: int, names: seq<string>, projectDiscoveries: seq<IdentifierUuid>,
                        projectGroups: seq<Group>, availableGroups0: seq<Group>, availableGroups: seq<Group>)
    requires 0 <= i < |grouped| && grouped[i].key !in names
    requires grouped[i].key !in Keys(grouped)[..i] && grouped[i].key in Keys(grouped)
    requires Keys(grouped)[..i + 1] == Keys(grouped)[..i] + [grouped[i].key]
    requires forall j :: 0 <= j < i ==> grouped[j].key != grouped[i].key
    requires GroupsSorted(grouped, i, names, projectDiscoveries, projectGroups, availableGroups0)
    requires var key := grouped[i].key;
      availableGroups == SetGroup(availableGroups0, key, GroupItems(availableGroups0, key) + grouped[i].data.discovery)
    ensures GroupsSorted(grouped, i + 1, names, projectDiscoveries, projectGroups, availableGroups)
  {
    var key := grouped[i].key;
    assert GroupItems(availableGroups0, key) == [];
    assert GroupItems(availableGroups, key) == grouped[i].data.discovery;
    forall n | n !in Keys(grouped)[..i + 1]
      ensures GroupItems(projectGroups, n) == [] && GroupItems(availableGroups, n) == []
    {
      assert n != key && n !in Keys(grouped)[..i];
    }
  }

  lemma SeenStep(grouped: Grouped, i: int, names: seq<string>, projectDiscoveries: seq<IdentifierUuid>, seen0: seq<string>, seen: seq<string>)
    requires 0 <= i < |grouped|
    requires forall u :: u in seen0 <==> PlacedBefore(grouped, i, names, projectDiscoveries, u)
    requires grouped[i].key in names ==> seen == seen0 + Uuids(Filter(grouped[i].data.discovery, InList(projectDiscoveries)))
    requires grouped[i].key !in names ==> seen == seen0
    ensures forall u :: u in seen <==> PlacedBefore(grouped, i + 1, names, projectDiscoveries, u)
  {
    var entry := grouped[i];
    forall u
      ensures u in seen <==> PlacedBefore(grouped, i + 1, names, projectDiscoveries, u)
    {
      UuidsOfPlaced(entry.data.discovery, projectDiscoveries, u);
      if PlacedBefore(grouped, i + 1, names, projectDiscoveries, u) && !PlacedBefore(grouped, i, names, projectDiscoveries, u) {
        assert entry.key in names && UuidIn(entry.data.discovery, u) && UuidIn(projectDiscoveries, u);
      }
      if u in seen && u !in seen0 {
        assert PlacedBefore(grouped, i + 1, names, projectDiscoveries, u) by {
          assert entry == grouped[i];
        }
      }
    }
  }

  /** `createItemLists`: splits the SMDA fields, countries and discoveries
      into the lists of the project, of what is available to add, and of
      orphans (project discoveries that no SMDA result places). */
  method CreateItemLists(grouped: Grouped, projectFields: seq<IdentifierUuid>,
                         projectCountries: seq<IdentifierUuid>, projectDiscoveries: seq<IdentifierUuid>)
    returns (project: ItemLists, available: ItemLists, orphan: ItemLists)
    ensures Partitioned(AllOf(grouped, FieldItem), projectFields, project.field, available.field)
    ensures Partitioned(AllOf(grouped, CountryItem), projectCountries, project.country, available.country)
    ensures forall n :: n in GroupNames(project.discovery) <==> n in Identifiers(projectFields)
    ensures GroupNames(available.discovery) == Keys(grouped)
    ensures DistinctNames(project.discovery) && DistinctNames(available.discovery)
    ensures forall j :: 0 <= j < |grouped| && grouped[j].key in Identifiers(projectFields) ==>
      && GroupItems(project.discovery, grouped[j].key) == Filter(grouped[j].data.discovery, InList(projectDiscoveries))
      && GroupItems(available.discovery, grouped[j].key) == Filter(grouped[j].data.discovery, NotInList(projectDiscoveries))
    ensures forall j :: 0 <= j < |grouped| && grouped[j].key !in Identifiers(projectFields) ==>
      GroupItems(available.discovery, grouped[j].key) == grouped[j].data.discovery
    ensures forall n :: n !in Keys(grouped) ==> GroupItems(project.discovery, n) == []
    ensures orphan.field == [] && orphan.country == []
    ensures orphan.discovery == [Group(DummyGroupName, Filter(projectDiscoveries, Unplaced(grouped, projectFields)))]
  {
    var projectGroups := ProjectGroups(projectFields);
    project := EmptyItemLists(false).(discovery := projectGroups);
    ghost var names := GroupNames(project.discovery);
    var availableGroups := AvailableGroups(grouped);
    available := EmptyItemLists(false).(discovery := availableGroups);
    orphan := EmptyItemLists(true);
    var seen: seq<string> := [];

    for i := 0 to |grouped|
      invariant Partitioned(AllOf(grouped[..i], FieldItem), projectFields, project.field, available.field)
      invariant Partitioned(AllOf(grouped[..i], CountryItem), projectCountries, project.country, available.country)
      invariant GroupsSorted(grouped, i, names, projectDiscoveries, project.discovery, available.discovery)
      invariant SeenPlaced(grouped, i, names, projectDiscoveries, seen)
    {
      var entry := grouped[i];
      assert grouped[..i + 1][..i] == grouped[..i];
      var pf, af := PartitionByUuid(entry.data.field, projectFields, AllOf(grouped[..i], FieldItem), project.field, available.field);
      var pc, ac := PartitionByUuid(entry.data.country, projectCountries, AllOf(grouped[..i], CountryItem), project.country, available.country);
      var pg, ag, s := SortEntryDiscoveries(grouped, i, names, projectDiscoveries, project.discovery, available.discovery, seen);
      project := ItemLists(pf, pc, pg);
      available := ItemLists(af, ac, ag);
      seen := s;
    }
    assert grouped[..|grouped|] == grouped;
    assert Keys(grouped)[..|grouped|] == Keys(grouped);

    // The project discoveries that no project group received
    var orphans := Filter(projectDiscoveries, (d: IdentifierUuid) => d.uuid !in seen);
    orphan := orphan.(discovery := SetGroup(orphan.discovery, DummyGroupName, GroupItems(orphan.discovery, DummyGroupName) + orphans));
    OrphansUnplaced(grouped, projectFields, projectDiscoveries, names, seen);
    DummyGroupPush(orphans);
  }

  lemma DummyGroupPush(items: seq<IdentifierUuid>)
    ensures var groups := EmptyItemLists(true).discovery;
      SetGroup(groups, DummyGroupName, GroupItems(groups, DummyGroupName) + items) == [Group(DummyGroupName, items)]
  {
    var groups := EmptyItemLists(true).discovery;
    assert groups == [Group(DummyGroupName, [])];
    assert GroupNames(groups) == [DummyGroupName];
    assert IndexOf(GroupNames(groups), DummyGroupName) == 0;
    assert GroupItems(groups, DummyGroupName) == [];
    assert GroupItems(groups, DummyGroupName) + items == items;
    assert SetGroup(groups, DummyGroupName, items) == groups[0 := Group(DummyGroupName, items)];
  }

  lemma OrphansUnplaced(grouped: Grouped, projectFields: seq<IdentifierUuid>, projectDiscoveries: seq<IdentifierUuid>,
                        names: seq<string>, seen: seq<string>)
    requires forall n :: n in names <==> n in Identifiers(projectFields)
    requires SeenPlaced(grouped, |grouped|, names, projectDiscoveries, seen)
    ensures Filter(projectDiscoveries, (d: IdentifierUuid) => d.uuid !in seen) == Filter(projectDiscoveries, Unplaced(grouped, projectFields))
  {
    forall d | d in projectDiscoveries
      ensures (d.uuid !in seen) == Unplaced(grouped, projectFields)(d)
    {
      UuidInMember(projectDiscoveries, d);
    }
    FilterCongruent(projectDiscoveries, (d: IdentifierUuid) => d.uuid !in seen, Unplaced(grouped, projectFields));
  }

  // checkForAffectedItems and handleAffectedItems

  /** Result `j` lists an item with the uuid of `c` among its `from` items
      and lists `x` among its `to` items: selecting `c` affects `x`. */
  ghost predicate Links(grouped: seq<GroupedEntry>, from: ItemType, to: ItemType, c: IdentifierUuid, j: int, x: IdentifierUuid) {
    0 <= j < |grouped| && UuidIn(ListOf(grouped[j].data, from), c.uuid) && x in ListOf(grouped[j].data, to)
  }

  /** Every item of `affected` is linked to a checked item and is in the
      project (`inProject`) or not in it (otherwise). */
  ghost predicate OnlyLinked(affected: seq<IdentifierUuid>, checkList: seq<IdentifierUuid>, grouped: seq<GroupedEntry>,
                             from: ItemType, to: ItemType, reference: seq<IdentifierUuid>, inProject: bool)
  {
    forall x :: x in affected ==>
      UuidIn(reference, x.uuid) == inProject && exists c, j :: c in checkList && Links(grouped, from, to, c, j, x)
  }

  /** Every item linked to a checked item, with the wanted project
      membership, has its uuid in `affected`. */
  ghost predicate Covers(affected: seq<IdentifierUuid>, checkList: seq<IdentifierUuid>, grouped: seq<GroupedEntry>,
                         from: ItemType, to: ItemType, reference: seq<IdentifierUuid>, inProject: bool)
  {
    forall c, j, x :: c in checkList && Links(grouped, from, to, c, j, x) && UuidIn(reference, x.uuid) == inProject ==>
      UuidIn(affected, x.uuid)
  }

  /** The filter of `checkForAffectedItems`: the project membership wanted,
      and not yet among the affected items. */
  function Wanted(reference: seq<IdentifierUuid>, inProject: bool, affected: seq<IdentifierUuid>): IdentifierUuid -> bool {
    (x: IdentifierUuid) => UuidIn(reference, x.uuid) == inProject && !UuidIn(affected, x.uuid)
  }

  /** One `forEach` of `checkForAffectedItems`: for each checked item and
      each SMDA result listing it, the `to` items of that result with the
      wanted project membership that are not yet affected are pushed. */
  method CollectAffected(checkList: seq<IdentifierUuid>, grouped: seq<GroupedEntry>, from: ItemType, to: ItemType,
                         reference: seq<IdentifierUuid>, inProject: bool)
    returns (affected: seq<IdentifierUuid>)
    ensures OnlyLinked(affected, checkList, grouped, from, to, reference, inProject)
    ensures Covers(affected, checkList, grouped, from, to, reference, inProject)
  {
    affected := [];
    for i := 0 to |checkList|
      invariant OnlyLinked(affected, checkList, grouped, from, to, reference, inProject)
      invariant Covers(affected, checkList[..i], grouped, from, to, reference, inProject)
    {
      var before := affected;
      affected := CollectLinksOf(affected, checkList, i, grouped, from, to, reference, inProject);
      CoversMonotone(before, affected, checkList[..i], grouped, from, to, reference, inProject);
      CoversNext(affected, checkList, i, grouped, from, to, reference, inProject);
    }
    assert checkList[..|checkList|] == checkList;
  }

  /** The inner `forEach` for checked item `i`: every SMDA result listing it
      contributes its wanted `to` items. */
  method CollectLinksOf(affected0: seq<IdentifierUuid>, checkList: seq<IdentifierUuid>, i: int, grouped: seq<GroupedEntry>,
                        from: ItemType, to: ItemType, reference: seq<IdentifierUuid>, inProject: bool)
    returns (affected: seq<IdentifierUuid>)
    requires 0 <= i < |checkList|
    requires OnlyLinked(affected0, checkList, grouped, from, to, reference, inProject)
    ensures OnlyLinked(affected, checkList, grouped, from, to, reference, inProject)
    ensures forall u :: UuidIn(affected0, u) ==> UuidIn(affected, u)
    ensures forall k, x :: 0 <= k < |grouped| && Links(grouped, from, to, checkList[i], k, x) && UuidIn(reference, x.uuid) == inProject ==>
      UuidIn(affected, x.uuid)
  {
    affected := affected0;
    var c := checkList[i];
    for j := 0 to |grouped|
      invariant OnlyLinked(affected, checkList, grouped, from, to, reference, inProject)
      invariant forall u :: UuidIn(affected0, u) ==> UuidIn(affected, u)
      invariant forall k, x :: 0 <= k < j && Links(grouped, from, to, c, k, x) && UuidIn(reference, x.uuid) == inProject ==>
        UuidIn(affected, x.uuid)
    {
      var data := grouped[j].data;
      if UuidIn(ListOf(data, from), c.uuid) {
        var found := Filter(ListOf(data, to), Wanted(reference, inProject, affected));
        CollectStep(affected, found, checkList, i, grouped, j, from, to, reference, inProject);
        affected := affected + found;
      }
    }
  }

  /** Coverage survives adding items. */
  lemma CoversMonotone(a: seq<IdentifierUuid>, b: seq<IdentifierUuid>, checkList: seq<IdentifierUuid>, grouped: seq<GroupedEntry>,
                       from: ItemType, to: ItemType, reference: seq<IdentifierUuid>, inProject: bool)
    requires Covers(a, checkList, grouped, from, to, reference, inProject)
    requires forall u :: UuidIn(a, u) ==> UuidIn(b, u)
    ensures Covers(b, checkList, grouped, from, to, reference, inProject)
  {
  }

  /** Covering the first `i` checked items and every link of item `i`
      covers the first `i + 1`. */
  lemma CoversNext(affected: seq<IdentifierUuid>, checkList: seq<IdentifierUuid>, i: int, grouped: seq<GroupedEntry>,
                   from: ItemType, to: ItemType, reference: seq<IdentifierUuid>, inProject: bool)
    requires 0 <= i < |checkList|
    requires Covers(affected, checkList[..i], grouped, from, to, reference, inProject)
    requires forall k, x :: 0 <= k < |grouped| && Links(grouped, from, to, checkList[i], k, x) && UuidIn(reference, x.uuid) == inProject ==>
      UuidIn(affected, x.uuid)
    ensures Covers(affected, checkList[..i + 1], grouped, from, to, reference, inProject)
  {
    assert checkList[..i + 1] == checkList[..i] + [checkList[i]];
  }

  lemma CollectStep(affected: seq<IdentifierUuid>, found: seq<IdentifierUuid>, checkList: seq<IdentifierUuid>, i: int,
                    grouped: seq<GroupedEntry>, j: int, from: ItemType, to: ItemType, reference: seq<IdentifierUuid>, inProject: bool)
    requires 0 <= i < |checkList| && 0 <= j < |grouped|
    requires UuidIn(ListOf(grouped[j].data, from), checkList[i].uuid)
    requires found == Filter(ListOf(grouped[j].data, to), Wanted(reference, inProject, affected))
    requires OnlyLinked(affected, checkList, grouped, from, to, reference, inProject)
    ensures OnlyLinked(affected + found, checkList, grouped, from, to, reference, inProject)
    ensures forall u :: UuidIn(affected, u) ==> UuidIn(affected + found, u)
    ensures forall x :: Links(grouped, from, to, checkList[i], j, x) && UuidIn(reference, x.uuid) == inProject ==>
      UuidIn(affected + found, x.uuid)
  {
    UuidInAppend(affected, found);
    var c := checkList[i];
    forall x | x in found
      ensures UuidIn(reference, x.uuid) == inProject && Links(grouped, from, to, c, j, x)
    {
      FilterIn(ListOf(grouped[j].data, to), Wanted(reference, inProject, affected), x);
    }
    forall x | Links(grouped, from, to, c, j, x) && UuidIn(reference, x.uuid) == inProject
      ensures UuidIn(affected + found, x.uuid)
    {
      if !UuidIn(affected, x.uuid) {
        assert Wanted(reference, inProject, affected)(x);
        FilterIn(ListOf(grouped[j].data, to), Wanted(reference, inProject, affected), x);
        UuidInMember(found, x);
      }
    }
  }

  /** The "none" discovery group, the one selections and affected items use. */
  function NoneGroup(lists: ItemLists): seq<IdentifierUuid> {
    GroupItems(lists.discovery, DummyGroupName)
  }

  /** `checkForAffectedItems`: one step of the dependency relation. An
      addition drags in the countries of added fields and the fields of
      added discoveries that the project lacks; a removal drags along the
      discoveries of removed fields and the fields of removed countries
      that the project holds. */
  method CheckForAffectedItems(operation: ListOperation, checkItems: ItemLists, grouped: Grouped,
                               projectFields: seq<IdentifierUuid>, projectCountries: seq<IdentifierUuid>, projectDiscoveries: seq<IdentifierUuid>)
    returns (affectedItems: ItemLists)
    ensures GroupNames(affectedItems.discovery) == [DummyGroupName]
    ensures operation == Addition ==>
      && NoneGroup(affectedItems) == []
      && OnlyLinked(affectedItems.country, checkItems.field, grouped, FieldItem, CountryItem, projectCountries, false)
      && Covers(affectedItems.country, checkItems.field, grouped, FieldItem, CountryItem, projectCountries, false)
      && OnlyLinked(affectedItems.field, NoneGroup(checkItems), grouped, DiscoveryItem, FieldItem, projectFields, false)
      && Covers(affectedItems.field, NoneGroup(checkItems), grouped, DiscoveryItem, FieldItem, projectFields, false)
    ensures operation == Removal ==>
      && affectedItems.country == []
      && OnlyLinked(NoneGroup(affectedItems), checkItems.field, grouped, FieldItem, DiscoveryItem, projectDiscoveries, true)
      && Covers(NoneGroup(affectedItems), checkItems.field, grouped, FieldItem, DiscoveryItem, projectDiscoveries, true)
      && OnlyLinked(affectedItems.field, checkItems.country, grouped, CountryItem, FieldItem, projectFields, true)
      && Covers(affectedItems.field, checkItems.country, grouped, CountryItem, FieldItem, projectFields, true)
  {
    affectedItems := EmptyItemLists(true);
    if operation == Addition {
      var countries := CollectAffected(checkItems.field, grouped, FieldItem, CountryItem, projectCountries, false);
      var fields := CollectAffected(NoneGroup(checkItems), grouped, DiscoveryItem, FieldItem, projectFields, false);
      affectedItems := affectedItems.(field := fields, country := countries);
      DummyGroupPush([]);
    } else {
      var discoveries := CollectAffected(checkItems.field, grouped, FieldItem, DiscoveryItem, projectDiscoveries, true);
      var fields := CollectAffected(checkItems.country, grouped, CountryItem, FieldItem, projectFields, true);
      affectedItems := affectedItems.(
        field := fields,
        discovery := SetGroup(affectedItems.discovery, DummyGroupName, GroupItems(affectedItems.discovery, DummyGroupName) + discoveries));
    }
  }

  /** One category of the bookkeeping after a check: each affected item is
      added to the result unless its uuid is there, and queued for the next
      check unless its uuid has been checked already. */
  method MergeAffected(found: seq<IdentifierUuid>, affected0: seq<IdentifierUuid>, checked: seq<IdentifierUuid>)
    returns (affected: seq<IdentifierUuid>, queue: seq<IdentifierUuid>)
    requires UniqueUuids(affected0)
    ensures UniqueUuids(affected)
    ensures affected0 <= affected && |affected| <= |affected0| + |found|
    ensures forall x :: x in affected ==> x in affected0 || x in found
    ensures forall x :: x in found ==> UuidIn(affected, x.uuid)
    ensures forall x :: x in queue ==> x in found && !UuidIn(checked, x.uuid)
    ensures forall x :: x in found && !UuidIn(checked, x.uuid) ==> x in queue
  {
    affected, queue := affected0, [];
    for i := 0 to |found|
      invariant UniqueUuids(affected) && affected0 <= affected && |affected| <= |affected0| + i
      invariant forall x :: x in affected ==> x in affected0 || x in found[..i]
      invariant forall x :: x in found[..i] ==> UuidIn(affected, x.uuid)
      invariant forall x :: x in queue ==> x in found[..i] && !UuidIn(checked, x.uuid)
      invariant forall x :: x in found[..i] && !UuidIn(checked, x.uuid) ==> x in queue
    {
      var x := found[i];
      assert found[..i + 1] == found[..i] + [x];
      UuidInAppend(affected, [x]);
      if !UuidIn(affected, x.uuid) {
        PushUnique(affected, x);
        affected := affected + [x];
      }
      if !UuidIn(checked, x.uuid) {
        queue := queue + [x];
      }
    }
    assert found[..|found|] == found;
  }

  lemma CoversGrow(a: seq<IdentifierUuid>, b: seq<IdentifierUuid>, checkList: seq<IdentifierUuid>, grouped: seq<GroupedEntry>,
                   from: ItemType, to: ItemType, reference: seq<IdentifierUuid>, inProject: bool)
    requires Covers(a, checkList, grouped, from, to, reference, inProject)
    requires forall x :: x in a ==> UuidIn(b, x.uuid)
    ensures Covers(b, checkList, grouped, from, to, reference, inProject)
  {
    forall c, j, x | c in checkList && Links(grouped, from, to, c, j, x) && UuidIn(reference, x.uuid) == inProject
      ensures UuidIn(b, x.uuid)
    {
      var k :| 0 <= k < |a| && a[k].uuid == x.uuid;
      assert a[k] in a;
    }
  }

  /** What the affected items satisfy after the rounds so far; `started`
      once the selection itself has been checked. */
  ghost predicate AffectedSoFar(selectedItems: SelectedItems, grouped: Grouped, projectFields: seq<IdentifierUuid>,
                                projectCountries: seq<IdentifierUuid>, projectDiscoveries: seq<IdentifierUuid>,
                                affectedItems: ItemLists, started: bool)
  {
    && GroupNames(affectedItems.discovery) == [DummyGroupName]
    && UniqueUuids(affectedItems.field) && UniqueUuids(affectedItems.country) && UniqueUuids(NoneGroup(affectedItems))
    && (selectedItems.operation == Addition ==>
         && NoneGroup(affectedItems) == []
         && (forall x :: x in affectedItems.field ==> !UuidIn(projectFields, x.uuid))
         && (forall x :: x in affectedItems.country ==> !UuidIn(projectCountries, x.uuid))
         && (started ==>
              && Covers(affectedItems.country, selectedItems.items.field, grouped, FieldItem, CountryItem, projectCountries, false)
              && Covers(affectedItems.field, NoneGroup(selectedItems.items), grouped, DiscoveryItem, FieldItem, projectFields, false)))
    && (selectedItems.operation == Removal ==>
         && affectedItems.country == []
         && (forall x :: x in affectedItems.field ==> UuidIn(projectFields, x.uuid))
         && (forall x :: x in NoneGroup(affectedItems) ==> UuidIn(projectDiscoveries, x.uuid))
         && (started ==>
              && Covers(NoneGroup(affectedItems), selectedItems.items.field, grouped, FieldItem, DiscoveryItem, projectDiscoveries, true)
              && Covers(affectedItems.field, selectedItems.items.country, grouped, CountryItem, FieldItem, projectFields, true)))
  }

  /** What `handleAffectedItems` promises about its result: each uuid once
      per kind, only items the operation can move, and every item the
      selection itself links to. */
  ghost predicate AffectedItemsOf(selectedItems: SelectedItems, grouped: Grouped, projectFields: seq<IdentifierUuid>,
                                  projectCountries: seq<IdentifierUuid>, projectDiscoveries: seq<IdentifierUuid>,
                                  affectedItems: ItemLists)
  {
    AffectedSoFar(selectedItems, grouped, projectFields, projectCountries, projectDiscoveries, affectedItems, true)
  }

  /** One round of the `while` loop of `handleAffectedItems`, up to the
      check of the round limit. */
  method CheckRound(selectedItems: SelectedItems, grouped: Grouped, projectFields: seq<IdentifierUuid>,
                    projectCountries: seq<IdentifierUuid>, projectDiscoveries: seq<IdentifierUuid>,
                    checkItems: ItemLists, affectedItems0: ItemLists, checkedItems0: ItemLists, ghost first: bool)
    returns (affectedItems: ItemLists, checkedItems: ItemLists, nextCheckItems: ItemLists)
    requires first ==> checkItems == selectedItems.items
    requires AffectedSoFar(selectedItems, grouped, projectFields, projectCountries, projectDiscoveries, affectedItems0, !first)
    ensures AffectedSoFar(selectedItems, grouped, projectFields, projectCountries, projectDiscoveries, affectedItems, true)
    ensures forall x :: x in nextCheckItems.field ==> !UuidIn(checkedItems.field, x.uuid)
    ensures forall x :: x in nextCheckItems.country ==> !UuidIn(checkedItems.country, x.uuid)
    ensures forall x :: x in NoneGroup(nextCheckItems) ==> !UuidIn(NoneGroup(checkedItems), x.uuid)
  {
    var affected := CheckForAffectedItems(selectedItems.operation, checkItems, grouped, projectFields, projectCountries, projectDiscoveries);

    checkedItems := checkedItems0.(
      field := checkedItems0.field + checkItems.field,
      country := checkedItems0.country + checkItems.country,
      discovery := SetGroup(checkedItems0.discovery, DummyGroupName, NoneGroup(checkedItems0) + NoneGroup(checkItems)));
    nextCheckItems := EmptyItemLists(true);

    var af, qf := MergeAffected(affected.field, affectedItems0.field, checkedItems.field);
    var ac, qc := MergeAffected(affected.country, affectedItems0.country, checkedItems.country);
    var ad, qd := MergeAffected(NoneGroup(affected), NoneGroup(affectedItems0), NoneGroup(checkedItems));
    affectedItems := ItemLists(af, ac, SetGroup(affectedItems0.discovery, DummyGroupName, ad));
    nextCheckItems := ItemLists(qf, qc, SetGroup(nextCheckItems.discovery, DummyGroupName, qd));

    if selectedItems.operation == Addition {
      assert ad == NoneGroup(affectedItems0);
      CoversFromFound(affectedItems0.country, affected.country, ac, checkItems.field, first, selectedItems.items.field,
        grouped, FieldItem, CountryItem, projectCountries, false);
      CoversFromFound(affectedItems0.field, affected.field, af, NoneGroup(checkItems), first, NoneGroup(selectedItems.items),
        grouped, DiscoveryItem, FieldItem, projectFields, false);
    } else {
      assert ac == affectedItems0.country;
      CoversFromFound(NoneGroup(affectedItems0), NoneGroup(affected), ad, checkItems.field, first, selectedItems.items.field,
        grouped, FieldItem, DiscoveryItem, projectDiscoveries, true);
      CoversFromFound(affectedItems0.field, affected.field, af, checkItems.country, first, selectedItems.items.country,
        grouped, CountryItem, FieldItem, projectFields, true);
    }
  }

  /** The coverage after a round: from the round's own check in the first
      round, carried over from the earlier rounds afterwards. */
  lemma CoversFromFound(before: seq<IdentifierUuid>, found: seq<IdentifierUuid>, after: seq<IdentifierUuid>,
                        checkList: seq<IdentifierUuid>, first: bool, selected: seq<IdentifierUuid>, grouped: seq<GroupedEntry>,
                        from: ItemType, to: ItemType, reference: seq<IdentifierUuid>, inProject: bool)
    requires first ==> checkList == selected
    requires !first ==> Covers(before, selected, grouped, from, to, reference, inProject)
    requires Covers(found, checkList, grouped, from, to, reference, inProject)
    requires before <= after
    requires forall x :: x in found ==> UuidIn(after, x.uuid)
    ensures Covers(after, selected, grouped, from, to, reference, inProject)
  {
    if first {
      CoversGrow(found, after, selected, grouped, from, to, reference, inProject);
    } else {
      forall x | x in before
        ensures UuidIn(after, x.uuid)
      {
        assert x in after;
        UuidInMember(after, x);
      }
      CoversGrow(before, after, selected, grouped, from, to, reference, inProject);
    }
  }

  /** `handleAffectedItems`: repeats `checkForAffectedItems` on what the
      previous round found, re-checking nothing already checked, for at most
      `AffectedCheckLimit + 1` rounds. The result holds each uuid once per
      kind, respects the direction of the operation, and covers every item
      the selection itself affects. */
  method HandleAffectedItems(selectedItems: SelectedItems, grouped: Grouped, projectFields: seq<IdentifierUuid>,
                             projectCountries: seq<IdentifierUuid>, projectDiscoveries: seq<IdentifierUuid>)
    returns (affectedItems: ItemLists, ghost rounds: nat)
    ensures rounds <= AffectedCheckLimit + 1
    ensures GroupNames(affectedItems.discovery) == [DummyGroupName]
    ensures UniqueUuids(affectedItems.field) && UniqueUuids(affectedItems.country) && UniqueUuids(NoneGroup(affectedItems))
    ensures selectedItems.operation == Addition ==>
      && NoneGroup(affectedItems) == []
      && (forall x :: x in affectedItems.field ==> !UuidIn(projectFields, x.uuid))
      && (forall x :: x in affectedItems.country ==> !UuidIn(projectCountries, x.uuid))
      && Covers(affectedItems.country, selectedItems.items.field, grouped, FieldItem, CountryItem, projectCountries, false)
      && Covers(affectedItems.field, NoneGroup(selectedItems.items), grouped, DiscoveryItem, FieldItem, projectFields, false)
    ensures selectedItems.operation == Removal ==>
      && affectedItems.country == []
      && (forall x :: x in affectedItems.field ==> UuidIn(projectFields, x.uuid))
      && (forall x :: x in NoneGroup(affectedItems) ==> UuidIn(projectDiscoveries, x.uuid))
      && Covers(NoneGroup(affectedItems), selectedItems.items.field, grouped, FieldItem, DiscoveryItem, projectDiscoveries, true)
      && Covers(affectedItems.field, selectedItems.items.country, grouped, CountryItem, FieldItem, projectFields, true)
  {
    var checkItems := selectedItems.items;
    affectedItems := EmptyItemLists(true);
    var checkedItems := EmptyItemLists(true);
    assert NoneGroup(affectedItems) == [] by {
      assert GroupNames(affectedItems.discovery) == [DummyGroupName];
    }

    var checkCount := 0;
    rounds := 0;
    var pending := ItemsCount(checkItems);
    while pending > 0
      invariant checkCount <= AffectedCheckLimit && rounds == checkCount
      invariant checkCount == 0 ==> checkItems == selectedItems.items
      invariant pending == TotalItems(checkItems)
      invariant AffectedSoFar(selectedItems, grouped, projectFields, projectCountries, projectDiscoveries, affectedItems, checkCount > 0)
      decreases AffectedCheckLimit + 1 - checkCount
    {
      checkCount := checkCount + 1;
      rounds := rounds + 1;
      affectedItems, checkedItems, checkItems := CheckRound(selectedItems, grouped, projectFields, projectCountries,
        projectDiscoveries, checkItems, affectedItems, checkedItems, checkCount == 1);
      pending := ItemsCount(checkItems);
      if checkCount > AffectedCheckLimit {
        break;
      }
    }
    if checkCount == 0 {
      // The selection holds nothing, so it affects nothing.
      TotalItemsZero(selectedItems.items);
      GroupItemsBound(selectedItems.items.discovery, DummyGroupName);
    }
  }
}

=== FILE: masterdata_options.dfy ===
/** The option lists of the masterdata form (`createOptions`), the check of
    an initial value against its option list and the one-item selection
    built by a list button. `stringCompare` is the abstract order `leq`. */
module MasterdataOptions {
  import opened Common
  import opened Model
  import opened Sorting
  import opened FormUtils
  import opened MasterdataUtils
  import opened MasterdataFunctions

  /** `stringCompare` on identifiers. */
  function ByIdentifier(leq: (string, string) -> bool): (IdentifierUuid, IdentifierUuid) -> bool {
    (a: IdentifierUuid, b: IdentifierUuid) => leq(a.identifier, b.identifier)
  }

  lemma ByIdentifierPreorder(leq: (string, string) -> bool)
    requires TotalPreorder(leq)
    ensures TotalPreorder(ByIdentifier(leq))
  {
    var c := ByIdentifier(leq);
    forall a: IdentifierUuid, b: IdentifierUuid
      ensures c(a, b) || c(b, a)
    {
      assert leq(a.identifier, b.identifier) || leq(b.identifier, a.identifier);
    }
    forall a: IdentifierUuid, b: IdentifierUuid, d: IdentifierUuid | c(a, b) && c(b, d)
      ensures c(a, d)
    {
      assert leq(a.identifier, b.identifier) && leq(b.identifier, d.identifier);
    }
  }

  // Default coordinate systems

  /** One entry of the record built by the reduce: a coordinate system and
      the project's SMDA fields that use it by default. */
  datatype CsFields = CsFields(coordinateSystem: IdentifierUuid, fields: seq<IdentifierUuid>)

  function CsUuids(acc: seq<CsFields>): (ids: seq<string>)
    ensures |ids| == |acc|
    ensures forall k :: 0 <= k < |acc| ==> ids[k] == acc[k].coordinateSystem.uuid
  {
    seq(|acc|, (k: int) requires 0 <= k < |acc| => acc[k].coordinateSystem.uuid)
  }

  /** The position of the entry keyed by the field's default system, or -1. */
  function CsIndex(acc: seq<CsFields>, data: SmdaMasterdataResult): int {
    IndexOf(CsUuids(acc), data.fieldCoordinateSystem.uuid)
  }

  /** The entry keyed by the field's default system, created when missing,
      with the field's items appended and sorted by identifier. */
  function CsUpdated(acc: seq<CsFields>, data: SmdaMasterdataResult, leq: (string, string) -> bool): (entry: CsFields)
    ensures CsIndex(acc, data) < 0 ==> entry.coordinateSystem == data.fieldCoordinateSystem
    ensures CsIndex(acc, data) >= 0 ==> entry.coordinateSystem == acc[CsIndex(acc, data)].coordinateSystem
    ensures entry.coordinateSystem.uuid == data.fieldCoordinateSystem.uuid
    ensures forall x :: x in entry.fields <==> (CsIndex(acc, data) >= 0 && x in acc[CsIndex(acc, data)].fields) || x in data.field
    ensures TotalPreorder(leq) ==> SortedBy(entry.fields, ByIdentifier(leq))
  {
    var i := CsIndex(acc, data);
    var entry := if i < 0 then CsFields(data.fieldCoordinateSystem, []) else acc[i];
    var all := entry.fields + data.field;
    var sorted := SortBy(all, ByIdentifier(leq));
    assert forall x :: x in sorted <==> x in all by {
      forall x
        ensures x in sorted <==> x in all
      {
        assert x in sorted <==> x in multiset(all);
      }
    }
    assert TotalPreorder(leq) ==> SortedBy(sorted, ByIdentifier(leq)) by {
      if TotalPreorder(leq) {
        ByIdentifierPreorder(leq);
        SortBySorted(all, ByIdentifier(leq));
      }
    }
    entry.(fields := sorted)
  }

  /** One step of the reduce over a project field's result. */
  function AddCsFields(acc: seq<CsFields>, data: SmdaMasterdataResult, leq: (string, string) -> bool): seq<CsFields> {
    var i := CsIndex(acc, data);
    if i < 0 then acc + [CsUpdated(acc, data, leq)] else acc[i := CsUpdated(acc, data, leq)]
  }

  /** The reduce over the SMDA results, in key order. */
  ghost function CsFold(entries: seq<GroupedEntry>, projectIds: seq<string>, leq: (string, string) -> bool): seq<CsFields> {
    if entries == [] then []
    else
      var acc := CsFold(entries[..|entries| - 1], projectIds, leq);
      var e := entries[|entries| - 1];
      if e.key in projectIds then AddCsFields(acc, e.data, leq) else acc
  }

  /** Result `j` is a project field's result whose default system has uuid `u`. */
  ghost predicate UsesCs(entries: seq<GroupedEntry>, projectIds: seq<string>, j: int, u: string) {
    0 <= j < |entries| && entries[j].key in projectIds && entries[j].data.fieldCoordinateSystem.uuid == u
  }

  lemma UsesCsSnoc(init: seq<GroupedEntry>, e: GroupedEntry, projectIds: seq<string>)
    ensures forall j, u :: UsesCs(init + [e], projectIds, j, u) <==>
      (UsesCs(init, projectIds, j, u) || (j == |init| && e.key in projectIds && e.data.fieldCoordinateSystem.uuid == u))
  {
    forall j, u
      ensures UsesCs(init + [e], projectIds, j, u) <==>
        (UsesCs(init, projectIds, j, u) || (j == |init| && e.key in projectIds && e.data.fieldCoordinateSystem.uuid == u))
    {
      if 0 <= j < |init| {
        assert (init + [e])[j] == init[j];
      }
    }
  }

  /** One entry per default system of a project field. */
  ghost predicate CsKeys(acc: seq<CsFields>, entries: seq<GroupedEntry>, projectIds: seq<string>) {
    && (forall a, b :: 0 <= a < b < |acc| ==> acc[a].coordinateSystem.uuid != acc[b].coordinateSystem.uuid)
    && (forall u :: u in CsUuids(acc) <==> exists j :: UsesCs(entries, projectIds, j, u))
  }

  /** Each entry carries the default system of a project field using it. */
  ghost predicate CsSystems(acc: seq<CsFields>, entries: seq<GroupedEntry>, projectIds: seq<string>) {
    forall k :: 0 <= k < |acc| ==> DefaultOf(entries, projectIds, acc[k].coordinateSystem)
  }

  /** `cs` is the default system of some project field's result. */
  ghost predicate DefaultOf(entries: seq<GroupedEntry>, projectIds: seq<string>, cs: IdentifierUuid) {
    exists j :: UsesCs(entries, projectIds, j, cs.uuid) && cs == entries[j].data.fieldCoordinateSystem
  }

  /** Each entry holds exactly the SMDA fields of the project fields using its system. */
  ghost predicate CsFieldsExact(acc: seq<CsFields>, entries: seq<GroupedEntry>, projectIds: seq<string>) {
    forall k, x :: 0 <= k < |acc| ==>
      (x in acc[k].fields <==>
        exists j :: UsesCs(entries, projectIds, j, acc[k].coordinateSystem.uuid) && x in entries[j].data.field)
  }

  ghost predicate CsSorted(acc: seq<CsFields>, leq: (string, string) -> bool) {
    forall k :: 0 <= k < |acc| ==> SortedBy(acc[k].fields, ByIdentifier(leq))
  }

  /** What the record of default systems holds: one entry per default system
      of a project field, carrying that system and exactly the SMDA fields of
      the project fields using it, sorted by identifier. */
  ghost predicate DefaultSystems(acc: seq<CsFields>, entries: seq<GroupedEntry>, projectIds: seq<string>, leq: (string, string) -> bool) {
    && CsKeys(acc, entries, projectIds)
    && CsSystems(acc, entries, projectIds)
    && CsFieldsExact(acc, entries, projectIds)
    && (TotalPreorder(leq) ==> CsSorted(acc, leq))
  }

  lemma {:induction false} CsFoldMeaning(entries: seq<GroupedEntry>, projectIds: seq<string>, leq: (string, string) -> bool)
    ensures DefaultSystems(CsFold(entries, projectIds, leq), entries, projectIds, leq)
  {
    if entries != [] {
      var init := entries[..|entries| - 1];
      var e := entries[|entries| - 1];
      assert entries == init + [e];
      CsFoldMeaning(init, projectIds, leq);
      var acc := CsFold(init, projectIds, leq);
      UsesCsSnoc(init, e, projectIds);
      if e.key in projectIds {
        AddCsKeys(acc, init, e, projectIds, leq);
        AddCsSystems(acc, init, e, projectIds, leq);
        AddCsFieldsExact(acc, init, e, projectIds, leq);
        if TotalPreorder(leq) {
          AddCsSorted(acc, e.data, leq);
        }
      } else {
        SkipCs(acc, init, e, projectIds);
      }
    }
  }

  lemma SkipCs(acc: seq<CsFields>, init: seq<GroupedEntry>, e: GroupedEntry, projectIds: seq<string>)
    requires e.key !in projectIds
    requires CsKeys(acc, init, projectIds) && CsSystems(acc, init, projectIds) && CsFieldsExact(acc, init, projectIds)
    ensures CsKeys(acc, init + [e], projectIds) && CsSystems(acc, init + [e], projectIds) && CsFieldsExact(acc, init + [e], projectIds)
  {
    var entries := init + [e];
    UsesCsSnoc(init, e, projectIds);
    forall k, x | 0 <= k < |acc| && x in acc[k].fields
      ensures exists j :: UsesCs(entries, projectIds, j, acc[k].coordinateSystem.uuid) && x in entries[j].data.field
    {
      var j :| UsesCs(init, projectIds, j, acc[k].coordinateSystem.uuid) && x in init[j].data.field;
      assert entries[j] == init[j];
    }
    forall k | 0 <= k < |acc|
      ensures DefaultOf(entries, projectIds, acc[k].coordinateSystem)
    {
      var j :| UsesCs(init, projectIds, j, acc[k].coordinateSystem.uuid)
        && acc[k].coordinateSystem == init[j].data.fieldCoordinateSystem;
      assert entries[j] == init[j];
    }
    forall k, x | 0 <= k < |acc| && exists j :: UsesCs(entries, projectIds, j, acc[k].coordinateSystem.uuid) && x in entries[j].data.field
      ensures x in acc[k].fields
    {
      var j :| UsesCs(entries, projectIds, j, acc[k].coordinateSystem.uuid) && x in entries[j].data.field;
      assert entries[j] == init[j];
    }
  }

  lemma AddCsKeys(acc: seq<CsFields>, init: seq<GroupedEntry>, e: GroupedEntry, projectIds: seq<string>, leq: (string, string) -> bool)
    requires e.key in projectIds
    requires CsKeys(acc, init, projectIds)
    ensures CsKeys(AddCsFields(acc, e.data, leq), init + [e], projectIds)
  {
    var r := AddCsFields(acc, e.data, leq);
    var u0 := e.data.fieldCoordinateSystem.uuid;
    var entry := CsUpdated(acc, e.data, leq);
    UsesCsSnoc(init, e, projectIds);
    assert UsesCs(init + [e], projectIds, |init|, u0);
    if CsIndex(acc, e.data) < 0 {
      assert r == acc + [entry];
      assert CsUuids(r) == CsUuids(acc) + [u0];
      forall a, b | 0 <= a < b < |r|
        ensures r[a].coordinateSystem.uuid != r[b].coordinateSystem.uuid
      {
        if b == |acc| {
          assert CsUuids(acc)[a] == acc[a].coordinateSystem.uuid;
        }
      }
    } else {
      var i := CsIndex(acc, e.data);
      assert r == acc[i := entry];
      assert CsUuids(r) == CsUuids(acc);
    }
  }

  lemma AddCsSystems(acc: seq<CsFields>, init: seq<GroupedEntry>, e: GroupedEntry, projectIds: seq<string>, leq: (string, string) -> bool)
    requires e.key in projectIds
    requires CsSystems(acc, init, projectIds)
    ensures CsSystems(AddCsFields(acc, e.data, leq), init + [e], projectIds)
  {
    var entries := init + [e];
    var r := AddCsFields(acc, e.data, leq);
    var i := CsIndex(acc, e.data);
    forall k | 0 <= k < |r|
      ensures DefaultOf(entries, projectIds, r[k].coordinateSystem)
    {
      if k < |acc| {
        assert r[k].coordinateSystem == acc[k].coordinateSystem;
        var j :| UsesCs(init, projectIds, j, acc[k].coordinateSystem.uuid)
          && acc[k].coordinateSystem == init[j].data.fieldCoordinateSystem;
        assert entries[j] == init[j];
      } else {
        assert i < 0 && r[k] == CsUpdated(acc, e.data, leq);
        assert entries[|init|] == e;
        assert UsesCs(entries, projectIds, |init|, r[k].coordinateSystem.uuid);
      }
    }
  }

  lemma AddCsFieldsExact(acc: seq<CsFields>, init: seq<GroupedEntry>, e: GroupedEntry, projectIds: seq<string>, leq: (string, string) -> bool)
    requires e.key in projectIds
    requires CsKeys(acc, init, projectIds) && CsFieldsExact(acc, init, projectIds)
    ensures CsFieldsExact(AddCsFields(acc, e.data, leq), init + [e], projectIds)
  {
    var entries := init + [e];
    var r := AddCsFields(acc, e.data, leq);
    var i := CsIndex(acc, e.data);
    var u0 := e.data.fieldCoordinateSystem.uuid;
    UsesCsSnoc(init, e, projectIds);
    assert entries[|init|] == e;
    forall k, x | 0 <= k < |r|
      ensures (x in r[k].fields <==>
        exists j :: UsesCs(entries, projectIds, j, r[k].coordinateSystem.uuid) && x in entries[j].data.field)
    {
      var u := r[k].coordinateSystem.uuid;
      if k < |acc| && k != i {
        assert r[k] == acc[k];
        assert u != u0 by {
          assert CsUuids(acc)[k] == u;
          if i >= 0 {
            assert CsUuids(acc)[i] == u0;
          }
        }
        if x in r[k].fields {
          var j :| UsesCs(init, projectIds, j, u) && x in init[j].data.field;
          assert entries[j] == init[j];
        }
        if exists j :: UsesCs(entries, projectIds, j, u) && x in entries[j].data.field {
          var j :| UsesCs(entries, projectIds, j, u) && x in entries[j].data.field;
          assert entries[j] == init[j];
        }
      } else {
        assert r[k] == CsUpdated(acc, e.data, leq) && u == u0;
        if i >= 0 && x in acc[i].fields {
          var j :| UsesCs(init, projectIds, j, u0) && x in init[j].data.field;
          assert entries[j] == init[j];
        }
        if exists j :: UsesCs(entries, projectIds, j, u0) && x in entries[j].data.field {
          var j :| UsesCs(entries, projectIds, j, u0) && x in entries[j].data.field;
          if j < |init| {
            assert entries[j] == init[j];
            assert UsesCs(init, projectIds, j, u0);
            assert i >= 0 by {
              assert CsUuids(acc)[i] == u0 || u0 in CsUuids(acc);
            }
          }
        }
      }
    }
  }

  lemma AddCsSorted(acc: seq<CsFields>, data: SmdaMasterdataResult, leq: (string, string) -> bool)
    requires TotalPreorder(leq) && CsSorted(acc, leq)
    ensures CsSorted(AddCsFields(acc, data, leq), leq)
  {
  }

  /** The reduce building the record of default coordinate systems of the
      project fields. */
  method DefaultCoordinateSystems(grouped: Grouped, projectFields: seq<IdentifierUuid>, leq: (string, string) -> bool)
    returns (acc: seq<CsFields>)
    ensures acc == CsFold(grouped, Identifiers(projectFields), leq)
    ensures DefaultSystems(acc, grouped, Identifiers(projectFields), leq)
  {
    var projectIds := Identifiers(projectFields);
    acc := [];
    for i := 0 to |grouped|
      invariant acc == CsFold(grouped[..i], projectIds, leq)
    {
      assert grouped[..i + 1][..i] == grouped[..i];
      var entry := grouped[i];
      if entry.key in projectIds {
        acc := AddCsFields(acc, entry.data, leq);
      }
    }
    assert grouped[..|grouped|] == grouped;
    CsFoldMeaning(grouped, projectIds, leq);
  }

  // Coordinate system options

  function FirstFieldIdentifier(cs: CsFields): string {
    if cs.fields == [] then "" else cs.fields[0].identifier
  }

  /** "default" for the only default system, else "default for" and the
      identifiers of the fields using it. */
  function DefaultText(dcsCount: nat, cs: CsFields): string {
    if dcsCount > 1 then "default for " + Join(Identifiers(cs.fields), ", ") else "default"
  }

  function DefaultOption(dcsCount: nat, cs: CsFields): (r: IdentifierUuid)
    ensures r.uuid == cs.coordinateSystem.uuid
  {
    cs.coordinateSystem.(identifier := cs.coordinateSystem.identifier + " [" + DefaultText(dcsCount, cs) + "]")
  }

  /** The default systems ordered by the first of their fields. */
  function SortedDefaults(dcs: seq<CsFields>, leq: (string, string) -> bool): (sorted: seq<CsFields>)
    ensures multiset(sorted) == multiset(dcs) && |sorted| == |dcs|
  {
    SortBy(dcs, (a: CsFields, b: CsFields) => leq(FirstFieldIdentifier(a), FirstFieldIdentifier(b)))
  }

  /** The default systems, ordered by the first of their fields, each with
      its bracketed text appended to the identifier. */
  function DefaultOptions(dcs: seq<CsFields>, leq: (string, string) -> bool): (r: seq<IdentifierUuid>)
    ensures |r| == |dcs|
    ensures forall k :: 0 <= k < |r| ==> r[k] == DefaultOption(|dcs|, SortedDefaults(dcs, leq)[k])
    ensures forall k :: 0 <= k < |r| ==> r[k].uuid == SortedDefaults(dcs, leq)[k].coordinateSystem.uuid
    ensures forall k :: 0 <= k < |r| ==> exists a :: 0 <= a < |dcs| && r[k] == DefaultOption(|dcs|, dcs[a])
  {
    var sorted := SortedDefaults(dcs, leq);
    assert forall k :: 0 <= k < |sorted| ==> exists a :: 0 <= a < |dcs| && dcs[a] == sorted[k] by {
      forall k | 0 <= k < |sorted|
        ensures exists a :: 0 <= a < |dcs| && dcs[a] == sorted[k]
      {
        assert sorted[k] in multiset(dcs);
        assert sorted[k] in dcs;
      }
    }
    seq(|sorted|, (k: int) requires 0 <= k < |sorted| => DefaultOption(|dcs|, sorted[k]))
  }

  /** The default options carry exactly the uuids of the default systems. */
  lemma DefaultOptionsUuids(dcs: seq<CsFields>, leq: (string, string) -> bool)
    ensures forall u :: UuidIn(DefaultOptions(dcs, leq), u) <==> u in CsUuids(dcs)
  {
    var r := DefaultOptions(dcs, leq);
    var sorted := SortedDefaults(dcs, leq);
    forall u
      ensures UuidIn(r, u) <==> u in CsUuids(dcs)
    {
      if UuidIn(r, u) {
        var k :| 0 <= k < |r| && r[k].uuid == u;
        assert r[k].uuid == sorted[k].coordinateSystem.uuid;
        assert sorted[k] in multiset(dcs);
        var a :| 0 <= a < |dcs| && dcs[a] == sorted[k];
        assert CsUuids(dcs)[a] == u;
      }
      if u in CsUuids(dcs) {
        var a :| 0 <= a < |dcs| && CsUuids(dcs)[a] == u;
        assert dcs[a] in multiset(sorted);
        var k :| 0 <= k < |sorted| && dcs[a] == sorted[k];
        assert r[k].uuid == u;
      }
    }
  }

  lemma BracketText(x: string, j: string)
    ensures x + " [" + ("default for " + j) + "]" == x + " [default for " + j + "]"
    ensures x + " [" + "default" + "]" == x + " [default]"
  {
    assert " [" + "default for " == " [default for ";
    assert " [" + "default" + "]" == " [default]";
    calc {
      x + " [" + ("default for " + j) + "]";
      x + (" [" + "default for ") + j + "]";
      x + " [default for " + j + "]";
    }
  }

  /** The default systems' bracketed text: "[default]" when there is one, and
      "[default for f1, f2, …]" naming its fields when there are several. */
  lemma DefaultOptionsText(dcs: seq<CsFields>, leq: (string, string) -> bool, k: int)
    requires 0 <= k < |dcs|
    ensures |dcs| == 1 ==>
      DefaultOptions(dcs, leq)[k].identifier == dcs[0].coordinateSystem.identifier + " [default]"
    ensures |dcs| > 1 ==> exists a :: (0 <= a < |dcs| &&
      DefaultOptions(dcs, leq)[k].identifier ==
        dcs[a].coordinateSystem.identifier + " [default for " + Join(Identifiers(dcs[a].fields), ", ") + "]")
  {
    var a :| 0 <= a < |dcs| && DefaultOptions(dcs, leq)[k] == DefaultOption(|dcs|, dcs[a]);
    var x := dcs[a].coordinateSystem.identifier;
    var j := Join(Identifiers(dcs[a].fields), ", ");
    BracketText(x, j);
    assert DefaultOptions(dcs, leq)[k].identifier == x + " [" + DefaultText(|dcs|, dcs[a]) + "]";
  }

  /** `smdaMasterdataGrouped[key].coordinate_systems`, read as the empty
      list when there is no such key. */
  function CoordinateSystemsOf(grouped: seq<GroupedEntry>, key: string): seq<IdentifierUuid> {
    var i := IndexOf(Keys(grouped), key);
    if i < 0 then [] else grouped[i].data.coordinateSystems
  }

  /** The coordinate system options: none without project fields; else the
      default systems, then the first field's other systems whose uuid is not
      among the defaults, ordered by identifier. */
  function CoordinateSystemsOptions(grouped: seq<GroupedEntry>, projectFields: seq<IdentifierUuid>, dcs: seq<CsFields>,
                                    leq: (string, string) -> bool): seq<IdentifierUuid>
  {
    if |projectFields| == 0 then []
    else
      var defaults := DefaultOptions(dcs, leq);
      var systems := CoordinateSystemsOf(grouped, projectFields[0].identifier);
      defaults + SortBy(Filter(systems, NotInList(defaults)), ByIdentifier(leq))
  }

  /** The options list the defaults first; every system of the first project
      field has its uuid among the options, and the rest are such systems
      whose uuid is no default one, in identifier order. */
  lemma CoordinateSystemsOptionsMeaning(grouped: seq<GroupedEntry>, projectFields: seq<IdentifierUuid>, dcs: seq<CsFields>,
                                        leq: (string, string) -> bool)
    requires |projectFields| > 0
    ensures var r := CoordinateSystemsOptions(grouped, projectFields, dcs, leq);
      var systems := CoordinateSystemsOf(grouped, projectFields[0].identifier);
      && r[..|dcs|] == DefaultOptions(dcs, leq)
      && (forall x :: x in r[|dcs|..] ==> x in systems && x.uuid !in CsUuids(dcs))
      && (forall x :: x in systems ==> UuidIn(r, x.uuid))
      && (TotalPreorder(leq) ==> SortedBy(r[|dcs|..], ByIdentifier(leq)))
  {
    var r := CoordinateSystemsOptions(grouped, projectFields, dcs, leq);
    var defaults := DefaultOptions(dcs, leq);
    var systems := CoordinateSystemsOf(grouped, projectFields[0].identifier);
    var others := Filter(systems, NotInList(defaults));
    var rest := SortBy(others, ByIdentifier(leq));
    assert r == defaults + rest;
    assert r[..|dcs|] == defaults && r[|dcs|..] == rest;
    DefaultOptionsUuids(dcs, leq);
    forall x | x in rest
      ensures x in systems && x.uuid !in CsUuids(dcs)
    {
      assert x in multiset(others);
      FilterIn(systems, NotInList(defaults), x);
    }
    forall x | x in systems
      ensures UuidIn(r, x.uuid)
    {
      UuidInAppend(defaults, rest);
      if !UuidIn(defaults, x.uuid) {
        FilterIn(systems, NotInList(defaults), x);
        assert x in multiset(rest);
        UuidInMember(rest, x);
      }
    }
    if TotalPreorder(leq) {
      ByIdentifierPreorder(leq);
      SortBySorted(others, ByIdentifier(leq));
    }
  }

  // Stratigraphic columns

  /** A column of field `key`, suffixed " [key]" when the project has more
      than one field. */
  function Label(column: IdentifierUuid, key: string, fieldCount: nat): IdentifierUuid {
    column.(identifier := column.identifier + (if fieldCount > 1 then " [" + key + "]" else ""))
  }

  function Labelled(columns: seq<IdentifierUuid>, key: string, fieldCount: nat): (r: seq<IdentifierUuid>)
    ensures |r| == |columns|
    ensures forall k :: 0 <= k < |r| ==> r[k] == Label(columns[k], key, fieldCount)
  {
    seq(|columns|, (k: int) requires 0 <= k < |columns| => Label(columns[k], key, fieldCount))
  }

  /** The columns of the project fields' results, in key order, labelled or not. */
  ghost function ColumnsFold(entries: seq<GroupedEntry>, projectIds: seq<string>, fieldCount: nat, labelled: bool): seq<IdentifierUuid> {
    if entries == [] then []
    else
      var acc := ColumnsFold(entries[..|entries| - 1], projectIds, fieldCount, labelled);
      var e := entries[|entries| - 1];
      if e.key in projectIds then
        acc + (if labelled then Labelled(e.data.stratigraphicColumns, e.key, fieldCount) else e.data.stratigraphicColumns)
      else acc
  }

  /** The columns listed by result `j` of a project field: `c` as SMDA has
      it, and `x` as the list shows it. */
  ghost predicate ListsColumn(entries: seq<GroupedEntry>, projectIds: seq<string>, fieldCount: nat, labelled: bool,
                              j: int, c: IdentifierUuid, x: IdentifierUuid) {
    && 0 <= j < |entries| && entries[j].key in projectIds && c in entries[j].data.stratigraphicColumns
    && x == (if labelled then Label(c, entries[j].key, fieldCount) else c)
  }

  /** An item is in the reduce exactly when it is (the label of) a column of
      some project field's result. */
  lemma {:induction false} ColumnsFoldIn(entries: seq<GroupedEntry>, projectIds: seq<string>, fieldCount: nat, labelled: bool,
                                         x: IdentifierUuid)
    ensures x in ColumnsFold(entries, projectIds, fieldCount, labelled) <==>
      exists j, c :: ListsColumn(entries, projectIds, fieldCount, labelled, j, c, x)
  {
    if entries != [] {
      var init := entries[..|entries| - 1];
      var e := entries[|entries| - 1];
      var n := |init|;
      ColumnsFoldIn(init, projectIds, fieldCount, labelled, x);
      var part := if labelled then Labelled(e.data.stratigraphicColumns, e.key, fieldCount) else e.data.stratigraphicColumns;
      if exists j, c :: ListsColumn(init, projectIds, fieldCount, labelled, j, c, x) {
        var j, c :| ListsColumn(init, projectIds, fieldCount, labelled, j, c, x);
        assert entries[j] == init[j];
        assert ListsColumn(entries, projectIds, fieldCount, labelled, j, c, x);
      }
      if exists j, c :: ListsColumn(entries, projectIds, fieldCount, labelled, j, c, x) {
        var j, c :| ListsColumn(entries, projectIds, fieldCount, labelled, j, c, x);
        if j < n {
          assert entries[j] == init[j];
          assert ListsColumn(init, projectIds, fieldCount, labelled, j, c, x);
        } else {
          assert entries[j] == e;
          var k :| 0 <= k < |e.data.stratigraphicColumns| && e.data.stratigraphicColumns[k] == c;
          assert part[k] == x;
        }
      }
      if e.key in projectIds && x in part {
        var k :| 0 <= k < |part| && part[k] == x;
        assert entries[n] == e;
        assert ListsColumn(entries, projectIds, fieldCount, labelled, n, e.data.stratigraphicColumns[k], x);
      }
    }
  }

  /** With at most one project field, labelling changes nothing. */
  lemma {:induction false} ColumnsUnlabelled(entries: seq<GroupedEntry>, projectIds: seq<string>, fieldCount: nat)
    requires fieldCount <= 1
    ensures ColumnsFold(entries, projectIds, fieldCount, true) == ColumnsFold(entries, projectIds, fieldCount, false)
  {
    if entries != [] {
      var e := entries[|entries| - 1];
      ColumnsUnlabelled(entries[..|entries| - 1], projectIds, fieldCount);
      var columns := e.data.stratigraphicColumns;
      forall k | 0 <= k < |columns|
        ensures Labelled(columns, e.key, fieldCount)[k] == columns[k]
      {
        assert columns[k].identifier + "" == columns[k].identifier;
      }
      assert Labelled(columns, e.key, fieldCount) == columns;
    }
  }

  /** The reduce pushing the columns of each project field's result. */
  method ProjectColumns(grouped: Grouped, projectIds: seq<string>, fieldCount: nat, labelled: bool)
    returns (acc: seq<IdentifierUuid>)
    ensures acc == ColumnsFold(grouped, projectIds, fieldCount, labelled)
  {
    acc := [];
    for i := 0 to |grouped|
      invariant acc == ColumnsFold(grouped[..i], projectIds, fieldCount, labelled)
    {
      assert grouped[..i + 1][..i] == grouped[..i];
      var entry := grouped[i];
      if entry.key in projectIds {
        var columns := entry.data.stratigraphicColumns;
        acc := acc + (if labelled then Labelled(columns, entry.key, fieldCount) else columns);
      }
    }
    assert grouped[..|grouped|] == grouped;
  }

  /** With several project fields, the labelled reduce holds exactly the
      columns of the project fields' results, each with its field's label. */
  lemma ColumnsLabelledIn(grouped: seq<GroupedEntry>, ids: seq<string>, n: nat, x: IdentifierUuid)
    requires n > 1
    ensures x in ColumnsFold(grouped, ids, n, true) <==> exists j, c ::
      && ListsColumn(grouped, ids, n, false, j, c, c)
      && x == IdentifierUuid(c.identifier + (" [" + grouped[j].key + "]"), c.uuid)
  {
    ColumnsFoldIn(grouped, ids, n, true, x);
    if exists j, c :: ListsColumn(grouped, ids, n, true, j, c, x) {
      var j, c :| ListsColumn(grouped, ids, n, true, j, c, x);
      assert ListsColumn(grouped, ids, n, false, j, c, c);
    }
    if exists j, c :: ListsColumn(grouped, ids, n, false, j, c, c) && x == IdentifierUuid(c.identifier + (" [" + grouped[j].key + "]"), c.uuid) {
      var j, c :| ListsColumn(grouped, ids, n, false, j, c, c) && x == IdentifierUuid(c.identifier + (" [" + grouped[j].key + "]"), c.uuid);
      assert ListsColumn(grouped, ids, n, true, j, c, x);
    }
  }

  /** The stratigraphic column options: the project fields' columns, each
      suffixed with its field when there are several fields, in identifier
      order. */
  lemma StratigraphicColumnsOptionsMeaning(grouped: Grouped, projectFields: seq<IdentifierUuid>, leq: (string, string) -> bool,
                                           x: IdentifierUuid)
    ensures var options := SortBy(ColumnsFold(grouped, Identifiers(projectFields), |projectFields|, true), ByIdentifier(leq));
      && (|projectFields| <= 1 ==>
            (x in options <==> exists j, c :: ListsColumn(grouped, Identifiers(projectFields), |projectFields|, false, j, c, x)))
      && (|projectFields| > 1 ==>
            (x in options <==> exists j, c ::
              && ListsColumn(grouped, Identifiers(projectFields), |projectFields|, false, j, c, c)
              && x == IdentifierUuid(c.identifier + (" [" + grouped[j].key + "]"), c.uuid)))
      && (TotalPreorder(leq) ==> SortedBy(options, ByIdentifier(leq)))
  {
    var ids := Identifiers(projectFields);
    var n := |projectFields|;
    var all := ColumnsFold(grouped, ids, n, true);
    var options := SortBy(all, ByIdentifier(leq));
    assert x in options <==> x in all by {
      assert x in options <==> x in multiset(all);
    }
    if n <= 1 {
      ColumnsUnlabelled(grouped, ids, n);
      ColumnsFoldIn(grouped, ids, n, false, x);
    } else {
      ColumnsLabelledIn(grouped, ids, n, x);
    }
    if TotalPreorder(leq) {
      ByIdentifierPreorder(leq);
      SortBySorted(all, ByIdentifier(leq));
    }
  }

  /** `createOptions`: the coordinate systems of the first project field and
      the options built from them, the project fields' stratigraphic columns,
      and those columns as options. */
  method CreateOptions(grouped: Grouped, projectFields: seq<IdentifierUuid>, leq: (string, string) -> bool)
    returns (options: OptionsData)
    ensures |projectFields| == 0 ==> options.coordinateSystems == [] && options.coordinateSystemsOptions == []
    ensures |projectFields| > 0 ==> options.coordinateSystems == CoordinateSystemsOf(grouped, projectFields[0].identifier)
    ensures options.coordinateSystemsOptions ==
      CoordinateSystemsOptions(grouped, projectFields, CsFold(grouped, Identifiers(projectFields), leq), leq)
    ensures options.stratigraphicColumns == ColumnsFold(grouped, Identifiers(projectFields), |projectFields|, false)
    ensures options.stratigraphicColumnsOptions ==
      SortBy(ColumnsFold(grouped, Identifiers(projectFields), |projectFields|, true), ByIdentifier(leq))
  {
    var fieldCount := |projectFields|;
    var dcs := DefaultCoordinateSystems(grouped, projectFields, leq);
    var columns := ProjectColumns(grouped, Identifiers(projectFields), fieldCount, false);
    var labelledColumns := ProjectColumns(grouped, Identifiers(projectFields), fieldCount, true);
    options := OptionsData(
      if fieldCount > 0 then CoordinateSystemsOf(grouped, projectFields[0].identifier) else [],
      CoordinateSystemsOptions(grouped, projectFields, dcs, leq),
      columns,
      SortBy(labelledColumns, ByIdentifier(leq)));
  }

  // handleErrorUnknownInitialValue and prepareSelectedItems

  /** The error of a form value: none when its uuid matches exactly one
      option, the "(none)" placeholder included, else a message naming it. */
  function InitialValueError(options: seq<IdentifierUuid>, initialValue: IdentifierUuid): (r: Option<string>)
    ensures r.None? <==> exists i :: IsOnlyMatch([EmptyIdentifierUuid()] + options, HasUuid(initialValue.uuid), i)
    ensures r.Some? ==> r.value == "Initial value \"" + initialValue.identifier + "\" does not exist in selection list"
  {
    if FindOptionValueInIdentifierUuidArray([EmptyIdentifierUuid()] + options, initialValue.uuid).Some? then None
    else Some("Initial value \"" + initialValue.identifier + "\" does not exist in selection list")
  }

  /** The placeholder is accepted unless an option shares its uuid. */
  lemma PlaceholderAccepted(options: seq<IdentifierUuid>)
    requires !UuidIn(options, EmptyIdentifierUuid().uuid)
    ensures InitialValueError(options, EmptyIdentifierUuid()) == None
  {
    var all := [EmptyIdentifierUuid()] + options;
    var p := HasUuid(EmptyIdentifierUuid().uuid);
    forall j | 0 <= j < |all| && j != 0
      ensures !p(all[j])
    {
      assert all[j] == options[j - 1];
    }
    assert IsOnlyMatch(all, p, 0);
  }

  /** A value found once among the options, other than the placeholder, is
      accepted; one missing from them is reported. */
  lemma InitialValueErrorIff(options: seq<IdentifierUuid>, initialValue: IdentifierUuid)
    requires initialValue.uuid != EmptyIdentifierUuid().uuid
    requires UniqueUuids(options)
    ensures InitialValueError(options, initialValue).None? <==> UuidIn(options, initialValue.uuid)
  {
    var all := [EmptyIdentifierUuid()] + options;
    var p := HasUuid(initialValue.uuid);
    if UuidIn(options, initialValue.uuid) {
      var k :| 0 <= k < |options| && options[k].uuid == initialValue.uuid;
      forall j | 0 <= j < |all| && j != k + 1
        ensures !p(all[j])
      {
        if j > 0 {
          assert all[j] == options[j - 1];
        }
      }
      assert IsOnlyMatch(all, p, k + 1);
    }
    if InitialValueError(options, initialValue).None? {
      var i :| IsOnlyMatch(all, p, i);
      assert all[i] == options[i - 1];
    }
  }

  /** `prepareSelectedItems`: a selection of the one item, in its own
      category, a discovery under the "none" group. */
  function PrepareSelectedItems(operation: ListOperation, itemType: ItemType, item: IdentifierUuid): (r: SelectedItems)
    ensures r.operation == operation
    ensures TotalItems(r.items) == 1
    ensures GroupNames(r.items.discovery) == [DummyGroupName]
    ensures itemType == FieldItem ==> r.items.field == [item]
    ensures itemType == CountryItem ==> r.items.country == [item]
    ensures itemType == DiscoveryItem ==> NoneGroup(r.items) == [item]
  {
    var empty := EmptyItemLists(true);
    var items := match itemType
      case FieldItem => empty.(field := [item])
      case CountryItem => empty.(country := [item])
      case DiscoveryItem => empty.(discovery := [Group(DummyGroupName, [item])]);
    assert GroupSizes(items.discovery) == |GroupItems(items.discovery, DummyGroupName)| by {
      assert items.discovery[..0] == [];
      assert GroupNames(items.discovery) == [DummyGroupName];
    }
    SelectedItems(operation, items)
  }
}

=== FILE: masterdata_utils.dfy ===
/** The item lists of the masterdata editor: fields, countries and
    discoveries grouped by field, the empty values the editor starts from,
    and the count of the items a set of lists holds. The SMDA query results
    the editor works on are declared here as well. */
module MasterdataUtils {
  import opened Common
  import opened Model
  import opened FormUtils

  /** The name of the one discovery group used by selections, affected items
      and orphans (`DUMMYGROUP_NAME`). */
  const DummyGroupName: string := "none"

  /** How many rounds of the affected-items search run at most after the
      first (`AFFECTEDCHECK_LIMIT`). */
  const AffectedCheckLimit: nat := 5

  /** One entry of `ItemListGrouped`: a group name and its discoveries. A
      record's entries keep the order in which their keys were first set. */
  datatype Group = Group(name: string, items: seq<IdentifierUuid>)

  /** `ItemLists`, and also `FormMasterdataBase`, which has the same shape. */
  datatype ItemLists = ItemLists(field: seq<IdentifierUuid>, country: seq<IdentifierUuid>, discovery: seq<Group>)

  datatype OptionsData = OptionsData(
    coordinateSystems: seq<IdentifierUuid>,
    coordinateSystemsOptions: seq<IdentifierUuid>,
    stratigraphicColumns: seq<IdentifierUuid>,
    stratigraphicColumnsOptions: seq<IdentifierUuid>)

  /** `FormMasterdataSub`: the base lists without the field list. */
  datatype FormMasterdataSub = FormMasterdataSub(country: seq<IdentifierUuid>, discovery: seq<Group>)

  /** `FormMasterdataProject`: the base lists and the option lists. */
  datatype FormMasterdataProject = FormMasterdataProject(lists: ItemLists, options: OptionsData)

  /** A pending add or remove: the operation and the items it is about. */
  datatype SelectedItems = SelectedItems(operation: ListOperation, items: ItemLists)

  /** The three kinds of masterdata items (`FieldItemType`). */
  datatype ItemType = FieldItem | CountryItem | DiscoveryItem

  /** What SMDA returns for one field (`SmdaMasterdataResult`). */
  datatype SmdaMasterdataResult = SmdaMasterdataResult(
    field: seq<IdentifierUuid>,
    country: seq<IdentifierUuid>,
    discovery: seq<IdentifierUuid>,
    stratigraphicColumns: seq<IdentifierUuid>,
    coordinateSystems: seq<IdentifierUuid>,
    fieldCoordinateSystem: IdentifierUuid)

  /** One entry of `SmdaMasterdataResultGrouped`: a field identifier and its result. */
  datatype GroupedEntry = GroupedEntry(key: string, data: SmdaMasterdataResult)

  predicate DistinctKeys(entries: seq<GroupedEntry>) {
    forall i, j :: 0 <= i < j < |entries| ==> entries[i].key != entries[j].key
  }

  /** A record keyed by field identifier: no key occurs twice. */
  type Grouped = entries: seq<GroupedEntry> | DistinctKeys(entries) witness []

  function Keys(entries: seq<GroupedEntry>): (keys: seq<string>)
    ensures |keys| == |entries|
    ensures forall i :: 0 <= i < |entries| ==> keys[i] == entries[i].key
  {
    seq(|entries|, (i: int) requires 0 <= i < |entries| => entries[i].key)
  }

  /** The list of one kind of item in an SMDA result. */
  function ListOf(data: SmdaMasterdataResult, itemType: ItemType): seq<IdentifierUuid> {
    match itemType
    case FieldItem => data.field
    case CountryItem => data.country
    case DiscoveryItem => data.discovery
  }

  // Discovery groups

  function GroupNames(groups: seq<Group>): (names: seq<string>)
    ensures |names| == |groups|
    ensures forall i :: 0 <= i < |groups| ==> names[i] == groups[i].name
  {
    seq(|groups|, (i: int) requires 0 <= i < |groups| => groups[i].name)
  }

  predicate DistinctNames(groups: seq<Group>) {
    forall i, j :: 0 <= i < j < |groups| ==> groups[i].name != groups[j].name
  }

  /** The first position of `x` in `s`, or -1. */
  function IndexOf<T(==)>(s: seq<T>, x: T): (idx: int)
    ensures -1 <= idx < |s|
    ensures idx >= 0 ==> s[idx] == x
    ensures idx < 0 <==> x !in s
  {
    if s == [] then -1
    else if s[0] == x then 0
    else
      var k := IndexOf(s[1..], x);
      if k < 0 then -1 else k + 1
  }

  lemma {:induction false} IndexOfSnoc<T>(s: seq<T>, y: T, x: T)
    requires x in s || x != y
    ensures IndexOf(s + [y], x) == IndexOf(s, x)
  {
    if s != [] {
      assert (s + [y])[1..] == s[1..] + [y];
      if s[0] != x {
        IndexOfSnoc(s[1..], y, x);
      }
    }
  }

  /** `groups[name]`, read as the empty list when there is no such group. */
  function GroupItems(groups: seq<Group>, name: string): seq<IdentifierUuid> {
    var i := IndexOf(GroupNames(groups), name);
    if i < 0 then [] else groups[i].items
  }

  /** `groups[name] = items`: an existing group keeps its place, a new one
      goes last. */
  function SetGroup(groups: seq<Group>, name: string, items: seq<IdentifierUuid>): (r: seq<Group>)
    ensures GroupItems(r, name) == items
    ensures forall m :: m != name ==> GroupItems(r, m) == GroupItems(groups, m)
    ensures name in GroupNames(groups) ==> GroupNames(r) == GroupNames(groups)
    ensures name !in GroupNames(groups) ==> GroupNames(r) == GroupNames(groups) + [name]
    ensures DistinctNames(groups) ==> DistinctNames(r)
  {
    var i := IndexOf(GroupNames(groups), name);
    if i >= 0 then
      var r := groups[i := Group(name, items)];
      assert GroupNames(r) == GroupNames(groups);
      r
    else
      var r := groups + [Group(name, items)];
      assert GroupNames(r) == GroupNames(groups) + [name];
      forall m | m != name
        ensures IndexOf(GroupNames(r), m) == IndexOf(GroupNames(groups), m)
      {
        IndexOfSnoc(GroupNames(groups), name, m);
      }
      r
  }

  /** The total number of discoveries over all groups, summed in group order. */
  function GroupSizes(groups: seq<Group>): nat {
    if groups == [] then 0 else GroupSizes(groups[..|groups| - 1]) + |groups[|groups| - 1].items|
  }

  /** The number of items of all three kinds. */
  function TotalItems(lists: ItemLists): nat {
    |lists.field| + |lists.country| + GroupSizes(lists.discovery)
  }

  lemma {:induction false} GroupSizesZero(groups: seq<Group>)
    ensures GroupSizes(groups) == 0 <==> forall g :: g in groups ==> g.items == []
  {
    if groups != [] {
      var init := groups[..|groups| - 1];
      GroupSizesZero(init);
      assert groups == init + [groups[|groups| - 1]];
    }
  }

  /** A list holds no items exactly when all its lists and groups are empty. */
  lemma TotalItemsZero(lists: ItemLists)
    ensures TotalItems(lists) == 0 <==>
      lists.field == [] && lists.country == [] && forall g :: g in lists.discovery ==> g.items == []
  {
    GroupSizesZero(lists.discovery);
  }

  /** One group never holds more than all groups together. */
  lemma {:induction false} GroupItemsBound(groups: seq<Group>, name: string)
    ensures |GroupItems(groups, name)| <= GroupSizes(groups)
  {
    var i := IndexOf(GroupNames(groups), name);
    if i >= 0 {
      GroupSizesAt(groups, i);
    }
  }

  lemma {:induction false} GroupSizesAt(groups: seq<Group>, i: int)
    requires 0 <= i < |groups|
    ensures |groups[i].items| <= GroupSizes(groups)
  {
    if i < |groups| - 1 {
      GroupSizesAt(groups[..|groups| - 1], i);
    }
  }

  /** `itemsCount`: adds up the lengths of the field list, the country list
      and every discovery group. */
  method ItemsCount(itemLists: ItemLists) returns (count: nat)
    ensures count == TotalItems(itemLists)
  {
    count := 0;
    count := count + |itemLists.field|;
    count := count + |itemLists.country|;
    var groups := itemLists.discovery;
    var sum := 0;
    for i := 0 to |groups|
      invariant sum == GroupSizes(groups[..i])
    {
      assert groups[..i + 1][..i] == groups[..i];
      sum := sum + |groups[i].items|;
    }
    assert groups[..|groups|] == groups;
    count := count + sum;
  }

  // Empty values

  function EmptyOptionsData(): (r: OptionsData)
    ensures r.coordinateSystems == [] && r.coordinateSystemsOptions == []
    ensures r.stratigraphicColumns == [] && r.stratigraphicColumnsOptions == []
  {
    OptionsData([], [], [], [])
  }

  /** `emptyItemLists`: no items, and either no discovery group or the one
      empty "none" group. */
  function EmptyItemLists(withDummyGroup: bool): (r: ItemLists)
    ensures TotalItems(r) == 0
    ensures GroupNames(r.discovery) == if withDummyGroup then [DummyGroupName] else []
  {
    var r := ItemLists([], [], if withDummyGroup then [Group(DummyGroupName, [])] else []);
    assert GroupSizes(r.discovery) == 0 by {
      if withDummyGroup {
        assert r.discovery[..0] == [];
      }
    }
    r
  }

  function EmptyFormMasterdataBase(): (r: ItemLists)
    ensures TotalItems(r) == 0 && r.discovery == []
  {
    ItemLists([], [], [])
  }

  /** `emptyFormMasterdataSub`: no countries, and either no discovery group
      or the one empty "none" group. The type has no field list. */
  function EmptyFormMasterdataSub(withDummyGroup: bool): (r: FormMasterdataSub)
    ensures r.country == []
    ensures GroupNames(r.discovery) == if withDummyGroup then [DummyGroupName] else []
    ensures forall g :: g in r.discovery ==> g.items == []
  {
    FormMasterdataSub([], if withDummyGroup then [Group(DummyGroupName, [])] else [])
  }

  /** `emptyFormMasterdataProject`: the empty base lists and empty options. */
  function EmptyFormMasterdataProject(): (r: FormMasterdataProject)
    ensures TotalItems(r.lists) == 0 && r.lists.discovery == []
    ensures r.options == EmptyOptionsData()
  {
    FormMasterdataProject(EmptyFormMasterdataBase(), EmptyOptionsData())
  }

  // Uuid lists

  lemma UuidInAppend(a: seq<IdentifierUuid>, b: seq<IdentifierUuid>)
    ensures forall u :: UuidIn(a + b, u) <==> UuidIn(a, u) || UuidIn(b, u)
  {
    forall u
      ensures UuidIn(a + b, u) <==> UuidIn(a, u) || UuidIn(b, u)
    {
      if UuidIn(a + b, u) {
        var i :| 0 <= i < |a + b| && (a + b)[i].uuid == u;
        if i >= |a| {
          assert b[i - |a|].uuid == u;
        }
      }
      if UuidIn(b, u) {
        var i :| 0 <= i < |b| && b[i].uuid == u;
        assert (a + b)[|a| + i].uuid == u;
      }
      if UuidIn(a, u) {
        var i :| 0 <= i < |a| && a[i].uuid == u;
        assert (a + b)[i].uuid == u;
      }
    }
  }

  lemma UuidInMember(s: seq<IdentifierUuid>, x: IdentifierUuid)
    requires x in s
    ensures UuidIn(s, x.uuid)
  {
    var i :| 0 <= i < |s| && s[i] == x;
  }

  /** Pushing an element whose uuid is new keeps the uuids unique. */
  lemma PushUnique(s: seq<IdentifierUuid>, x: IdentifierUuid)
    requires UniqueUuids(s) && !UuidIn(s, x.uuid)
    ensures UniqueUuids(s + [x])
  {
    forall i, j | 0 <= i < j < |s + [x]|
      ensures (s + [x])[i].uuid != (s + [x])[j].uuid
    {
      if j == |s| {
        assert s[i].uuid != x.uuid;
      }
    }
  }
}

=== FILE: model.dfy ===
/** The identifier/uuid values of SMDA masterdata and the empty masterdata,
    and the body of a failed HTTP response as the error handlers see it. */
module Model {
  import opened Common

  /** `error.response?.data` of a failed request: absent or falsy (no
      response, `undefined`, `""`), a JSON object with or without a
      `detail`, or a truthy primitive such as a non-empty text body, on
      which `"detail" in data` throws a `TypeError`. */
  datatype ResponseBody = NoBody | ObjectBody(detail: Option<string>) | PrimitiveBody

  /** A coordinate system, stratigraphic column, country, discovery or field:
      a display identifier and a uuid. (A discovery's `short_identifier`
      plays the part of its identifier.) */
  datatype IdentifierUuid = IdentifierUuid(identifier: string, uuid: string)

  datatype Smda = Smda(
    coordinateSystem: IdentifierUuid,
    country: seq<IdentifierUuid>,
    discovery: seq<IdentifierUuid>,
    field: seq<IdentifierUuid>,
    stratigraphicColumn: IdentifierUuid)

  /** The placeholder shown when no value is chosen. */
  function EmptyIdentifierUuid(): (r: IdentifierUuid)
    ensures r.identifier == "(none)"
    ensures r.uuid == "0"
  {
    IdentifierUuid("(none)", "0")
  }

  function EmptyMasterdata(): (m: Smda)
    ensures m.field == [] && m.country == [] && m.discovery == []
    ensures m.coordinateSystem == EmptyIdentifierUuid()
    ensures m.stratigraphicColumn == EmptyIdentifierUuid()
  {
    Smda(EmptyIdentifierUuid(), [], [], [], EmptyIdentifierUuid())
  }
}

=== FILE: project_service.dfy ===
/** The project query (`useProject`): how the outcome of fetching the
    project becomes the `{status, text, data}` record, and the notices shown
    when the polled lock status turns the project read-only or editable. */
module ProjectService {
  import opened Common
  import opened Model

  /** What the project fetch did: returned the project data, failed with an
      HTTP error (its status and the body of the response), or failed in
      some other way. */
  datatype FetchOutcome<D> =
    | Fetched(data: D)
    | HttpFailure(status: Option<int>, body: ResponseBody)
    | OtherFailure

  /** `{status, text?, data?}` */
  datatype GetProject<D> = GetProject(status: bool, text: Option<string>, data: Option<D>)

  /** The query either resolves with a record or rejects (the error is
      rethrown to the default handling). */
  datatype QueryResult<D> = Resolved(project: GetProject<D>) | Rejected

  const HttpStatusUnauthorized: int := 401

  function ProjectQueryResult<D>(outcome: FetchOutcome<D>): (r: QueryResult<D>)
    // success gives status true with the data
    ensures outcome.Fetched? ==> r == Resolved(GetProject(true, None, Some(outcome.data)))
    // an HTTP 401 is rethrown, and a primitive body makes the `in` test throw
    ensures r.Rejected? <==>
      outcome.HttpFailure? && (outcome.status == Some(HttpStatusUnauthorized) || outcome.body.PrimitiveBody?)
    // any other failure gives status false, no data, and the detail text or ""
    ensures r.Resolved? && !outcome.Fetched? ==>
      && !r.project.status
      && r.project.data.None?
      && r.project.text ==
        Some(if outcome.HttpFailure? && outcome.body.ObjectBody? && outcome.body.detail.Some?
             then outcome.body.detail.value else "")
  {
    match outcome
    case Fetched(data) => Resolved(GetProject(true, None, Some(data)))
    case HttpFailure(status, body) =>
      if status == Some(HttpStatusUnauthorized) then Rejected
      else
        (match body
         case NoBody => Resolved(GetProject(false, Some(""), None))
         case ObjectBody(detail) => Resolved(GetProject(false, Some(if detail.Some? then detail.value else ""), None))
         case PrimitiveBody => Rejected)
    case OtherFailure => Resolved(GetProject(false, Some(""), None))
  }

  /** The part of the lock status the notices depend on. */
  datatype LockStatus = LockStatus(isLockAcquired: bool)

  datatype Notice = NowReadOnly | NowEditable

  function NoticeText(n: Notice): string {
    match n
    case NowReadOnly => "Project is now read-only. It can be opened for editing from the project overview page"
    case NowEditable => "Project is now open for editing"
  }

  /** The notices shown after fetching `current`, given the lock status
      cached before the fetch (none on the first fetch). */
  function LockTransitionNotices(previous: Option<LockStatus>, current: LockStatus): (notices: seq<Notice>)
    ensures previous.None? ==> notices == []
    ensures NowReadOnly in notices <==>
      previous.Some? && previous.value.isLockAcquired && !current.isLockAcquired
    ensures NowEditable in notices <==>
      previous.Some? && !previous.value.isLockAcquired && current.isLockAcquired
    ensures |notices| <= 1
  {
    if previous.Some? then
      var currentIsReadOnly := !current.isLockAcquired;
      var previousIsReadOnly := !previous.value.isLockAcquired;
      (if currentIsReadOnly && !previousIsReadOnly then [NowReadOnly] else [])
      + (if !currentIsReadOnly && previousIsReadOnly then [NowEditable] else [])
    else
      []
  }

  /** Lock status polling runs only for a project that was fetched. */
  function LockPollingEnabled<D>(project: GetProject<D>): (enabled: bool)
    ensures enabled <==> project.status && project.data.Some?
  {
    project.status && project.data != None
  }

  /** The cached lock status and the notices shown so far. */
  class LockStatusQuery {
    var cached: Option<LockStatus>
    var toasts: seq<string>

    constructor()
      ensures cached == None && toasts == []
    {
      cached := None;
      toasts := [];
    }

    /** One run of the lock status query that fetched `data`: the notices
        for the transition from the cached status are shown, and `data`
        becomes the cached status. */
    method Fetch(data: LockStatus) returns (r: LockStatus)
      modifies this
      ensures r == data
      ensures cached == Some(data)
      ensures toasts == old(toasts) + NoticeTexts(LockTransitionNotices(old(cached), data))
    {
      var previous := cached;
      if previous.Some? {
        var currentIsReadOnly := !data.isLockAcquired;
        var previousIsReadOnly := !previous.value.isLockAcquired;
        if currentIsReadOnly && !previousIsReadOnly {
          toasts := toasts + [NoticeText(NowReadOnly)];
        }
        if !currentIsReadOnly && previousIsReadOnly {
          toasts := toasts + [NoticeText(NowEditable)];
        }
      }
      cached := Some(data);
      r := data;
    }
  }

  function NoticeTexts(notices: seq<Notice>): (texts: seq<string>)
    ensures |texts| == |notices|
    ensures forall i :: 0 <= i < |notices| ==> texts[i] == NoticeText(notices[i])
  {
    if notices == [] then [] else [NoticeText(notices[0])] + NoticeTexts(notices[1..])
  }
}

=== FILE: project_status.dfy ===
/** The project status panel: three configuration checks, the overall
    variant and header text, and the order of the rows of the checks table. */
module ProjectStatus {
  import opened Common
  import opened Sorting

  datatype Status = Success | Warning | Error

  datatype StatusCheck = StatusCheck(description: string, status: Status)

  /** Whether each configuration section is set (truthy). */
  datatype ProjectConfig = ProjectConfig(masterdata: bool, access: bool, model: bool)

  function PresenceText(present: bool): string {
    if present then "present" else "missing"
  }

  function CheckFor(subject: string, present: bool): (c: StatusCheck)
    ensures c.status == Success <==> present
    ensures c.status == Error <==> !present
  {
    StatusCheck(subject + " is " + PresenceText(present), if present then Success else Error)
  }

  /** `doProjectStatusChecks` */
  function DoProjectStatusChecks(config: ProjectConfig): (checks: seq<StatusCheck>)
    ensures |checks| == 3
    ensures checks[0].description == "Masterdata is " + PresenceText(config.masterdata)
    ensures checks[1].description == "Access information is " + PresenceText(config.access)
    ensures checks[2].description == "Model information is " + PresenceText(config.model)
    ensures checks[0].status == Success <==> config.masterdata
    ensures checks[1].status == Success <==> config.access
    ensures checks[2].status == Success <==> config.model
    ensures forall i :: 0 <= i < |checks| ==> checks[i].status != Warning
  {
    [CheckFor("Masterdata", config.masterdata),
     CheckFor("Access information", config.access),
     CheckFor("Model information", config.model)]
  }

  /** `checks.some((check) => check.status === status)` */
  function HasStatus(checks: seq<StatusCheck>, status: Status): (r: bool)
    ensures r <==> exists i :: 0 <= i < |checks| && checks[i].status == status
  {
    if checks == [] then false else checks[0].status == status || HasStatus(checks[1..], status)
  }

  /** The overall variant: the most severe status present. */
  function Variant(checks: seq<StatusCheck>): (v: Status)
    ensures v == Error <==> exists i :: 0 <= i < |checks| && checks[i].status == Error
    ensures v == Warning <==>
      (forall i :: 0 <= i < |checks| ==> checks[i].status != Error)
      && exists i :: 0 <= i < |checks| && checks[i].status == Warning
    ensures v == Success <==> forall i :: 0 <= i < |checks| ==> checks[i].status == Success
  {
    var hasError := HasStatus(checks, Error);
    var hasWarning := HasStatus(checks, Warning);
    if hasError then Error else if hasWarning then Warning else Success
  }

  function HeaderText(checks: seq<StatusCheck>): string {
    var hasError := HasStatus(checks, Error);
    var hasWarning := HasStatus(checks, Warning);
    if hasError then "Some checks need attention"
    else if hasWarning then "Some checks may require review"
    else "All checks passed"
  }

  /** The header text and the variant are chosen by the same conditions. */
  lemma HeaderMatchesVariant(checks: seq<StatusCheck>)
    ensures Variant(checks) == Error ==> HeaderText(checks) == "Some checks need attention"
    ensures Variant(checks) == Warning ==> HeaderText(checks) == "Some checks may require review"
    ensures Variant(checks) == Success ==> HeaderText(checks) == "All checks passed"
  {
  }

  /** The project checks never give a warning: the variant is an error
      exactly when some section is missing. */
  lemma ProjectVariant(config: ProjectConfig)
    ensures Variant(DoProjectStatusChecks(config)) != Warning
    ensures Variant(DoProjectStatusChecks(config)) == Success <==>
      config.masterdata && config.access && config.model
  {
    var checks := DoProjectStatusChecks(config);
    assert checks[0].status == Success <==> config.masterdata;
  }

  /** `order.indexOf(status)` with `order = ["error", "warning", "success"]` */
  function Rank(status: Status): int {
    match status
    case Error => 0
    case Warning => 1
    case Success => 2
  }

  function RankOf(check: StatusCheck): int {
    Rank(check.status)
  }

  function Shown(detailed: bool): StatusCheck -> bool {
    (check: StatusCheck) => detailed || check.status != Success
  }

  /** The rows of the checks table: hidden success checks dropped, then
      errors first, warnings next, successes last. */
  function StatusInfoRows(checks: seq<StatusCheck>, detailed: bool): (rows: seq<StatusCheck>)
    ensures forall c :: c in rows <==> c in checks && (detailed || c.status != Success)
    ensures forall i, j :: 0 <= i < j < |rows| ==> Rank(rows[i].status) <= Rank(rows[j].status)
  {
    var shown := Filter(checks, Shown(detailed));
    FilterMembers(checks, Shown(detailed));
    var rows := SortByKey(shown, RankOf);
    SortByKeySorted(shown, RankOf);
    assert forall c :: c in rows <==> c in multiset(rows);
    assert forall c :: c in shown <==> c in multiset(shown);
    rows
  }

  function HasRank(k: int): StatusCheck -> bool {
    (check: StatusCheck) => RankOf(check) == k
  }

  /** Rows of one status keep the order of the checks. */
  lemma StatusInfoRowsStable(checks: seq<StatusCheck>, detailed: bool, status: Status)
    ensures Filter(StatusInfoRows(checks, detailed), HasRank(Rank(status)))
         == Filter(Filter(checks, Shown(detailed)), HasRank(Rank(status)))
  {
    SortByKeyStable(Filter(checks, Shown(detailed)), RankOf, HasRank(Rank(status)));
  }
}

=== FILE: query_retry.dfy ===
/** The retry decision for failed mutations (`mutationRetry`): a request that
    failed for missing API authorisation is retried once, so that the
    authorisation can be refreshed in between; nothing else is retried. */
module QueryRetry {
  import opened Common

  /** Response headers, as far as they are passed on to `isExternalApi`. */
  type Headers = map<string, string>

  /** The error a mutation failed with: an HTTP client (axios) error carries
      the response status, the request URL and the response headers, each of
      which may be absent; any other error carries only a message. */
  datatype MutationError =
    | HttpError(status: Option<int>, url: Option<string>, headers: Option<Headers>)
    | OtherError(message: string)

  predicate IsUnauthorized(error: MutationError) {
    error.HttpError? && error.status == Some(401)
  }

  /** `isApiUrlSession` and `isExternalApi` are not part of this model; they
      are passed in as uninterpreted predicates. */
  function MutationRetry(
    failureCount: int,
    error: MutationError,
    isApiUrlSession: Option<string> -> bool,
    isExternalApi: Option<Headers> -> bool
  ): (retry: bool)
    // at most one retry
    ensures retry ==> failureCount < 1
    // only a 401 is ever retried
    ensures !IsUnauthorized(error) ==> !retry
    // a failed session creation is not retried, nor is a 401 from an external API
    ensures IsUnauthorized(error) && isApiUrlSession(error.url) ==> !retry
    ensures IsUnauthorized(error) && isExternalApi(error.headers) ==> !retry
    // the first failure of any other 401 is retried
    ensures (IsUnauthorized(error) && !isApiUrlSession(error.url) && !isExternalApi(error.headers)
             && failureCount < 1) ==> retry
  {
    if IsUnauthorized(error) && !(isApiUrlSession(error.url) || isExternalApi(error.headers)) then
      failureCount < 1
    else
      false
  }
}

=== FILE: rms_utils.dfy ===
/** Name-based helpers for the RMS stratigraphy form: lookup by name,
    ordering by a reference list, the names missing from a reference, and
    the handlers that add and remove horizons or zones by name while
    keeping the order of the available RMS list. */
module RmsUtils {
  import opened Common
  import opened Sorting

  /** A horizon or a zone of an RMS project (`ItemType`). */
  datatype Item =
    | Horizon(name: string, horizonType: string)
    | Zone(name: string, topHorizonName: string, baseHorizonName: string)

  /** An item known to be a zone. */
  type ZoneItem = z: Item | z.Zone? witness Zone("", "", "")

  /** The names of the items, in order. */
  function Names(items: seq<Item>): (names: seq<string>)
    ensures |names| == |items|
    ensures forall i :: 0 <= i < |items| ==> names[i] == items[i].name
  {
    seq(|items|, (i: int) requires 0 <= i < |items| => items[i].name)
  }

  /** A name is in `Names(items)` exactly when some item carries it. */
  lemma NamesIn(items: seq<Item>)
    ensures forall n :: n in Names(items) <==> exists z :: z in items && z.name == n
  {
    forall n
      ensures n in Names(items) <==> exists z :: z in items && z.name == n
    {
      if n in Names(items) {
        var i :| 0 <= i < |items| && Names(items)[i] == n;
        assert items[i] in items;
      }
      if exists z :: z in items && z.name == n {
        var z :| z in items && z.name == n;
        var i :| 0 <= i < |items| && items[i] == z;
        assert Names(items)[i] == n;
      }
    }
  }

  /** `findIndexByName`: the position of the first item with that name, or -1. */
  function FindIndexByName(items: seq<Item>, name: string): (idx: int)
    ensures -1 <= idx < |items|
    ensures idx >= 0 ==> items[idx].name == name
    ensures forall j :: 0 <= j < |items| && (idx < 0 || j < idx) ==> items[j].name != name
    ensures idx < 0 <==> name !in Names(items)
  {
    if items == [] then -1
    else if items[0].name == name then 0
    else
      var k := FindIndexByName(items[1..], name);
      assert Names(items) == [items[0].name] + Names(items[1..]);
      if k < 0 then -1 else k + 1
  }

  /** The sort key of an item: its position in the reference list, -1 when
      it is not there. */
  function ReferenceIndex(referenceList: seq<Item>): Item -> int {
    (item: Item) => FindIndexByName(referenceList, item.name)
  }

  /** `sortByOrderInReferenceList` */
  function SortByOrderInReferenceList(items: seq<Item>, referenceList: seq<Item>): (r: seq<Item>)
    ensures multiset(r) == multiset(items)
  {
    SortByKey(items, ReferenceIndex(referenceList))
  }

  /** The result follows the reference order; items absent from the
      reference come first. */
  lemma SortByOrderInReferenceListSorted(items: seq<Item>, referenceList: seq<Item>)
    ensures forall i, j :: 0 <= i < j < |SortByOrderInReferenceList(items, referenceList)| ==>
      FindIndexByName(referenceList, SortByOrderInReferenceList(items, referenceList)[i].name)
        <= FindIndexByName(referenceList, SortByOrderInReferenceList(items, referenceList)[j].name)
  {
    SortByKeySorted(items, ReferenceIndex(referenceList));
  }

  /** The test `namesNotInReference` filters by: no reference item has
      the item's name. */
  function NotInReference(referenceList: seq<Item>): Item -> bool {
    (item: Item) => FindIndexByName(referenceList, item.name) < 0
  }

  /** `namesNotInReference`: in order, the names of the items that no
      reference item carries. */
  function NamesNotInReference(items: seq<Item>, referenceList: seq<Item>): (names: seq<string>)
    ensures |names| <= |items|
    ensures forall n :: n in names <==> n in Names(items) && n !in Names(referenceList)
  {
    var kept := Filter(items, NotInReference(referenceList));
    FilterMembers(items, NotInReference(referenceList));
    NamesIn(kept);
    NamesIn(items);
    Names(kept)
  }

  /** `new Map(available.map(item => [item.name, item])).get(name)`: the
      last available item with that name. */
  function LastByName(available: seq<Item>, name: string): (r: Option<Item>)
    ensures r.Some? ==> r.value in available && r.value.name == name
    ensures r.None? <==> name !in Names(available)
  {
    if available == [] then None
    else
      var last := available[|available| - 1];
      assert Names(available) == Names(available[..|available| - 1]) + [last.name];
      if last.name == name then Some(last) else LastByName(available[..|available| - 1], name)
  }

  /** The items `addItems` appends: for each requested name not yet in the
      project, the available item of that name, if there is one. */
  function ItemsToAdd(projectItems: seq<Item>, available: seq<Item>, names: seq<string>): (r: seq<Item>)
    ensures forall x :: x in r ==> x in available && x.name in names && x.name !in Names(projectItems)
    ensures forall n :: n in names && n !in Names(projectItems) && n in Names(available) ==> n in Names(r)
  {
    if names == [] then []
    else
      var rest := ItemsToAdd(projectItems, available, names[1..]);
      var found := if names[0] !in Names(projectItems) then LastByName(available, names[0]) else None;
      var r := (if found.Some? then [found.value] else []) + rest;
      assert Names(r) == (if found.Some? then [found.value.name] else []) + Names(rest);
      r
  }

  /** The field after `addItems`: unchanged when nothing is new, else the
      old and the new items in the available order. */
  function AddedField(projectItems: seq<Item>, available: seq<Item>, names: seq<string>): seq<Item> {
    var added := ItemsToAdd(projectItems, available, names);
    if |added| > 0 then SortByOrderInReferenceList(projectItems + added, available) else projectItems
  }

  /** The project items whose names are not among `names`, in order. */
  function WithoutNames(projectItems: seq<Item>, names: seq<string>): (r: seq<Item>)
    ensures |r| <= |projectItems|
    ensures forall x :: x in r <==> x in projectItems && x.name !in names
  {
    FilterMembers(projectItems, (item: Item) => item.name !in names);
    Filter(projectItems, (item: Item) => item.name !in names)
  }

  lemma NamesOfMultiset(a: seq<Item>, b: seq<Item>, n: string)
    requires multiset(a) == multiset(b)
    ensures n in Names(a) <==> n in Names(b)
  {
    if n in Names(a) {
      var i :| 0 <= i < |a| && a[i].name == n;
      assert a[i] in multiset(b);
      var k :| 0 <= k < |b| && b[k] == a[i];
    }
    if n in Names(b) {
      var i :| 0 <= i < |b| && b[i].name == n;
      assert b[i] in multiset(a);
      var k :| 0 <= k < |a| && a[k] == b[i];
    }
  }

  /** Which list of the framework a handler works on. */
  datatype ItemKind = Horizons | Zones

  /** The two list fields of the stratigraphy form. */
  class StratigraphyForm {
    var horizons: seq<Item>
    var zones: seq<Item>

    constructor(projectHorizons: seq<Item>, projectZones: seq<Item>)
      ensures horizons == projectHorizons && zones == projectZones
    {
      horizons := projectHorizons;
      zones := projectZones;
    }

    function Field(kind: ItemKind): seq<Item>
      reads this
    {
      if kind == Horizons then horizons else zones
    }

    /** `addItems`: the requested names that are new and available are
        appended and the list is put in the available order; the field is
        written only when something is added. */
    method AddItems(kind: ItemKind, names: seq<string>, available: seq<Item>)
      modifies this
      ensures Field(kind) == AddedField(old(Field(kind)), available, names)
      ensures kind == Horizons ==> zones == old(zones)
      ensures kind == Zones ==> horizons == old(horizons)
    {
      var projectItems := if kind == Horizons then horizons else zones;
      var itemsToAdd := ItemsToAdd(projectItems, available, names);
      if |itemsToAdd| > 0 {
        var updated := SortByOrderInReferenceList(projectItems + itemsToAdd, available);
        if kind == Horizons {
          horizons := updated;
        } else {
          zones := updated;
        }
      }
    }

    /** `removeItems`: the field keeps, in order, the items whose name is
        not requested. */
    method RemoveItems(kind: ItemKind, names: seq<string>)
      modifies this
      ensures Field(kind) == WithoutNames(old(Field(kind)), names)
      ensures kind == Horizons ==> zones == old(zones)
      ensures kind == Zones ==> horizons == old(horizons)
    {
      if kind == Horizons {
        horizons := WithoutNames(horizons, names);
      } else {
        zones := WithoutNames(zones, names);
      }
    }

    method RemoveAll()
      modifies this
      ensures horizons == [] && zones == []
    {
      horizons := [];
      zones := [];
    }

    method AddAll(availableHorizons: seq<Item>, availableZones: seq<Item>)
      modifies this
      ensures horizons == availableHorizons && zones == availableZones
    {
      horizons := availableHorizons;
      zones := availableZones;
    }
  }

  /** After `addItems`, every requested name that is available is in the
      field, and every name that was there still is. */
  lemma AddItemsCovers(projectItems: seq<Item>, available: seq<Item>, names: seq<string>, n: string)
    requires n in Names(projectItems) || (n in names && n in Names(available))
    ensures n in Names(AddedField(projectItems, available, names))
  {
    var added := ItemsToAdd(projectItems, available, names);
    var all := projectItems + added;
    assert Names(all) == Names(projectItems) + Names(added);
    if |added| > 0 {
      NamesOfMultiset(all, SortByOrderInReferenceList(all, available), n);
    }
  }

  /** After `addItems`, the field holds exactly the items that were there
      plus available items of requested names. */
  lemma AddItemsOnlyRequested(projectItems: seq<Item>, available: seq<Item>, names: seq<string>, x: Item)
    ensures x in AddedField(projectItems, available, names) ==>
      x in projectItems || (x in available && x.name in names)
  {
    var added := ItemsToAdd(projectItems, available, names);
    if |added| > 0 {
      var r := SortByOrderInReferenceList(projectItems + added, available);
      if x in r {
        assert x in multiset(projectItems + added);
      }
    }
  }

  /** When `addItems` writes, the field follows the available order. */
  lemma AddItemsOrdered(projectItems: seq<Item>, available: seq<Item>, names: seq<string>)
    requires |ItemsToAdd(projectItems, available, names)| > 0
    ensures var r := AddedField(projectItems, available, names);
      forall i, j :: 0 <= i < j < |r| ==> FindIndexByName(available, r[i].name) <= FindIndexByName(available, r[j].name)
  {
    SortByOrderInReferenceListSorted(projectItems + ItemsToAdd(projectItems, available, names), available);
  }
}

=== FILE: sorting.dfy ===
/** `Array.prototype.sort` with a comparator, modelled as a stable insertion
    sort over a "comes no later than" relation `leq`. The JavaScript engine's
    own algorithm is not modelled; what callers rely on is stated as lemmas:
    the result is a permutation, it is sorted when `leq` is a total preorder,
    and it is stable (equivalent elements keep their relative order). */
module Sorting {
  import opened Common

  ghost predicate TotalPreorder<T(!new)>(leq: (T, T) -> bool) {
    && (forall a, b :: leq(a, b) || leq(b, a))
    && (forall a, b, c :: leq(a, b) && leq(b, c) ==> leq(a, c))
  }

  ghost predicate SortedBy<T>(s: seq<T>, leq: (T, T) -> bool) {
    forall i, j :: 0 <= i < j < |s| ==> leq(s[i], s[j])
  }

  /** Places `x` before the first element it may precede. */
  function Insert<T>(x: T, s: seq<T>, leq: (T, T) -> bool): (r: seq<T>)
    ensures multiset(r) == multiset(s) + multiset{x}
    ensures |r| == |s| + 1
  {
    if s == [] then [x]
    else if leq(x, s[0]) then [x] + s
    else
      assert s == [s[0]] + s[1..];
      [s[0]] + Insert(x, s[1..], leq)
  }

  function SortBy<T>(s: seq<T>, leq: (T, T) -> bool): (r: seq<T>)
    ensures multiset(r) == multiset(s)
    ensures |r| == |s|
  {
    if s == [] then []
    else
      assert s == [s[0]] + s[1..];
      Insert(s[0], SortBy(s[1..], leq), leq)
  }

  lemma {:induction false} InsertSorted<T(!new)>(x: T, s: seq<T>, leq: (T, T) -> bool)
    requires TotalPreorder(leq)
    requires SortedBy(s, leq)
    ensures SortedBy(Insert(x, s, leq), leq)
  {
    if s != [] && !leq(x, s[0]) {
      var rest := Insert(x, s[1..], leq);
      InsertSorted(x, s[1..], leq);
      assert leq(s[0], x);
      forall y | y in rest
        ensures leq(s[0], y)
      {
        assert y in multiset(rest);
        if y != x {
          assert y in multiset(s[1..]);
        }
      }
    }
  }

  /** The result is sorted whenever `leq` is a total preorder. */
  lemma {:induction false} SortBySorted<T(!new)>(s: seq<T>, leq: (T, T) -> bool)
    requires TotalPreorder(leq)
    ensures SortedBy(SortBy(s, leq), leq)
  {
    if s != [] {
      SortBySorted(s[1..], leq);
      InsertSorted(s[0], SortBy(s[1..], leq), leq);
    }
  }

  lemma {:induction false} FilterCons<T>(x: T, s: seq<T>, p: T -> bool)
    ensures Filter([x] + s, p) == (if p(x) then [x] else []) + Filter(s, p)
  {
    FilterConcat([x], s, p);
    assert Filter([x], p) == (if p(x) then [x] else []) by {
      assert [x][..0] == [];
    }
  }

  lemma {:induction false} InsertFilter<T>(x: T, s: seq<T>, leq: (T, T) -> bool, p: T -> bool)
    requires forall a, b :: p(a) && p(b) ==> leq(a, b)
    ensures Filter(Insert(x, s, leq), p) == (if p(x) then [x] else []) + Filter(s, p)
  {
    if s == [] {
      FilterCons(x, s, p);
    } else if leq(x, s[0]) {
      FilterCons(x, s, p);
    } else {
      var rest := Insert(x, s[1..], leq);
      assert Insert(x, s, leq) == [s[0]] + rest;
      assert s == [s[0]] + s[1..];
      InsertFilter(x, s[1..], leq, p);
      assert !(p(x) && p(s[0]));
      FilterPastHead(x, s[0], s[1..], rest, p);
    }
  }

  /** Moving `x` past a head `y` of which at most one of the two passes `p`
      does not change what the filter keeps. */
  lemma {:induction false} FilterPastHead<T>(x: T, y: T, t: seq<T>, rest: seq<T>, p: T -> bool)
    requires !(p(x) && p(y))
    requires Filter(rest, p) == (if p(x) then [x] else []) + Filter(t, p)
    ensures Filter([y] + rest, p) == (if p(x) then [x] else []) + Filter([y] + t, p)
  {
    FilterCons(y, rest, p);
    FilterCons(y, t, p);
    SwapEmptyHead(if p(y) then [y] else [], if p(x) then [x] else [], Filter(t, p));
  }

  lemma SwapEmptyHead<T>(a: seq<T>, b: seq<T>, f: seq<T>)
    requires a == [] || b == []
    ensures a + (b + f) == b + (a + f)
  {
  }

  /** Stability: the elements of one class of mutually equivalent elements
      appear in the result in their original order. */
  lemma {:induction false} SortByStable<T>(s: seq<T>, leq: (T, T) -> bool, p: T -> bool)
    requires forall a, b :: p(a) && p(b) ==> leq(a, b)
    ensures Filter(SortBy(s, leq), p) == Filter(s, p)
  {
    if s != [] {
      SortByStable(s[1..], leq, p);
      InsertFilter(s[0], SortBy(s[1..], leq), leq, p);
      FilterCons(s[0], s[1..], p);
      assert s == [s[0]] + s[1..];
    }
  }

  /** A sort by an integer key (`(a, b) => key(a) - key(b)`). */
  function SortByKey<T>(s: seq<T>, key: T -> int): (r: seq<T>)
    ensures multiset(r) == multiset(s)
  {
    SortBy(s, (a: T, b: T) => key(a) <= key(b))
  }

  lemma SortByKeySorted<T(!new)>(s: seq<T>, key: T -> int)
    ensures forall i, j :: 0 <= i < j < |SortByKey(s, key)| ==>
      key(SortByKey(s, key)[i]) <= key(SortByKey(s, key)[j])
  {
    var leq := (a: T, b: T) => key(a) <= key(b);
    SortBySorted(s, leq);
  }

  /** Stability of a sort by key: elements picked out by any `p` under
      which all keys are equal keep their relative order. */
  lemma SortByKeyStable<T>(s: seq<T>, key: T -> int, p: T -> bool)
    requires forall a, b :: p(a) && p(b) ==> key(a) == key(b)
    ensures Filter(SortByKey(s, key), p) == Filter(s, p)
  {
    SortByStable(s, (a: T, b: T) => key(a) <= key(b), p);
  }
}

=== FILE: strat_framework.dfy ===
/** Layout of the stratigraphic framework chart: each zone spans the rows
    of the horizons from its top to its base, and zones are packed into
    columns greedily, shortest first, so that no two zones in one column
    share a horizon row. */
module StratFramework {
  import opened Common
  import opened Sorting
  import opened RmsUtils

  /** Where a zone is drawn: the horizon rows it covers, its first and last
      row, and its column. */
  datatype ZonePlacementInfo = ZonePlacementInfo(horizonIndices: seq<int>, rowStart: int, rowEnd: int, gridColumn: int)

  const DefaultColumn: int := 1

  /** The horizon rows of a placement, as a set. */
  function IndexSet(info: ZonePlacementInfo): set<int> {
    set x | x in info.horizonIndices
  }

  /** `info` is what the first pass builds for `zone` (before columns). */
  ghost predicate Describes(info: ZonePlacementInfo, zone: ZoneItem, horizons: seq<Item>) {
    && info.rowStart == FindIndexByName(horizons, zone.topHorizonName)
    && info.rowEnd == FindIndexByName(horizons, zone.baseHorizonName)
    && (forall x :: x in info.horizonIndices <==> info.rowStart <= x < info.rowEnd)
  }

  /** The rows from `top` up to, not including, `base`. */
  method HorizonIndices(top: int, base: int) returns (indices: seq<int>)
    ensures |indices| == if top < base then base - top else 0
    ensures forall k :: 0 <= k < |indices| ==> indices[k] == top + k
    ensures forall x :: x in indices <==> top <= x < base
  {
    indices := [];
    var i := top;
    while i < base
      invariant top <= i && (i <= base || i == top)
      invariant |indices| == i - top
      invariant forall k :: 0 <= k < |indices| ==> indices[k] == top + k
    {
      indices := indices + [i];
      i := i + 1;
    }
    forall x | top <= x < base
      ensures x in indices
    {
      assert indices[x - top] == x;
    }
  }

  /** The last zone of that name: the one whose placement the map keeps. */
  ghost predicate IsLastOfName(zones: seq<ZoneItem>, i: int, n: int) {
    0 <= i < n <= |zones| && forall i' :: i < i' < n ==> zones[i'].name != zones[i].name
  }

  ghost predicate Distinct<T>(s: seq<T>) {
    forall a, b :: 0 <= a < b < |s| ==> s[a] != s[b]
  }

  /** The first pass: one placement per zone name, in column 1; a later zone
      of the same name replaces the earlier one's placement but keeps its
      key's position. */
  method InitialPlacement(zones: seq<ZoneItem>, horizons: seq<Item>)
    returns (placement: map<string, ZonePlacementInfo>, keys: seq<string>)
    ensures Distinct(keys)
    ensures forall k :: k in placement <==> k in keys
    ensures forall k :: k in keys <==> k in Names(zones)
    ensures |keys| <= |zones|
    ensures forall k :: k in placement ==> placement[k].gridColumn == DefaultColumn
    ensures LastDescribed(zones, horizons, placement, |zones|)
  {
    placement := map[];
    keys := [];
    var j := 0;
    while j < |zones|
      invariant 0 <= j <= |zones|
      invariant Distinct(keys)
      invariant forall k :: k in placement <==> k in keys
      invariant forall k :: k in keys <==> k in Names(zones[..j])
      invariant |keys| <= j
      invariant forall k :: k in placement ==> placement[k].gridColumn == DefaultColumn
      invariant LastDescribed(zones, horizons, placement, j)
    {
      var zone := zones[j];
      var top := FindIndexByName(horizons, zone.topHorizonName);
      var base := FindIndexByName(horizons, zone.baseHorizonName);
      var horizonIndices := HorizonIndices(top, base);
      assert Names(zones[..j + 1]) == Names(zones[..j]) + [zone.name];
      if zone.name !in placement {
        keys := keys + [zone.name];
      }
      var info := ZonePlacementInfo(horizonIndices, top, base, DefaultColumn);
      LastOfNameStep(zones, horizons, j, placement, info);
      placement := placement[zone.name := info];
      j := j + 1;
    }
    assert zones[..j] == zones;
  }

  /** Each name's last zone among the first `n` has its placement. */
  ghost predicate LastDescribed(zones: seq<ZoneItem>, horizons: seq<Item>, placement: map<string, ZonePlacementInfo>, n: int) {
    forall i :: IsLastOfName(zones, i, n) ==> zones[i].name in placement && Describes(placement[zones[i].name], zones[i], horizons)
  }

  lemma LastOfNameStep(zones: seq<ZoneItem>, horizons: seq<Item>, j: int,
                       placement: map<string, ZonePlacementInfo>, info: ZonePlacementInfo)
    requires 0 <= j < |zones|
    requires Describes(info, zones[j], horizons)
    requires LastDescribed(zones, horizons, placement, j)
    ensures LastDescribed(zones, horizons, placement[zones[j].name := info], j + 1)
  {
    var placement' := placement[zones[j].name := info];
    forall i | IsLastOfName(zones, i, j + 1)
      ensures zones[i].name in placement' && Describes(placement'[zones[i].name], zones[i], horizons)
    {
      if i < j {
        assert IsLastOfName(zones, i, j);
        assert zones[i].name != zones[j].name;
      }
    }
  }

  /** Column `c` already holds one of `indices`. */
  predicate Overlaps(occupancy: map<int, set<int>>, c: int, indices: seq<int>) {
    c in occupancy && exists x :: x in indices && x in occupancy[c]
  }

  /** `{1, …, n}` inside `s` means `s` has at least `n` elements. */
  lemma {:induction false} RangeSubsetCard(n: nat, s: set<int>)
    requires forall c :: 1 <= c <= n ==> c in s
    ensures n <= |s|
  {
    if n > 0 {
      RangeSubsetCard(n - 1, s - {n});
    }
  }

  /** The `while (!foundColumn)` search: the first column from 1 on whose
      occupied rows miss `indices`; it then takes those rows. The ghost
      `used` holds every column that has any row taken. */
  method PlaceInColumn(occupancy: map<int, set<int>>, indices: seq<int>, ghost used: set<int>)
    returns (column: int, newOccupancy: map<int, set<int>>)
    requires forall c, x :: c in occupancy && x in occupancy[c] ==> c in used
    ensures 1 <= column <= |used| + 1
    ensures forall c :: 1 <= c < column ==> Overlaps(occupancy, c, indices)
    ensures !Overlaps(occupancy, column, indices)
    ensures newOccupancy == occupancy[column := (if column in occupancy then occupancy[column] else {}) + set x | x in indices]
  {
    var occ := occupancy;
    var gridColumn := DefaultColumn;
    var foundColumn := false;
    column := gridColumn;
    while !foundColumn
      invariant 1 <= gridColumn <= |used| + 1
      invariant forall c :: 1 <= c < gridColumn ==> Overlaps(occupancy, c, indices)
      invariant !foundColumn ==> occ == occupancy
      invariant foundColumn ==> column == gridColumn && !Overlaps(occupancy, column, indices)
      invariant foundColumn ==> occ == occupancy[column := (if column in occupancy then occupancy[column] else {}) + set x | x in indices]
      decreases if foundColumn then 0 else 1, |used| + 1 - gridColumn
    {
      if gridColumn !in occ {
        occ := occ[gridColumn := {}];
      }
      var occupied := occ[gridColumn];
      var hasOverlap := exists x :: x in indices && x in occupied;
      if !hasOverlap {
        occ := occ[gridColumn := occupied + set x | x in indices];
        column := gridColumn;
        foundColumn := true;
      } else {
        forall c | 1 <= c <= gridColumn
          ensures c in used
        {
          if c < gridColumn {
            assert Overlaps(occupancy, c, indices);
          }
          var x :| x in indices && x in occupancy[c];
        }
        RangeSubsetCard(gridColumn, used);
        gridColumn := gridColumn + 1;
      }
    }
    newOccupancy := occ;
  }

  // ---- the state of the second pass, over the zones in placement order ----

  /** Each placed zone's rows are taken in its column, and every taken row
      belongs to a placed zone of that column. */
  ghost predicate OccupancyMatches(occupancy: map<int, set<int>>, rows: seq<set<int>>, cols: seq<int>)
    requires |cols| <= |rows|
  {
    && (forall i :: 0 <= i < |cols| ==> cols[i] in occupancy && rows[i] <= occupancy[cols[i]])
    && (forall c, x :: c in occupancy && x in occupancy[c] ==> exists i :: 0 <= i < |cols| && cols[i] == c && x in rows[i])
  }

  /** No two placed zones in one column share a row. */
  ghost predicate NoSharedRows(rows: seq<set<int>>, cols: seq<int>)
    requires |cols| <= |rows|
  {
    forall a, b :: 0 <= a < |cols| && 0 <= b < |cols| && a != b && cols[a] == cols[b] ==> rows[a] * rows[b] == {}
  }

  /** Column `c` was blocked for zone `i` by an earlier zone sharing a row. */
  ghost predicate Blocked(rows: seq<set<int>>, cols: seq<int>, i: int, c: int)
    requires 0 <= i < |cols| <= |rows|
  {
    exists a :: 0 <= a < i && cols[a] == c && rows[a] * rows[i] != {}
  }

  /** Every zone sits in the first column that was free for it. */
  ghost predicate Greedy(rows: seq<set<int>>, cols: seq<int>)
    requires |cols| <= |rows|
  {
    forall i, c :: 0 <= i < |cols| && 1 <= c < cols[i] ==> Blocked(rows, cols, i, c)
  }

  lemma {:induction false} SetOfSeqCard(s: seq<int>)
    ensures |set x | x in s| <= |s|
  {
    if s != [] {
      var init := s[..|s| - 1];
      SetOfSeqCard(init);
      assert (set x | x in s) == (set x | x in init) + {s[|s| - 1]};
    }
  }

  /** Placing zone `j` in `column` keeps the three properties. */
  lemma PlaceStep(occupancy: map<int, set<int>>, rows: seq<set<int>>, cols: seq<int>, indices: seq<int>,
                  column: int, newOccupancy: map<int, set<int>>)
    requires |cols| < |rows| && rows[|cols|] == set x | x in indices
    requires OccupancyMatches(occupancy, rows, cols) && NoSharedRows(rows, cols) && Greedy(rows, cols)
    requires 1 <= column
    requires forall c :: 1 <= c < column ==> Overlaps(occupancy, c, indices)
    requires !Overlaps(occupancy, column, indices)
    requires newOccupancy == occupancy[column := (if column in occupancy then occupancy[column] else {}) + set x | x in indices]
    ensures OccupancyMatches(newOccupancy, rows, cols + [column])
    ensures NoSharedRows(rows, cols + [column])
    ensures Greedy(rows, cols + [column])
  {
    var j := |cols|;
    var cols' := cols + [column];
    forall c, x | c in newOccupancy && x in newOccupancy[c]
      ensures exists i :: 0 <= i < |cols'| && cols'[i] == c && x in rows[i]
    {
      if c == column && x in rows[j] {
        assert cols'[j] == c;
      } else {
        assert c in occupancy && x in occupancy[c];
        var i :| 0 <= i < |cols| && cols[i] == c && x in rows[i];
        assert cols'[i] == c;
      }
    }
    forall i | 0 <= i < |cols'|
      ensures cols'[i] in newOccupancy && rows[i] <= newOccupancy[cols'[i]]
    {
      if i < j {
        assert cols'[i] == cols[i];
      }
    }
    forall a, b | 0 <= a < |cols'| && 0 <= b < |cols'| && a != b && cols'[a] == cols'[b]
      ensures rows[a] * rows[b] == {}
    {
      if a < j && b < j {
        assert cols[a] == cols[b];
      } else {
        var other := if a < j then a else b;
        assert cols'[other] == cols[other] == column;
        assert rows[other] <= occupancy[column];
        forall x | x in rows[j]
          ensures x !in rows[other]
        {
          assert x in indices;
        }
        assert rows[other] * rows[j] == {};
        assert rows[a] * rows[b] == rows[other] * rows[j];
      }
    }
    forall i, c | 0 <= i < |cols'| && 1 <= c < cols'[i]
      ensures Blocked(rows, cols', i, c)
    {
      if i < j {
        assert Blocked(rows, cols, i, c);
        var a :| 0 <= a < i && cols[a] == c && rows[a] * rows[i] != {};
        assert cols'[a] == c;
      } else {
        assert Overlaps(occupancy, c, indices);
        var x :| x in indices && x in occupancy[c];
        var a :| 0 <= a < |cols| && cols[a] == c && x in rows[a];
        assert x in rows[a] * rows[j];
        assert cols'[a] == c;
      }
    }
  }

  lemma DistinctPermutation(keys: seq<string>, order: seq<string>)
    requires Distinct(keys) && multiset(order) == multiset(keys)
    ensures Distinct(order)
  {
    forall a, b | 0 <= a < b < |order|
      ensures order[a] != order[b]
    {
      if order[a] == order[b] {
        var x := order[a];
        assert multiset(order) == multiset(order[..a]) + multiset{x} + multiset(order[a + 1..b]) + multiset{x} + multiset(order[b + 1..]) by {
          assert order == order[..a] + [x] + order[a + 1..b] + [x] + order[b + 1..];
        }
        assert multiset(keys)[x] >= 2;
        DistinctCountOne(keys, x);
      }
    }
  }

  lemma {:induction false} DistinctCountOne(s: seq<string>, x: string)
    requires Distinct(s)
    ensures multiset(s)[x] <= 1
  {
    if s != [] {
      var init := s[..|s| - 1];
      assert s == init + [s[|s| - 1]];
      DistinctCountOne(init, x);
      if s[|s| - 1] == x {
        assert x !in init by {
          forall a | 0 <= a < |init|
            ensures init[a] != x
          {
            assert s[a] != s[|s| - 1];
          }
        }
      }
    }
  }

  /** Column `c` was taken, for the zone at position `i` of `order`, by an
      earlier zone sharing a row with it. */
  ghost predicate BlockedBefore(placement: map<string, ZonePlacementInfo>, order: seq<string>, i: int, c: int)
    requires 0 <= i < |order| && forall k :: k in order ==> k in placement
  {
    exists a :: 0 <= a < i && placement[order[a]].gridColumn == c
      && IndexSet(placement[order[a]]) * IndexSet(placement[order[i]]) != {}
  }

  /** The span length a zone is sorted by. */
  function SpanOf(placement: map<string, ZonePlacementInfo>): string -> int {
    (k: string) => if k in placement then |placement[k].horizonIndices| else 0
  }

  /** The second pass changes only columns. */
  ghost predicate SameRows(placement: map<string, ZonePlacementInfo>, initial: map<string, ZonePlacementInfo>) {
    && (forall k :: k in placement <==> k in initial)
    && (forall k :: k in placement ==> placement[k] == initial[k].(gridColumn := placement[k].gridColumn))
  }

  /** The first `|cols|` zones of `sorted` are in the columns `cols`. */
  ghost predicate ColumnsOf(placement: map<string, ZonePlacementInfo>, sorted: seq<string>, cols: seq<int>) {
    |cols| <= |sorted| && forall i :: 0 <= i < |cols| ==> sorted[i] in placement && placement[sorted[i]].gridColumn == cols[i]
  }

  ghost predicate ColumnBound(cols: seq<int>) {
    forall i :: 0 <= i < |cols| ==> 1 <= cols[i] <= i + 1
  }

  /** The rows of each zone, in placement order. */
  ghost function RowsOf(initial: map<string, ZonePlacementInfo>, sorted: seq<string>): (rows: seq<set<int>>)
    requires forall k :: k in sorted ==> k in initial
    ensures |rows| == |sorted|
    ensures forall i :: 0 <= i < |sorted| ==> rows[i] == IndexSet(initial[sorted[i]])
  {
    seq(|sorted|, (i: int) requires 0 <= i < |sorted| => IndexSet(initial[sorted[i]]))
  }

  lemma ColumnsStep(placement: map<string, ZonePlacementInfo>, initial: map<string, ZonePlacementInfo>,
                    sorted: seq<string>, cols: seq<int>, column: int)
    requires Distinct(sorted) && |cols| < |sorted| && sorted[|cols|] in placement
    requires SameRows(placement, initial) && ColumnsOf(placement, sorted, cols) && ColumnBound(cols)
    requires 1 <= column <= |cols| + 1
    ensures var key := sorted[|cols|];
      var placement' := placement[key := placement[key].(gridColumn := column)];
      SameRows(placement', initial) && ColumnsOf(placement', sorted, cols + [column]) && ColumnBound(cols + [column])
  {
    var key := sorted[|cols|];
    var placement' := placement[key := placement[key].(gridColumn := column)];
    forall i | 0 <= i < |cols|
      ensures placement'[sorted[i]].gridColumn == cols[i]
    {
      assert sorted[i] != key;
    }
  }

  /** The loop's state at its end gives the method's promises. */
  lemma FinalPlacement(placement: map<string, ZonePlacementInfo>, initial: map<string, ZonePlacementInfo>,
                       sorted: seq<string>, cols: seq<int>, zoneCount: nat)
    requires Distinct(sorted) && |sorted| <= zoneCount
    requires forall k :: k in initial <==> k in sorted
    requires SameRows(placement, initial) && ColumnsOf(placement, sorted, cols) && ColumnBound(cols)
    requires |cols| == |sorted|
    requires NoSharedRows(RowsOf(initial, sorted), cols) && Greedy(RowsOf(initial, sorted), cols)
    ensures forall k :: k in placement ==> 1 <= placement[k].gridColumn <= zoneCount
    ensures forall k1, k2 :: (k1 in placement && k2 in placement && k1 != k2
      && placement[k1].gridColumn == placement[k2].gridColumn) ==> IndexSet(placement[k1]) * IndexSet(placement[k2]) == {}
    ensures forall i, c :: 0 <= i < |sorted| && 1 <= c < placement[sorted[i]].gridColumn ==>
      BlockedBefore(placement, sorted, i, c)
  {
    var rows := RowsOf(initial, sorted);
    forall k | k in placement
      ensures IndexSet(placement[k]) == IndexSet(initial[k])
    {
    }
    forall k | k in placement
      ensures 1 <= placement[k].gridColumn <= zoneCount
    {
      var i :| 0 <= i < |sorted| && sorted[i] == k;
    }
    forall k1, k2 | k1 in placement && k2 in placement && k1 != k2
        && placement[k1].gridColumn == placement[k2].gridColumn
      ensures IndexSet(placement[k1]) * IndexSet(placement[k2]) == {}
    {
      var a :| 0 <= a < |sorted| && sorted[a] == k1;
      var b :| 0 <= b < |sorted| && sorted[b] == k2;
      assert IndexSet(placement[k1]) == rows[a] && IndexSet(placement[k2]) == rows[b];
    }
    forall i, c | 0 <= i < |sorted| && 1 <= c < placement[sorted[i]].gridColumn
      ensures BlockedBefore(placement, sorted, i, c)
    {
      assert Blocked(rows, cols, i, c);
      var a :| 0 <= a < i && cols[a] == c && rows[a] * rows[i] != {};
      assert IndexSet(placement[sorted[a]]) == rows[a] && IndexSet(placement[sorted[i]]) == rows[i];
    }
  }

  /** `getZoneGridPlacement`: every zone name gets the rows of its (last)
      zone and a column; within a column no two zones share a row; each
      zone, taken in order of span length, got the first column free of the
      zones placed before it; and no column number exceeds the number of
      zones. */
  method GetZoneGridPlacement(zones: seq<ZoneItem>, horizons: seq<Item>)
    returns (placement: map<string, ZonePlacementInfo>, ghost order: seq<string>)
    ensures forall k :: k in placement <==> k in Names(zones)
    ensures forall i :: IsLastOfName(zones, i, |zones|) ==>
      Describes(placement[zones[i].name].(gridColumn := DefaultColumn), zones[i], horizons)
    ensures forall k :: k in placement ==> 1 <= placement[k].gridColumn <= |zones|
    ensures forall k1, k2 :: (k1 in placement && k2 in placement && k1 != k2
      && placement[k1].gridColumn == placement[k2].gridColumn) ==> IndexSet(placement[k1]) * IndexSet(placement[k2]) == {}
    ensures Distinct(order) && forall k :: k in order <==> k in placement
    ensures forall a, b :: 0 <= a < b < |order| ==>
      |placement[order[a]].horizonIndices| <= |placement[order[b]].horizonIndices|
    ensures forall i, c :: 0 <= i < |order| && 1 <= c < placement[order[i]].gridColumn ==>
      BlockedBefore(placement, order, i, c)
  {
    var initial, keys := InitialPlacement(zones, horizons);
    var spanOf := SpanOf(initial);
    var sorted := SortByKey(keys, spanOf);
    SortByKeySorted(keys, spanOf);
    DistinctPermutation(keys, sorted);
    forall k
      ensures k in sorted <==> k in initial
    {
      assert k in sorted <==> k in multiset(sorted);
      assert k in keys <==> k in multiset(keys);
    }
    ghost var cols;
    placement, cols := PlaceInOrder(initial, sorted);
    order := sorted;
    FinalPlacement(placement, initial, sorted, cols, |zones|);
    forall a, b | 0 <= a < b < |order|
      ensures |placement[order[a]].horizonIndices| <= |placement[order[b]].horizonIndices|
    {
      assert spanOf(sorted[a]) <= spanOf(sorted[b]);
    }
  }

  /** The `forEach` over the zones in order of span: each takes the first
      free column. */
  method PlaceInOrder(initial: map<string, ZonePlacementInfo>, sorted: seq<string>)
    returns (placement: map<string, ZonePlacementInfo>, ghost cols: seq<int>)
    requires Distinct(sorted)
    requires forall k :: k in initial <==> k in sorted
    ensures |cols| == |sorted|
    ensures SameRows(placement, initial) && ColumnsOf(placement, sorted, cols) && ColumnBound(cols)
    ensures NoSharedRows(RowsOf(initial, sorted), cols) && Greedy(RowsOf(initial, sorted), cols)
  {
    placement := initial;
    ghost var rows := RowsOf(initial, sorted);
    cols := [];
    var occupancy: map<int, set<int>> := map[];
    var j := 0;
    while j < |sorted|
      invariant 0 <= j <= |sorted| && |cols| == j
      invariant SameRows(placement, initial) && ColumnsOf(placement, sorted, cols) && ColumnBound(cols)
      invariant OccupancyMatches(occupancy, rows, cols)
      invariant NoSharedRows(rows, cols)
      invariant Greedy(rows, cols)
    {
      var key := sorted[j];
      var info := placement[key];
      ghost var used := set x | x in cols;
      forall c, x | c in occupancy && x in occupancy[c]
        ensures c in used
      {
        var i :| 0 <= i < |cols| && cols[i] == c && x in rows[i];
      }
      SetOfSeqCard(cols);
      var column, newOccupancy := PlaceInColumn(occupancy, info.horizonIndices, used);
      assert rows[j] == set x | x in info.horizonIndices;
      PlaceStep(occupancy, rows, cols, info.horizonIndices, column, newOccupancy);
      ColumnsStep(placement, initial, sorted, cols, column);
      occupancy := newOccupancy;
      placement := placement[key := info.(gridColumn := column)];
      cols := cols + [column];
      j := j + 1;
    }
  }

  /** `numGridRows`: two rows per horizon, at least one. */
  function NumGridRows(horizons: seq<Item>): (n: int)
    ensures n >= 1 && n >= 2 * |horizons|
    ensures horizons != [] ==> n == 2 * |horizons|
  {
    if 2 * |horizons| > 1 then 2 * |horizons| else 1
  }

  /** `numStratColumns`: the largest column in use, at least one. */
  function NumStratColumns(columns: seq<int>): (n: int)
    ensures n >= 1
    ensures forall i :: 0 <= i < |columns| ==> columns[i] <= n
    ensures n == 1 || n in columns
  {
    if columns == [] then 1
    else
      var rest := NumStratColumns(columns[1..]);
      if columns[0] > rest then columns[0] else rest
  }

  /** With columns from a placement of `zones`, the chart is at most as wide
      as there are zones. */
  lemma NumStratColumnsBound(columns: seq<int>, zoneCount: nat)
    requires forall i :: 0 <= i < |columns| ==> columns[i] <= zoneCount
    ensures NumStratColumns(columns) <= if zoneCount > 1 then zoneCount else 1
  {
  }

  /** `horizonsUsedByZones`: the top and base horizon names of the zones
      that are not unselected. */
  function HorizonsUsedByZones(zones: seq<ZoneItem>, unselectedZoneNames: seq<string>): (used: set<string>)
    ensures forall n :: n in used <==> exists z :: (z in zones && z.name !in unselectedZoneNames
      && (n == z.topHorizonName || n == z.baseHorizonName))
  {
    (set z | z in zones && z.name !in unselectedZoneNames :: z.topHorizonName)
      + (set z | z in zones && z.name !in unselectedZoneNames :: z.baseHorizonName)
  }
}

=== FILE: stratigraphy.dfy ===
/** The stratigraphy editor: clicking horizons and zones adds or removes
    them with their dependants, orphans block saving, and the bulk and save
    buttons are enabled by the state of the two lists. */
module Stratigraphy {
  import opened Common
  import opened RmsUtils

  const OrphanError: string := "Orphan horizons or zones present"

  /** `addHorizon` */
  method AddHorizon(form: StratigraphyForm, horizon: Item, availableHorizons: seq<Item>)
    modifies form
    ensures form.horizons == AddedField(old(form.horizons), availableHorizons, [horizon.name])
    ensures form.zones == old(form.zones)
    ensures horizon.name in Names(availableHorizons) ==> horizon.name in Names(form.horizons)
  {
    form.AddItems(Horizons, [horizon.name], availableHorizons);
    if horizon.name in Names(availableHorizons) {
      AddItemsCovers(old(form.horizons), availableHorizons, [horizon.name], horizon.name);
    }
  }

  /** `addZone`: the zone and both of its bounding horizons. */
  method AddZone(form: StratigraphyForm, zone: ZoneItem, availableHorizons: seq<Item>, availableZones: seq<Item>)
    modifies form
    ensures form.zones == AddedField(old(form.zones), availableZones, [zone.name])
    ensures form.horizons == AddedField(old(form.horizons), availableHorizons, [zone.topHorizonName, zone.baseHorizonName])
    ensures zone.name in Names(availableZones) ==> zone.name in Names(form.zones)
    ensures zone.topHorizonName in Names(availableHorizons) ==> zone.topHorizonName in Names(form.horizons)
    ensures zone.baseHorizonName in Names(availableHorizons) ==> zone.baseHorizonName in Names(form.horizons)
  {
    var names := [zone.topHorizonName, zone.baseHorizonName];
    form.AddItems(Zones, [zone.name], availableZones);
    form.AddItems(Horizons, names, availableHorizons);
    if zone.name in Names(availableZones) {
      AddItemsCovers(old(form.zones), availableZones, [zone.name], zone.name);
    }
    if zone.topHorizonName in Names(availableHorizons) {
      AddItemsCovers(old(form.horizons), availableHorizons, names, zone.topHorizonName);
    }
    if zone.baseHorizonName in Names(availableHorizons) {
      AddItemsCovers(old(form.horizons), availableHorizons, names, zone.baseHorizonName);
    }
  }

  /** The zone has the horizon as its top or its base. */
  predicate UsesHorizon(zone: Item, horizonName: string) {
    zone.Zone? && (zone.topHorizonName == horizonName || zone.baseHorizonName == horizonName)
  }

  /** The names of the project zones bounded by the horizon. */
  function ZonesUsingHorizon(projectZones: seq<Item>, horizonName: string): (names: seq<string>)
    ensures forall n :: n in names <==> exists z :: z in projectZones && UsesHorizon(z, horizonName) && z.name == n
  {
    var using := Filter(projectZones, (z: Item) => UsesHorizon(z, horizonName));
    FilterMembers(projectZones, (z: Item) => UsesHorizon(z, horizonName));
    NamesIn(using);
    Names(using)
  }

  /** `removeHorizon`: the horizon and every project zone that uses it. */
  method RemoveHorizon(form: StratigraphyForm, horizon: Item)
    modifies form
    ensures form.horizons == WithoutNames(old(form.horizons), [horizon.name])
    ensures form.zones == WithoutNames(old(form.zones), ZonesUsingHorizon(old(form.zones), horizon.name))
  {
    var zonesUsingHorizon := ZonesUsingHorizon(form.zones, horizon.name);
    form.RemoveItems(Horizons, [horizon.name]);
    form.RemoveItems(Zones, zonesUsingHorizon);
  }

  /** After `removeHorizon` the horizon is gone, no zone left uses it, and
      every zone that neither uses it nor shares a name with one that does
      is kept. */
  lemma RemoveHorizonCascade(horizons: seq<Item>, zones: seq<Item>, horizonName: string)
    ensures horizonName !in Names(WithoutNames(horizons, [horizonName]))
    ensures forall z :: z in WithoutNames(zones, ZonesUsingHorizon(zones, horizonName)) ==> !UsesHorizon(z, horizonName)
    ensures forall z :: z in zones && z.name !in ZonesUsingHorizon(zones, horizonName) ==>
      z in WithoutNames(zones, ZonesUsingHorizon(zones, horizonName))
  {
    NamesIn(WithoutNames(horizons, [horizonName]));
  }

  /** `removeZone`: only that zone; horizons stay. */
  method RemoveZone(form: StratigraphyForm, zone: Item)
    modifies form
    ensures form.zones == WithoutNames(old(form.zones), [zone.name])
    ensures form.horizons == old(form.horizons)
    ensures zone.name !in Names(form.zones)
  {
    form.RemoveItems(Zones, [zone.name]);
    NamesIn(form.zones);
  }

  /** A click on an available zone adds it when it is not selected, and
      removes it otherwise. */
  method ClickAvailableZone(form: StratigraphyForm, zone: ZoneItem, availableHorizons: seq<Item>, availableZones: seq<Item>)
    modifies form
    ensures zone.name in NamesNotInReference(availableZones, old(form.zones)) ==>
      form.zones == AddedField(old(form.zones), availableZones, [zone.name])
      && form.horizons == AddedField(old(form.horizons), availableHorizons, [zone.topHorizonName, zone.baseHorizonName])
    ensures zone.name !in NamesNotInReference(availableZones, old(form.zones)) ==>
      form.zones == WithoutNames(old(form.zones), [zone.name]) && form.horizons == old(form.horizons)
  {
    var isUnselected := zone.name in NamesNotInReference(availableZones, form.zones);
    if isUnselected {
      AddZone(form, zone, availableHorizons, availableZones);
    } else {
      RemoveZone(form, zone);
    }
  }

  /** A click on an available horizon adds it when it is not selected, and
      removes it with its zones otherwise. */
  method ClickAvailableHorizon(form: StratigraphyForm, horizon: Item, availableHorizons: seq<Item>)
    modifies form
    ensures horizon.name in NamesNotInReference(availableHorizons, old(form.horizons)) ==>
      form.horizons == AddedField(old(form.horizons), availableHorizons, [horizon.name]) && form.zones == old(form.zones)
    ensures horizon.name !in NamesNotInReference(availableHorizons, old(form.horizons)) ==>
      form.horizons == WithoutNames(old(form.horizons), [horizon.name])
      && form.zones == WithoutNames(old(form.zones), ZonesUsingHorizon(old(form.zones), horizon.name))
  {
    var isUnselected := horizon.name in NamesNotInReference(availableHorizons, form.horizons);
    if isUnselected {
      AddHorizon(form, horizon, availableHorizons);
    } else {
      RemoveHorizon(form, horizon);
    }
  }

  /** Clicking an available, unselected zone selects it. */
  lemma ClickSelectsZone(projectZones: seq<Item>, availableZones: seq<Item>, zoneName: string)
    requires zoneName in NamesNotInReference(availableZones, projectZones)
    ensures zoneName !in NamesNotInReference(availableZones, AddedField(projectZones, availableZones, [zoneName]))
  {
    AddItemsCovers(projectZones, availableZones, [zoneName], zoneName);
  }

  /** `hasOrphans`: some project horizon or zone is no longer in RMS. */
  function HasOrphans(projectHorizons: seq<Item>, projectZones: seq<Item>,
                      availableHorizons: seq<Item>, availableZones: seq<Item>): (r: bool)
    ensures r <==> ((exists n :: n in Names(projectHorizons) && n !in Names(availableHorizons))
      || (exists n :: n in Names(projectZones) && n !in Names(availableZones)))
  {
    var orphanZoneNames := NamesNotInReference(projectZones, availableZones);
    var orphanHorizonNames := NamesNotInReference(projectHorizons, availableHorizons);
    assert |orphanHorizonNames| > 0 ==> orphanHorizonNames[0] in orphanHorizonNames;
    assert |orphanZoneNames| > 0 ==> orphanZoneNames[0] in orphanZoneNames;
    |orphanHorizonNames| > 0 || |orphanZoneNames| > 0
  }

  /** The form-level error the editor sets. */
  function FormError(hasOrphans: bool): (error: Option<string>)
    ensures error.Some? <==> hasOrphans
    ensures error.Some? ==> error.value == OrphanError
  {
    if hasOrphans then Some(OrphanError) else None
  }

  /** "Remove all" is disabled when there is nothing to remove. */
  predicate RemoveAllDisabled(projectHorizons: seq<Item>, projectZones: seq<Item>) {
    |projectHorizons| == 0 && |projectZones| == 0
  }

  /** "Add all" is disabled when both lists are as long as the available ones. */
  predicate AddAllDisabled(projectHorizons: seq<Item>, projectZones: seq<Item>,
                           availableHorizons: seq<Item>, availableZones: seq<Item>) {
    |projectHorizons| == |availableHorizons| && |projectZones| == |availableZones|
  }

  /** After either bulk action its own button is disabled and no orphan is
      left. */
  lemma BulkActionsSettle(availableHorizons: seq<Item>, availableZones: seq<Item>)
    ensures RemoveAllDisabled([], [])
    ensures !HasOrphans([], [], availableHorizons, availableZones)
    ensures AddAllDisabled(availableHorizons, availableZones, availableHorizons, availableZones)
    ensures !HasOrphans(availableHorizons, availableZones, availableHorizons, availableZones)
  {
  }

  /** The confirmed bulk action: "add" adds all, anything else removes all. */
  datatype ConfirmAction = NoAction | AddAction | RemoveAction

  method Confirm(form: StratigraphyForm, action: ConfirmAction, availableHorizons: seq<Item>, availableZones: seq<Item>)
    modifies form
    ensures action == AddAction ==> form.horizons == availableHorizons && form.zones == availableZones
    ensures action != AddAction ==> form.horizons == [] && form.zones == []
  {
    if action == AddAction {
      form.AddAll(availableHorizons, availableZones);
    } else {
      form.RemoveAll();
    }
  }

  /** What saving sends: nothing for a read-only project. */
  datatype Framework = Framework(horizons: seq<Item>, zones: seq<Item>)

  function SubmitRequest(projectReadOnly: bool, value: Framework): (request: Option<Framework>)
    ensures request.Some? <==> !projectReadOnly
    ensures request.Some? ==> request.value == value
  {
    if !projectReadOnly then Some(value) else None
  }

  /** The Save button. */
  predicate SaveDisabled(isDefaultValue: bool, canSubmit: bool, projectReadOnly: bool) {
    isDefaultValue || !canSubmit || projectReadOnly
  }

  /** An enabled Save button always leads to a request. */
  lemma SaveEnabledSubmits(isDefaultValue: bool, canSubmit: bool, projectReadOnly: bool, value: Framework)
    ensures !SaveDisabled(isDefaultValue, canSubmit, projectReadOnly) ==> SubmitRequest(projectReadOnly, value) == Some(value)
  {
  }
}

=== FILE: version.dfy ===
/** Dotted version comparison (`isVersionLessThan`): versions are split on
    ".", each component is read by `Number`, missing components and those
    `Number` reads as NaN count as 0, and the first differing component
    decides. */
module VersionCompare {
  import opened Common

  // How `Number` reads one part

  /** The white space and line terminators that `Number` ignores around a
      numeral (the ECMAScript WhiteSpace and LineTerminator code points). */
  predicate IsJsWhiteSpace(c: char) {
    || c == '\t' || c == '\n' || c == '\U{000B}' || c == '\U{000C}' || c == '\r' || c == ' '
    || c == '\U{00A0}' || c == '\U{1680}' || ('\U{2000}' <= c <= '\U{200A}')
    || c == '\U{2028}' || c == '\U{2029}' || c == '\U{202F}' || c == '\U{205F}'
    || c == '\U{3000}' || c == '\U{FEFF}'
  }

  /** `s` without its leading white space. */
  function TrimStart(s: string): (t: string)
    ensures |t| <= |s|
    ensures t == "" || !IsJsWhiteSpace(t[0])
  {
    if s != "" && IsJsWhiteSpace(s[0]) then TrimStart(s[1..]) else s
  }

  /** `s` without its trailing white space. */
  function TrimEnd(s: string): (t: string)
    ensures |t| <= |s|
    ensures t == "" || !IsJsWhiteSpace(t[|t| - 1])
  {
    if s != "" && IsJsWhiteSpace(s[|s| - 1]) then TrimEnd(s[..|s| - 1]) else s
  }

  function Trim(s: string): string {
    TrimEnd(TrimStart(s))
  }

  /** `TrimStart` removes exactly the white space at the start. */
  lemma {:induction false} TrimStartDropsWhiteSpace(s: string)
    ensures s[|s| - |TrimStart(s)|..] == TrimStart(s)
    ensures forall i :: 0 <= i < |s| - |TrimStart(s)| ==> IsJsWhiteSpace(s[i])
  {
    if s != "" && IsJsWhiteSpace(s[0]) {
      TrimStartDropsWhiteSpace(s[1..]);
      assert s[1..][|s| - 1 - |TrimStart(s)|..] == s[|s| - |TrimStart(s)|..];
    }
  }

  /** `TrimEnd` removes exactly the white space at the end. */
  lemma {:induction false} TrimEndDropsWhiteSpace(s: string)
    ensures s[..|TrimEnd(s)|] == TrimEnd(s)
    ensures forall i :: |TrimEnd(s)| <= i < |s| ==> IsJsWhiteSpace(s[i])
  {
    if s != "" && IsJsWhiteSpace(s[|s| - 1]) {
      TrimEndDropsWhiteSpace(s[..|s| - 1]);
      assert s[..|s| - 1][..|TrimEnd(s)|] == s[..|TrimEnd(s)|];
    }
  }

  /** The value of a hexadecimal digit character, or 16 for any other character. */
  function HexDigitValue(c: char): (v: nat)
    ensures v <= 16
    ensures v < 10 <==> IsDigit(c)
    ensures IsDigit(c) ==> v == c as int - '0' as int
  {
    if '0' <= c <= '9' then c as int - '0' as int
    else if 'a' <= c <= 'f' then c as int - 'a' as int + 10
    else if 'A' <= c <= 'F' then c as int - 'A' as int + 10
    else 16
  }

  predicate AllDigitsIn(s: string, base: nat) {
    forall i :: 0 <= i < |s| ==> HexDigitValue(s[i]) < base
  }

  /** The value of a string of digits in the given base. */
  function RadixValue(s: string, base: nat): nat
    requires AllDigitsIn(s, base)
  {
    if s == "" then 0 else RadixValue(s[..|s| - 1], base) * base + HexDigitValue(s[|s| - 1])
  }

  function Pow10(e: nat): (r: nat)
    ensures r >= 1
  {
    if e == 0 then 1 else 10 * Pow10(e - 1)
  }

  /** The base a radix prefix letter (`0x`, `0o`, `0b`) stands for, or 0. */
  function RadixOf(c: char): nat {
    if c == 'x' || c == 'X' then 16
    else if c == 'o' || c == 'O' then 8
    else if c == 'b' || c == 'B' then 2
    else 0
  }

  /** The first position of an exponent marker, or `|s|`. */
  function ExponentAt(s: string): (k: nat)
    ensures k <= |s|
    ensures k < |s| ==> s[k] == 'e' || s[k] == 'E'
  {
    if s == "" || s[0] == 'e' || s[0] == 'E' then 0 else ExponentAt(s[1..]) + 1
  }

  /** What `Number` makes of a part: an integer, NaN, or a value this model
      does not evaluate (a fraction from a negative exponent, or ±Infinity). */
  datatype Reading = Finite(value: int) | NaN | Unevaluated

  /** An unsigned decimal numeral with an optional exponent, as `Number`
      reads it. */
  function ReadUnsignedDecimal(u: string): Reading {
    if u == "Infinity" then Unevaluated
    else
      var k := ExponentAt(u);
      var mantissa := u[..k];
      if mantissa == "" || !AllDigits(mantissa) then NaN
      else if k == |u| then Finite(DigitsValue(mantissa))
      else
        var exp := u[k + 1..];
        var negative := exp != "" && exp[0] == '-';
        var digits := if exp != "" && (exp[0] == '+' || exp[0] == '-') then exp[1..] else exp;
        if digits == "" || !AllDigits(digits) then NaN
        else if negative then
          // m·10^-e is an integer exactly when 10^e divides m
          var scale := Pow10(DigitsValue(digits));
          if DigitsValue(mantissa) % scale == 0 then Finite(DigitsValue(mantissa) / scale) else Unevaluated
        else Finite(DigitsValue(mantissa) * Pow10(DigitsValue(digits)))
  }

  /** `Number(part)` for a part of a version split on ".": white space around
      the numeral is ignored, and the rest is read by `ReadTrimmed`. */
  function ReadNumber(part: string): Reading {
    ReadTrimmed(Trim(part))
  }

  /** `Number` on a text without surrounding white space: the empty text is
      0, `0x`/`0o`/`0b` introduce an unsigned hexadecimal, octal or binary
      numeral, and otherwise an optional sign precedes a decimal numeral with
      an optional exponent. A decimal point cannot occur, because the parts
      come from splitting on ".". */
  function ReadTrimmed(t: string): Reading {
    if t == "" then Finite(0)
    else if '.' in t then Unevaluated
    else if |t| >= 2 && t[0] == '0' && RadixOf(t[1]) != 0 then
      var base := RadixOf(t[1]);
      if t[2..] != "" && AllDigitsIn(t[2..], base) then Finite(RadixValue(t[2..], base)) else NaN
    else if t[0] == '-' then
      match ReadUnsignedDecimal(t[1..])
      case Finite(v) => Finite(-v)
      case r => r
    else if t[0] == '+' then ReadUnsignedDecimal(t[1..])
    else ReadUnsignedDecimal(t)
  }

  /** `Number(part) || 0`: NaN (and -0) read as 0. */
  function ComponentValue(part: string): int {
    match ReadNumber(part)
    case Finite(v) => v
    case _ => 0
  }

  function ComponentValues(parts: seq<string>): (r: seq<int>)
    ensures |r| == |parts|
  {
    if parts == [] then [] else [ComponentValue(parts[0])] + ComponentValues(parts[1..])
  }

  /** Each part is read on its own, in order. */
  lemma {:induction false} ComponentValuesAt(parts: seq<string>, i: int)
    requires 0 <= i < |parts|
    ensures ComponentValues(parts)[i] == ComponentValue(parts[i])
  {
    if i > 0 {
      ComponentValuesAt(parts[1..], i - 1);
    }
  }

  lemma {:induction false} ComponentValuesSnoc(parts: seq<string>, part: string)
    ensures ComponentValues(parts + [part]) == ComponentValues(parts) + [ComponentValue(part)]
  {
    if parts != [] {
      assert (parts + [part])[1..] == parts[1..] + [part];
      ComponentValuesSnoc(parts[1..], part);
    }
  }

  /** `version.split(".").map(Number)` with each part read as above. */
  function Components(version: string): seq<int> {
    ComponentValues(Split(version, '.'))
  }

  /** `parts[i] || 0`: a missing component is 0. */
  function At(parts: seq<int>, i: nat): int {
    if i < |parts| then parts[i] else 0
  }

  function Max(a: nat, b: nat): nat {
    if a < b then b else a
  }

  /** The loop of `isVersionLessThan` from index `i` on. */
  function LessFrom(a: seq<int>, b: seq<int>, i: nat): bool
    decreases Max(|a|, |b|) - i
  {
    if i >= Max(|a|, |b|) then false
    else if At(a, i) < At(b, i) then true
    else if At(a, i) > At(b, i) then false
    else LessFrom(a, b, i + 1)
  }

  function IsVersionLessThan(version: string, minimum: string): bool {
    LessFrom(Components(version), Components(minimum), 0)
  }

  /** Component lists agree (reading missing components as 0) below `k`. */
  ghost predicate AgreeBelow(a: seq<int>, b: seq<int>, lo: nat, k: nat) {
    forall j :: lo <= j < k ==> At(a, j) == At(b, j)
  }

  /** `b` is greater at the first component, from `lo` on, where the two differ. */
  ghost predicate FirstDifferenceLess(a: seq<int>, b: seq<int>, lo: nat) {
    exists k: nat :: lo <= k && AgreeBelow(a, b, lo, k) && At(a, k) < At(b, k)
  }

  lemma {:induction false} LessFromIsFirstDifference(a: seq<int>, b: seq<int>, i: nat)
    ensures LessFrom(a, b, i) <==> FirstDifferenceLess(a, b, i)
    decreases Max(|a|, |b|) - i
  {
    if i >= Max(|a|, |b|) {
      forall k: nat | i <= k
        ensures At(a, k) >= At(b, k)
      {
      }
    } else if At(a, i) < At(b, i) {
      assert AgreeBelow(a, b, i, i);
    } else if At(a, i) > At(b, i) {
      forall k: nat | i <= k && AgreeBelow(a, b, i, k)
        ensures At(a, k) >= At(b, k)
      {
        assert k == i || At(a, i) == At(b, i);
      }
    } else {
      LessFromIsFirstDifference(a, b, i + 1);
      if FirstDifferenceLess(a, b, i) {
        var k: nat :| i <= k && AgreeBelow(a, b, i, k) && At(a, k) < At(b, k);
        assert k != i;
        assert AgreeBelow(a, b, i + 1, k);
      }
      if FirstDifferenceLess(a, b, i + 1) {
        var k: nat :| i + 1 <= k && AgreeBelow(a, b, i + 1, k) && At(a, k) < At(b, k);
        assert AgreeBelow(a, b, i, k);
      }
    }
  }

  /** `isVersionLessThan(v, m)` holds exactly when some component of `m` is
      larger than that of `v` and all components before it are equal
      (components compared numerically, missing ones as 0). */
  lemma IsVersionLessThanIff(version: string, minimum: string)
    ensures IsVersionLessThan(version, minimum) <==>
      FirstDifferenceLess(Components(version), Components(minimum), 0)
  {
    LessFromIsFirstDifference(Components(version), Components(minimum), 0);
  }

  /** No version is less than itself. */
  lemma Irreflexive(version: string)
    ensures !IsVersionLessThan(version, version)
  {
    IsVersionLessThanIff(version, version);
  }

  /** Never both `a < b` and `b < a`. */
  lemma Asymmetric(a: string, b: string)
    ensures !(IsVersionLessThan(a, b) && IsVersionLessThan(b, a))
  {
    IsVersionLessThanIff(a, b);
    IsVersionLessThanIff(b, a);
    var ca, cb := Components(a), Components(b);
    if IsVersionLessThan(a, b) {
      var k: nat :| AgreeBelow(ca, cb, 0, k) && At(ca, k) < At(cb, k);
      forall m: nat | AgreeBelow(cb, ca, 0, m)
        ensures At(cb, m) >= At(ca, m)
      {
        assert m <= k || At(cb, k) == At(ca, k);
      }
    }
  }

  /** Transitive: the comparison is a strict order. */
  lemma Transitive(a: string, b: string, c: string)
    requires IsVersionLessThan(a, b) && IsVersionLessThan(b, c)
    ensures IsVersionLessThan(a, c)
  {
    IsVersionLessThanIff(a, b);
    IsVersionLessThanIff(b, c);
    IsVersionLessThanIff(a, c);
    var ca, cb, cc := Components(a), Components(b), Components(c);
    var k: nat :| AgreeBelow(ca, cb, 0, k) && At(ca, k) < At(cb, k);
    var m: nat :| AgreeBelow(cb, cc, 0, m) && At(cb, m) < At(cc, m);
    var d := if k < m then k else m;
    assert AgreeBelow(ca, cc, 0, d);
    assert At(ca, d) < At(cc, d);
  }

  /** Only the values of the components matter, with missing ones read as 0:
      two component lists that agree that way compare the same against any third. */
  lemma {:induction false} PaddingIrrelevant(a: seq<int>, a': seq<int>, b: seq<int>)
    requires forall j: nat :: At(a, j) == At(a', j)
    ensures LessFrom(a, b, 0) == LessFrom(a', b, 0)
    ensures LessFrom(b, a, 0) == LessFrom(b, a', 0)
  {
    LessFromIsFirstDifference(a, b, 0);
    LessFromIsFirstDifference(a', b, 0);
    LessFromIsFirstDifference(b, a, 0);
    LessFromIsFirstDifference(b, a', 0);
    if FirstDifferenceLess(a, b, 0) {
      var k: nat :| AgreeBelow(a, b, 0, k) && At(a, k) < At(b, k);
      assert AgreeBelow(a', b, 0, k);
    }
    if FirstDifferenceLess(a', b, 0) {
      var k: nat :| AgreeBelow(a', b, 0, k) && At(a', k) < At(b, k);
      assert AgreeBelow(a, b, 0, k);
    }
    if FirstDifferenceLess(b, a, 0) {
      var k: nat :| AgreeBelow(b, a, 0, k) && At(b, k) < At(a, k);
      assert AgreeBelow(b, a', 0, k);
    }
    if FirstDifferenceLess(b, a', 0) {
      var k: nat :| AgreeBelow(b, a', 0, k) && At(b, k) < At(a', k);
      assert AgreeBelow(b, a, 0, k);
    }
  }

  lemma ComponentsOfDotted(v: string, part: string)
    requires '.' !in part
    ensures Components(v + "." + part) == Components(v) + [ComponentValue(part)]
  {
    SplitConcat(v, '.', part);
    assert v + "." + part == v + ['.'] + part;
    SplitAbsent(part, '.');
    ComponentValuesSnoc(Split(v, '.'), part);
  }

  /** Missing components count as 0: "v" and "v.0" are not less than each other
      (so "1.2" and "1.2.0" compare equal). */
  lemma TrailingZeroIrrelevant(v: string)
    ensures !IsVersionLessThan(v, v + ".0") && !IsVersionLessThan(v + ".0", v)
  {
    ComponentsOfDotted(v, "0");
    assert v + "." + "0" == v + ".0";
    var c := Components(v);
    var c0 := Components(v + ".0");
    ZeroReadsAsZero();
    assert c0 == c + [0];
    forall j: nat
      ensures At(c, j) == At(c0, j)
    {
    }
    PaddingIrrelevant(c, c0, c);
    Irreflexive(v);
  }

  /** A component that `Number` reads as NaN counts as 0: "v.x" compares
      exactly as "v.0". */
  lemma NonNumericReadsAsZero(v: string, part: string, w: string)
    requires '.' !in part && ReadNumber(part).NaN?
    ensures IsVersionLessThan(v + "." + part, w) == IsVersionLessThan(v + ".0", w)
    ensures IsVersionLessThan(w, v + "." + part) == IsVersionLessThan(w, v + ".0")
  {
    ComponentsOfDotted(v, part);
    ComponentsOfDotted(v, "0");
    assert v + "." + "0" == v + ".0";
    ZeroReadsAsZero();
  }

  lemma ZeroReadsAsZero()
    ensures ComponentValue("0") == 0
  {
    DecimalRoundTrip(0, "", "");
    assert "" + NatToString(0) + "" == "0";
  }

  // Round trips of the reading

  /** White space before a text that does not start with white space is dropped. */
  lemma {:induction false} TrimStartWhiteSpace(ws: string, x: string)
    requires forall i :: 0 <= i < |ws| ==> IsJsWhiteSpace(ws[i])
    requires x == "" || !IsJsWhiteSpace(x[0])
    ensures TrimStart(ws + x) == x
  {
    if ws != "" {
      assert (ws + x)[1..] == ws[1..] + x;
      TrimStartWhiteSpace(ws[1..], x);
    }
  }

  /** White space after a text that does not end in white space is dropped. */
  lemma {:induction false} TrimEndWhiteSpace(x: string, ws: string)
    requires forall i :: 0 <= i < |ws| ==> IsJsWhiteSpace(ws[i])
    requires x == "" || !IsJsWhiteSpace(x[|x| - 1])
    ensures TrimEnd(x + ws) == x
  {
    if ws != "" {
      assert (x + ws)[..|x + ws| - 1] == x + ws[..|ws| - 1];
      TrimEndWhiteSpace(x, ws[..|ws| - 1]);
    }
  }

  /** A text that neither starts nor ends with white space, surrounded by
      white space, is read as the text alone. */
  lemma ReadAround(before: string, x: string, after: string)
    requires forall i :: 0 <= i < |before| ==> IsJsWhiteSpace(before[i])
    requires forall i :: 0 <= i < |after| ==> IsJsWhiteSpace(after[i])
    requires x != "" && !IsJsWhiteSpace(x[0]) && !IsJsWhiteSpace(x[|x| - 1])
    ensures ReadNumber(before + x + after) == ReadTrimmed(x)
  {
    assert before + x + after == before + (x + after);
    TrimStartWhiteSpace(before, x + after);
    TrimEndWhiteSpace(x, after);
  }

  lemma DigitsAreNotMarkers(d: string)
    requires AllDigits(d)
    ensures '.' !in d && 'e' !in d && 'E' !in d
  {
    forall i | 0 <= i < |d|
      ensures d[i] != '.' && d[i] != 'e' && d[i] != 'E'
    {
      assert IsDigit(d[i]);
    }
  }

  lemma {:induction false} ExponentAtAfter(d: string, rest: string)
    requires 'e' !in d && 'E' !in d
    requires rest == "" || rest[0] == 'e'
    ensures ExponentAt(d + rest) == |d|
  {
    if d != "" {
      assert (d + rest)[1..] == d[1..] + rest;
      ExponentAtAfter(d[1..], rest);
    } else {
      assert d + rest == rest;
    }
  }

  /** A non-empty digit string is read as its decimal value. */
  lemma UnsignedDigits(d: string)
    requires d != "" && AllDigits(d)
    ensures ReadUnsignedDecimal(d) == Finite(DigitsValue(d))
  {
    assert d != "Infinity" by {
      assert IsDigit(d[0]);
    }
    DigitsAreNotMarkers(d);
    ExponentAtAfter(d, "");
    assert d + "" == d && d[..|d|] == d;
  }

  /** A digit string, with or without a sign, is read as its signed decimal value. */
  lemma SignedDigits(d: string)
    requires d != "" && AllDigits(d)
    ensures ReadTrimmed(d) == Finite(DigitsValue(d))
    ensures ReadTrimmed("+" + d) == Finite(DigitsValue(d))
    ensures ReadTrimmed("-" + d) == Finite(-(DigitsValue(d) as int))
  {
    PlainDigits(d);
    PlusDigits(d);
    MinusDigits(d);
  }

  lemma PlainDigits(d: string)
    requires d != "" && AllDigits(d)
    ensures ReadTrimmed(d) == Finite(DigitsValue(d))
  {
    UnsignedDigits(d);
    DigitsAreNotMarkers(d);
    assert IsDigit(d[0]);
    if |d| >= 2 {
      assert IsDigit(d[1]);
    }
  }

  lemma PlusDigits(d: string)
    requires d != "" && AllDigits(d)
    ensures ReadTrimmed("+" + d) == Finite(DigitsValue(d))
  {
    UnsignedDigits(d);
    DigitsAreNotMarkers(d);
    assert ("+" + d)[1..] == d && ("+" + d)[0] == '+';
    assert '.' !in "+" + d;
  }

  lemma MinusDigits(d: string)
    requires d != "" && AllDigits(d)
    ensures ReadTrimmed("-" + d) == Finite(-(DigitsValue(d) as int))
  {
    UnsignedDigits(d);
    DigitsAreNotMarkers(d);
    assert ("-" + d)[1..] == d && ("-" + d)[0] == '-';
    assert '.' !in "-" + d;
  }

  /** `Number` reads a decimal rendering back, with or without a sign and
      with any white space around it. */
  lemma DecimalRoundTrip(n: nat, before: string, after: string)
    requires forall i :: 0 <= i < |before| ==> IsJsWhiteSpace(before[i])
    requires forall i :: 0 <= i < |after| ==> IsJsWhiteSpace(after[i])
    ensures ReadNumber(before + NatToString(n) + after) == Finite(n)
    ensures ReadNumber(before + ("+" + NatToString(n)) + after) == Finite(n)
    ensures ReadNumber(before + ("-" + NatToString(n)) + after) == Finite(-(n as int))
  {
    PlainRoundTrip(n, before, after);
    PlusRoundTrip(n, before, after);
    MinusRoundTrip(n, before, after);
  }

  lemma PlainRoundTrip(n: nat, before: string, after: string)
    requires forall i :: 0 <= i < |before| ==> IsJsWhiteSpace(before[i])
    requires forall i :: 0 <= i < |after| ==> IsJsWhiteSpace(after[i])
    ensures ReadNumber(before + NatToString(n) + after) == Finite(n)
  {
    var d := NatToString(n);
    DigitsValueOfNatToString(n);
    PlainDigits(d);
    assert IsDigit(d[0]) && IsDigit(d[|d| - 1]);
    ReadAround(before, d, after);
  }

  lemma PlusRoundTrip(n: nat, before: string, after: string)
    requires forall i :: 0 <= i < |before| ==> IsJsWhiteSpace(before[i])
    requires forall i :: 0 <= i < |after| ==> IsJsWhiteSpace(after[i])
    ensures ReadNumber(before + ("+" + NatToString(n)) + after) == Finite(n)
  {
    var d := NatToString(n);
    DigitsValueOfNatToString(n);
    PlusDigits(d);
    SignedAround(before, "+" + d, after, d);
  }

  lemma MinusRoundTrip(n: nat, before: string, after: string)
    requires forall i :: 0 <= i < |before| ==> IsJsWhiteSpace(before[i])
    requires forall i :: 0 <= i < |after| ==> IsJsWhiteSpace(after[i])
    ensures ReadNumber(before + ("-" + NatToString(n)) + after) == Finite(-(n as int))
  {
    var d := NatToString(n);
    DigitsValueOfNatToString(n);
    MinusDigits(d);
    SignedAround(before, "-" + d, after, d);
  }

  /** A signed digit string surrounded by white space is read as the signed
      text alone. */
  lemma SignedAround(before: string, x: string, after: string, d: string)
    requires forall i :: 0 <= i < |before| ==> IsJsWhiteSpace(before[i])
    requires forall i :: 0 <= i < |after| ==> IsJsWhiteSpace(after[i])
    requires d != "" && AllDigits(d) && |x| == |d| + 1 && x[1..] == d && (x[0] == '+' || x[0] == '-')
    ensures ReadNumber(before + x + after) == ReadTrimmed(x)
  {
    assert IsDigit(d[|d| - 1]) && x[|x| - 1] == d[|d| - 1];
    ReadAround(before, x, after);
  }

  /** A digit mantissa followed by an exponent marker and `rest` is read as
      a decimal with that exponent. */
  lemma MantissaFirst(m: string, rest: string)
    requires m != "" && AllDigits(m) && rest != "" && rest[0] == 'e' && '.' !in rest
    ensures ReadTrimmed(m + rest) == ReadUnsignedDecimal(m + rest)
    ensures ExponentAt(m + rest) == |m| && (m + rest)[..|m|] == m && (m + rest)[|m| + 1..] == rest[1..]
    ensures m + rest != "Infinity"
  {
    MantissaSplit(m, rest);
    var s := m + rest;
    assert IsDigit(m[0]) && s[0] == m[0];
    if |m| >= 2 {
      assert IsDigit(m[1]) && s[1] == m[1];
    } else {
      assert s[1] == 'e';
    }
  }

  lemma MantissaSplit(m: string, rest: string)
    requires m != "" && AllDigits(m) && rest != "" && rest[0] == 'e' && '.' !in rest
    ensures ExponentAt(m + rest) == |m| && (m + rest)[..|m|] == m && (m + rest)[|m| + 1..] == rest[1..]
    ensures m + rest != "Infinity" && '.' !in m + rest
  {
    DigitsAreNotMarkers(m);
    ExponentAtAfter(m, rest);
    var s := m + rest;
    assert IsDigit(m[0]) && s[0] == m[0];
    assert s != "Infinity" by {
      assert "Infinity"[0] == 'I';
    }
  }

  /** A digit mantissa with a non-negative exponent is scaled by that power
      of ten. */
  lemma ExponentDigits(m: string, e: string)
    requires m != "" && AllDigits(m) && e != "" && AllDigits(e)
    ensures ReadTrimmed(m + "e" + e) == Finite(DigitsValue(m) * Pow10(DigitsValue(e)))
  {
    DigitsAreNotMarkers(e);
    assert m + "e" + e == m + ("e" + e);
    MantissaFirst(m, "e" + e);
    assert ("e" + e)[1..] == e;
    assert IsDigit(e[0]);
  }

  /** A negative exponent divides by that power of ten; only a quotient that
      is not whole is left unevaluated. */
  lemma NegativeExponentDigits(m: string, e: string)
    requires m != "" && AllDigits(m) && e != "" && AllDigits(e)
    ensures ReadTrimmed(m + "e-" + e)
      == if DigitsValue(m) % Pow10(DigitsValue(e)) == 0 then Finite(DigitsValue(m) / Pow10(DigitsValue(e))) else Unevaluated
  {
    DigitsAreNotMarkers(e);
    assert m + "e-" + e == m + ("e-" + e);
    MantissaFirst(m, "e-" + e);
    assert ("e-" + e)[1..] == "-" + e && ("-" + e)[1..] == e;
  }

  /** `Number` reads "<m>e<e>" as m·10^e, and "<m>e-<e>" as m/10^e, an
      integer exactly when 10^e divides m. */
  lemma ExponentRoundTrip(m: nat, e: nat)
    ensures ReadNumber(NatToString(m) + "e" + NatToString(e)) == Finite(m * Pow10(e))
    ensures ReadNumber(NatToString(m) + "e-" + NatToString(e))
      == if m % Pow10(e) == 0 then Finite(m / Pow10(e)) else Unevaluated
  {
    PositiveExponentRoundTrip(m, e);
    NegativeExponentRoundTrip(m, e);
  }

  lemma PositiveExponentRoundTrip(m: nat, e: nat)
    ensures ReadNumber(NatToString(m) + "e" + NatToString(e)) == Finite(m * Pow10(e))
  {
    var dm, de := NatToString(m), NatToString(e);
    var x := dm + "e" + de;
    DigitsValueOfNatToString(m);
    DigitsValueOfNatToString(e);
    ExponentDigits(dm, de);
    assert IsDigit(dm[0]) && IsDigit(de[|de| - 1]) && x[0] == dm[0] && x[|x| - 1] == de[|de| - 1];
    ReadBare(x);
  }

  /** A text that neither starts nor ends with white space is read as it is. */
  lemma ReadBare(x: string)
    requires x != "" && !IsJsWhiteSpace(x[0]) && !IsJsWhiteSpace(x[|x| - 1])
    ensures ReadNumber(x) == ReadTrimmed(x)
  {
    ReadAround("", x, "");
    assert "" + x + "" == x;
  }

  lemma NegativeExponentRoundTrip(m: nat, e: nat)
    ensures ReadNumber(NatToString(m) + "e-" + NatToString(e))
      == if m % Pow10(e) == 0 then Finite(m / Pow10(e)) else Unevaluated
  {
    var dm, de := NatToString(m), NatToString(e);
    var x := dm + "e-" + de;
    DigitsValueOfNatToString(m);
    DigitsValueOfNatToString(e);
    NegativeExponentDigits(dm, de);
    assert IsDigit(dm[0]) && IsDigit(de[|de| - 1]) && x[0] == dm[0] && x[|x| - 1] == de[|de| - 1];
    ReadBare(x);
  }

  /** `0x`, `0o` and `0b` numerals read as their value in base 16, 8 and 2;
      a sign before them makes the text NaN. */
  lemma RadixRoundTrip(prefix: char, digits: string)
    requires RadixOf(prefix) != 0 && digits != "" && AllDigitsIn(digits, RadixOf(prefix))
    ensures ReadTrimmed(['0', prefix] + digits) == Finite(RadixValue(digits, RadixOf(prefix)))
    ensures ReadTrimmed(['-', '0', prefix] + digits) == NaN
  {
    var t := ['0', prefix] + digits;
    assert t[2..] == digits;
    forall i | 0 <= i < |digits|
      ensures digits[i] != '.'
    {
      assert HexDigitValue(digits[i]) < 16;
    }
    assert '.' !in t;
    var u := ['-'] + t;
    assert ['-', '0', prefix] + digits == u;
    assert u[1..] == t && '.' !in u && u[0] == '-';
    assert t != "Infinity" by {
      assert t[0] == '0' && "Infinity"[0] == 'I';
    }
    assert ExponentAt(t) >= 2 by {
      assert t[0] != 'e' && t[0] != 'E' && t[1] != 'e' && t[1] != 'E';
      assert ExponentAt(t) == ExponentAt(t[1..]) + 1;
    }
    assert !IsDigit(t[1]) && t[..ExponentAt(t)][1] == t[1];
    assert ReadUnsignedDecimal(t) == NaN;
  }

  /** Two component lists that differ only in their last component compare
      as that component does. */
  lemma {:induction false} LessFromLast(c: seq<int>, x: int, y: int, i: nat)
    requires i <= |c|
    ensures LessFrom(c + [x], c + [y], i) == (x < y)
    decreases |c| - i
  {
    if i < |c| {
      assert At(c + [x], i) == At(c + [y], i);
      LessFromLast(c, x, y, i + 1);
    } else {
      assert At(c + [x], i) == x && At(c + [y], i) == y;
    }
  }

  /** Versions that differ only in their last part compare as the values
      `Number` gives those parts. */
  lemma LastPartCompares(v: string, x: string, y: string)
    requires '.' !in x && '.' !in y
    ensures IsVersionLessThan(v + "." + x, v + "." + y) <==> ComponentValue(x) < ComponentValue(y)
  {
    ComponentsOfDotted(v, x);
    ComponentsOfDotted(v, y);
    LessFromLast(Components(v), ComponentValue(x), ComponentValue(y), 0);
  }

  lemma NaturalComponent(n: nat)
    ensures '.' !in NatToString(n)
    ensures ComponentValue(NatToString(n)) == n
  {
    DecimalRoundTrip(n, "", "");
    assert "" + NatToString(n) + "" == NatToString(n);
    DigitsAreNotMarkers(NatToString(n));
  }

  lemma NegativeComponent(n: nat)
    ensures '.' !in "-" + NatToString(n)
    ensures ComponentValue("-" + NatToString(n)) == -(n as int)
  {
    DecimalRoundTrip(n, "", "");
    assert "" + ("-" + NatToString(n)) + "" == "-" + NatToString(n);
    DigitsAreNotMarkers(NatToString(n));
  }

  lemma ExponentComponent(m: nat, e: nat)
    ensures '.' !in NatToString(m) + "e" + NatToString(e)
    ensures ComponentValue(NatToString(m) + "e" + NatToString(e)) == m * Pow10(e)
  {
    ExponentRoundTrip(m, e);
    DigitsAreNotMarkers(NatToString(m));
    DigitsAreNotMarkers(NatToString(e));
  }

  /** "<m>e-<e>" is the component m/10^e when that is whole, and 0 for a
      fraction, which is not evaluated here. */
  lemma NegativeExponentComponent(m: nat, e: nat)
    ensures '.' !in NatToString(m) + "e-" + NatToString(e)
    ensures ComponentValue(NatToString(m) + "e-" + NatToString(e)) == if m % Pow10(e) == 0 then m / Pow10(e) else 0
  {
    ExponentRoundTrip(m, e);
    DigitsAreNotMarkers(NatToString(m));
    DigitsAreNotMarkers(NatToString(e));
  }

  /** A last part "<m>e-<e>" whose value is whole compares by that value:
      "1.5e-0" is not less than "1.4", and "1.10e-1" equals "1.1". */
  lemma NegativeExponentPartCompares(v: string, m: nat, e: nat, k: nat)
    requires m % Pow10(e) == 0
    ensures IsVersionLessThan(v + "." + (NatToString(m) + "e-" + NatToString(e)), v + "." + NatToString(k))
      <==> m / Pow10(e) < k
    ensures IsVersionLessThan(v + "." + NatToString(k), v + "." + (NatToString(m) + "e-" + NatToString(e)))
      <==> k < m / Pow10(e)
  {
    NegativeExponentComponent(m, e);
    NaturalComponent(k);
    LastPartCompares(v, NatToString(m) + "e-" + NatToString(e), NatToString(k));
    LastPartCompares(v, NatToString(k), NatToString(m) + "e-" + NatToString(e));
  }

  /** The parts "5e-0" and "10e-1" read as 5 and 1, where a fraction would
      count as 0. */
  lemma WholeNegativeExponents()
    ensures ComponentValue("5e-0") == 5 && ComponentValue("10e-1") == 1
  {
    assert ComponentValue("5e-0") == 5 by {
      assert NatToString(5) == "5" && NatToString(0) == "0";
      assert Pow10(0) == 1;
      NegativeExponentComponent(5, 0);
      assert NatToString(5) + "e-" + NatToString(0) == "5e-0";
    }
    assert ComponentValue("10e-1") == 1 by {
      assert NatToString(10) == "10" by {
        assert NatToString(10) == NatToString(1) + [DigitChar(0)];
      }
      assert NatToString(1) == "1";
      assert Pow10(1) == 10;
      NegativeExponentComponent(10, 1);
      assert NatToString(10) + "e-" + NatToString(1) == "10e-1";
    }
  }

  /** A version with a negative last part, such as "1.-1", is less than the
      same version ending in any natural, such as "1.0". */
  lemma NegativePartIsLess(v: string, n: nat, k: nat)
    requires n > 0
    ensures IsVersionLessThan(v + "." + ("-" + NatToString(n)), v + "." + NatToString(k))
  {
    NegativeComponent(n);
    NaturalComponent(k);
    LastPartCompares(v, "-" + NatToString(n), NatToString(k));
  }

  /** A last part with an exponent, such as "1e3", is compared by its value
      m·10^e against a plain last part k: "1.1e3" is not less than "1.999". */
  lemma ExponentPartCompares(v: string, m: nat, e: nat, k: nat)
    ensures IsVersionLessThan(v + "." + (NatToString(m) + "e" + NatToString(e)), v + "." + NatToString(k))
      <==> m * Pow10(e) < k
    ensures IsVersionLessThan(v + "." + NatToString(k), v + "." + (NatToString(m) + "e" + NatToString(e)))
      <==> k < m * Pow10(e)
  {
    ExponentComponent(m, e);
    NaturalComponent(k);
    LastPartCompares(v, NatToString(m) + "e" + NatToString(e), NatToString(k));
    LastPartCompares(v, NatToString(k), NatToString(m) + "e" + NatToString(e));
  }
}
